=== FILE: README.md ===
# greek-anki-deck-builder, modelled in Dafny

The tool builds supplementary Anki decks from a Greek frequency list. This project models
its core as pure Dafny functions, methods and lemmas. The modules follow the package's
files:

- **`Normalizer`** (`normalize_greek`, matcher.py). The comparison key for lemmas, deck
  fields and cache entries. It replaces confusable Latin characters, composes accents,
  strips HTML tags and non-breaking spaces, trims, drops one leading article, collapses
  whitespace and lower-cases.
- **`Matcher`** (`extract_tokens`, `freq_word_in_anki`). Splits a Back field into tokens.
  Decides whether a frequency word is already covered by the deck: one token equals the
  word's normal form, or is within one edit of it.
- **`MatcherExamples`**. Worked inputs of the normaliser and the tokeniser, proved from the
  general lemmas.
- **`FreqList`** (`FreqDB`, freq_list.py). The frequency ledger: a table of rows kept in
  rank order, each with a processing status (0 pending, 1 in Anki, 2 skipped). Covers
  marking, batch marking, skipping, the pending and range queries, the status summary with
  its 500-rank buckets, and lookup by Greek text.
- **`FreqImport`** (`import_csv`). The CSV import loop. Tracks row numbers as ranks,
  empty-row and duplicate accounting, deduplication on the normal form, and the auto-skip
  of function words.
- **`CardCache`** (card_cache.py). The upsert cache of generated card data, keyed by normal
  form. Also models its statistics, the rebuild of a card from cached data, and
  `generate_card_cached`.
- **`Html`**. `html.escape` and its inverse, used to state what a rendered field says.
- **`ClaudeGenerator`** (claude_generator.py):
  - `_sanitize_example_greek`, both as written and corrected (see Findings);
  - `render_fields` and `to_note_dict`;
  - the brace scan of `_extract_json`.
- **`AnkiDeck`** (anki_deck.py):
  - decoding of a note row, where fields are split on `\x1f`, tags on whitespace, and
    missing fields padded to six;
  - the fields, tags and GUID that `create_supplement_apkg` writes.
- **`Cli`** (cli.py). The pure parts of the commands:
  - `sync`;
  - the tags of `add` and `add-batch`;
  - the defaults of `build-deck`;
  - candidate selection and field merging of `enrich`;
  - the Back lookup and refreshed note of `refresh`;
  - the tag merge of `tag`;
  - the chunked coverage of `cache-status`.
- **`Config`, `Unicode`, `Strings`, `Wrappers`**:
  - the constants of config.py;
  - the character tables the code relies on (`str.isspace`; `str.lower` with its final-sigma
    rule; the character comparison of `re.IGNORECASE`; NFC on Greek);
  - Python's string operations (`strip`, `split`, `" ".join`, `replace`, slicing);
  - `Option` and `Result`.

Several things the program reads from outside are parameters of the model:

| outside input | modelled as |
|---|---|
| clock | `now` string, or a `clock` function |
| `int()` on a CSV cell | `parseInt` |
| normaliser, inside the ledger, import and cache | `norm`; the program passes `normalize_greek`, which is `Normalizer.NormalizeGreek` |
| model call | `generate` |
| JSON parser | `parse` |
| fenced-block regular expression | `fence` |
| deck-id hash | `idOf` |
| integer formatting | `show` |

SQL tables are sequences of rows in rank order. A query without `ORDER BY` returns rows in
rank order.

### Where the model follows the code rather than the documented behaviour

- `extract_tokens` splits on `,` and `/` only. It does not split on newlines first.
- `freq_word_in_anki` accepts any token within edit distance one of the word. Short words
  get no length guard.
- `normalize_greek` is not idempotent. It drops one article per call, so "η η πόλη" becomes
  "η πόλη" and then "πόλη" (`Normalizer.NormalizeNotIdempotent`).
- `mark_processed` can update a row through the normalised fallback. Called a second time
  with the same word and a non-pending status, it returns `False` when no other row shares
  that normal form, because the one matching row is no longer pending
  (`FreqList.MarkFallbackTwice`).

## Model

| member | source | states |
|---|---|---|
| Unicode.Lower | greek_anki/matcher.py:53 | lower-casing keeps whitespace as whitespace and changes only Latin and Greek capitals |
| Unicode.LowerIdempotent | greek_anki/matcher.py:53 | lower-casing a lower-cased character changes nothing |
| Unicode.LowerString | greek_anki/matcher.py:53 | `str.lower` keeps the length and lowers each character by the table, except that a capital sigma ending a word (a cased letter before it and none after it, looking past case-ignorable characters) becomes final sigma; every result character is lower-case, keeps its case-insensitive class and its whitespace class |
| Unicode.Fold | greek_anki/matcher.py:27 | the key `re.IGNORECASE` compares on keeps whitespace classes and gives capital, small and final sigma one key |
| Unicode.Nfc | greek_anki/matcher.py:45 | composition never lengthens the text; every character of the result comes from the input or is a precomposed Greek letter |
| Unicode.NfcNoMarks | greek_anki/matcher.py:45 | the modelled composition leaves text without a combining acute or diaeresis unchanged |
| Strings.LStrip | greek_anki/matcher.py:49 | the result is a suffix of the input, starts with a non-space, and everything dropped is whitespace |
| Strings.RStrip | greek_anki/matcher.py:49 | the result is a prefix of the input, ends with a non-space, and everything dropped is whitespace |
| Strings.Trim | greek_anki/matcher.py:49 | `strip()` leaves no outer whitespace, uses only the input's characters, and fixes text that is already trimmed |
| Strings.TrimSlice | greek_anki/matcher.py:49 | `strip()` gives the slice of the text that starts where `lstrip()` stops, with only whitespace before and after it |
| Strings.TrimEmptyIffBlank | greek_anki/cli.py:638-639 | a text strips to empty exactly when every character is whitespace |
| Strings.SplitAny | greek_anki/anki_deck.py:81 | `split` yields one more piece than there are separators; no piece holds a separator; the pieces spell the input without its separators |
| Strings.SplitJoin | greek_anki/anki_deck.py:81 | joining the pieces of a split with the separator gives the text back |
| Strings.JoinSplit | greek_anki/anki_deck.py:81 | splitting a join of separator-free parts gives the parts back |
| Strings.SplitTwo | greek_anki/matcher.py:62 | a text with exactly one separator splits into the two sides |
| Strings.SplitWhitespace | greek_anki/anki_deck.py:83 | `split()` yields non-empty words without whitespace, and no word exactly when the text is blank |
| Strings.SplitWhitespaceSpace | greek_anki/anki_deck.py:83 | a whitespace character in front of a text adds no word to its `split()` |
| Strings.SplitWhitespaceLetter | greek_anki/anki_deck.py:83 | a non-space character in front becomes a word of its own before empty text or whitespace, and otherwise the first letter of the text's first word; with SplitWhitespaceSpace this fixes `split()` on every text |
| Strings.SplitTrailingSpace | greek_anki/anki_deck.py:83 | trailing whitespace adds no word |
| Strings.SplitTrim | greek_anki/anki_deck.py:82-83 | `s.strip().split() == s.split()` for every text |
| Strings.CollapseWhitespace | greek_anki/matcher.py:52 | `" ".join(text.split())` is trimmed, and its only spaces are single plain spaces between words |
| Strings.CollapseKeepsWords | greek_anki/matcher.py:52 | collapsing keeps the sequence of words |
| Strings.CollapseFixesCollapsed | greek_anki/matcher.py:52 | collapsing already collapsed text changes nothing |
| Strings.SplitJoinWords | greek_anki/matcher.py:52 | splitting words joined by single spaces gives the words back |
| Strings.ReplaceCharRemoves | greek_anki/matcher.py:43 | replacing a character by text that lacks it removes every occurrence |
| Strings.ReplaceAvoids | greek_anki/matcher.py:47 | `replace` brings in no character that neither the text nor the replacement holds |
| Strings.ReplaceAbsent | greek_anki/matcher.py:47 | `replace` of a pattern that does not occur changes nothing |
| Strings.PyTake | greek_anki/claude_generator.py:169 | `text[:n]` is the prefix of length n, or the whole text when it is shorter; a negative n drops that many from the end |
| Normalizer.ReplaceConfusables | greek_anki/matcher.py:13-17 | each MICRO SIGN, Latin o and Latin O becomes Greek mu, omicron and capital omicron; nothing else changes; no confusable remains |
| Normalizer.ReplaceConfusablesIdempotent | greek_anki/matcher.py:42-43 | replacing confusables twice is the same as once |
| Normalizer.ReplaceConfusablesAppend | greek_anki/matcher.py:42-43 | the replacement works piecewise over concatenation |
| Normalizer.NormalizeIgnoresConfusables | greek_anki/matcher.py:42-43 | a text and its confusable-free form have the same normal form |
| Normalizer.StripTagsLeavesNoTag | greek_anki/matcher.py:19 | after tag stripping no `<…>` with non-empty contents remains |
| Normalizer.StripTagsAvoids | greek_anki/matcher.py:46 | stripping tags brings in no new character |
| Normalizer.StripTagsPlainThen | greek_anki/matcher.py:46 | text before the first `<` is kept as it is |
| Normalizer.StripTagsTagThen | greek_anki/matcher.py:46 | a leading tag is removed whole |
| Normalizer.StripTagsNoAngle | greek_anki/matcher.py:46 | text without `<` has no tag to strip |
| Normalizer.ReplaceNbsp | greek_anki/matcher.py:47 | no non-breaking space survives |
| Normalizer.ArticleAlternationIsArticles | greek_anki/matcher.py:26 | the regular expression's alternatives are exactly the configured articles |
| Normalizer.FoldSpellingUnique | greek_anki/matcher.py:27 | two article letters that `re.IGNORECASE` equates are the same letter |
| Normalizer.ArticleUnique | greek_anki/matcher.py:23-28 | at most one article matches at the start of a text, so the longest-first order makes no difference |
| Normalizer.FindArticle | greek_anki/matcher.py:27 | the search finds an alternative that matches under `re.IGNORECASE` (σ, ς and Σ alike) and is followed by whitespace, or reports that none does |
| Normalizer.StripArticle | greek_anki/matcher.py:50 | a matching article and the whitespace after it are removed; text that starts with no article is unchanged |
| Normalizer.NormalizeGreek | greek_anki/matcher.py:31-53 | the normal form is collapsed, trimmed, lower-cased and free of confusables |
| Normalizer.NormalizeAvoids | greek_anki/matcher.py:31-53 | a character missing from the input after confusable replacement is missing from the normal form too, when the steps cannot create it |
| Normalizer.NormalFormTrimmed | greek_anki/matcher.py:53 | the final strip changes nothing on a normal form |
| Normalizer.CleanedFixes | greek_anki/matcher.py:42-49 | steps 1 to 5 leave a clean normal form alone |
| Normalizer.NormalizeFixesClean | greek_anki/matcher.py:31-53 | a normal form with no markup, nbsp or leading article is its own normal form |
| Normalizer.NormalizeDropsArticle | greek_anki/matcher.py:50 | an article, a space and a clean word normalise to the word |
| Normalizer.NormalizeNotIdempotent | greek_anki/matcher.py:50 | a doubled article loses one article per call, so normalising twice differs from once |
| Normalizer.NormalizeLatinArticle | greek_anki/matcher.py:13-17 | an article spelt with a Latin o is still recognised and dropped |
| MatcherExamples.NormalizeEmpty | greek_anki/matcher.py:31-53 | the empty text normalises to itself |
| MatcherExamples.NormalizeGluedArticle | greek_anki/matcher.py:27 | "ηπόλη" keeps its "η", because an article must be followed by whitespace |
| MatcherExamples.DoubledArticle | greek_anki/matcher.py:50 | "η η πόλη" normalises to "η πόλη", which normalises to "πόλη" |
| MatcherExamples.LatinArticleExample | greek_anki/matcher.py:13-17 | "τo σπίτι" with a Latin o and "το σπίτι" both normalise to "σπίτι" |
| MatcherExamples.NormalizeDivExample | greek_anki/matcher.py:31-53 | `"<div>Η Πόλη</div>"` normalises to "πόλη": tags gone, capital article dropped, lower-cased |
| MatcherExamples.WordEndSigma | greek_anki/matcher.py:53 | "ΤΟΥΣ" lower-cases to "τους", with a final sigma |
| MatcherExamples.WordStartSigma | greek_anki/matcher.py:53 | "ΣΑΣ" lower-cases to "σας": only the word-final sigma is final |
| MatcherExamples.StripCapitalSigmaArticle | greek_anki/matcher.py:27 | "ΤΟΥΣ φίλους" loses its capital article "ΤΟΥΣ" |
| MatcherExamples.StripSmallSigmaArticle | greek_anki/matcher.py:27 | "τουσ φίλους" loses "τουσ", which matches the article "τους" case-insensitively |
| MatcherExamples.TokensExample | greek_anki/matcher.py:56-63 | "ο σκύλος, η γάτα" gives the tokens "σκύλος" and "η γάτα": only the field's first article is dropped |
| Matcher.KeepStripped | greek_anki/matcher.py:63 | the kept tokens are stripped and non-empty, and there are no more of them than pieces |
| Matcher.KeepStrippedMembers | greek_anki/matcher.py:63 | a token is kept exactly when it is the non-empty strip of some piece |
| Matcher.KeepTwo | greek_anki/matcher.py:63 | two trimmed pieces, the second after a space, are kept as they are |
| Matcher.ExtractTokens | greek_anki/matcher.py:56-63 | the tokens are exactly the non-empty stripped pieces of the normal form cut at commas and slashes; each is trimmed and free of comma and slash |
| Matcher.TokensShape | greek_anki/matcher.py:56-63 | every token is non-empty, trimmed, and free of comma and slash |
| Matcher.TokensWithoutSeparators | greek_anki/matcher.py:56-63 | a text whose normal form has no comma or slash has that normal form as its only token, or no token when it is empty |
| Matcher.TokensAvoid | greek_anki/matcher.py:56-63 | tokens hold no character the normal form lacks |
| Matcher.LevZero | greek_anki/matcher.py:83 | edit distance zero means equal strings |
| Matcher.WithinOneEditIsLev | greek_anki/matcher.py:83 | the linear one-edit test holds exactly when the Levenshtein distance is at most one |
| Matcher.WithinOneEditLengths | greek_anki/matcher.py:83 | strings within one edit differ in length by at most one |
| Matcher.SubstitutionWithinOneEdit | greek_anki/matcher.py:83 | changing one character is within one edit |
| Matcher.AppendedLetterMatches | greek_anki/matcher.py:83 | adding one letter is within one edit, so a token with an extra ending still matches |
| Matcher.ScanTokens | greek_anki/matcher.py:80-84 | the token loop answers true exactly when some token equals the target or is within one edit |
| Matcher.ScanFields | greek_anki/matcher.py:78-86 | the field loop answers true exactly when some field's token list has a matching token |
| Matcher.TokenLists | greek_anki/matcher.py:79 | each field's tokens are its `extract_tokens` |
| Matcher.FreqWordInAnki | greek_anki/matcher.py:66-86 | true exactly when some Back field has a token equal to, or within one edit of, the word's normal form |
| Matcher.CloseIsLev | greek_anki/matcher.py:81-84 | the code's token test is the edit-distance criterion: equal or Levenshtein distance at most one |
| Matcher.ExactTokenCovers | greek_anki/matcher.py:81-82 | a field holding the target as a token covers it |
| Matcher.SameWordCovers | greek_anki/matcher.py:66-86 | a Back field with the same normal form as the word, without separators, covers the word |
| FreqList.CountBelow | greek_anki/freq_list.py:122-146 | the rows ranked below a rank form a prefix of the rank-ordered table |
| FreqList.Insert | greek_anki/freq_list.py:122-146 | an insert is refused exactly when the rank is taken; otherwise the table gains exactly that row and stays in rank order |
| FreqList.Stamp | greek_anki/freq_list.py:164-168 | an update writes the given status, the current time and the given notes, and never touches rank, text or frequency |
| FreqList.StampGreek | greek_anki/freq_list.py:164-168 | `UPDATE … WHERE greek=?` stamps every row with that exact text and no other |
| FreqList.StampRank | greek_anki/freq_list.py:180-184 | `UPDATE … WHERE rank=?` stamps the one row of that rank |
| FreqList.StampRanks | greek_anki/freq_list.py:208-218 | a set of rank updates stamps exactly the rows with those ranks |
| FreqList.FirstPendingWith | greek_anki/freq_list.py:177-186 | finds the first pending row in rank order whose text normalises to the key, or proves there is none |
| FreqList.MarkProcessed | greek_anki/freq_list.py:155-189 | exact text match updates all rows with that text; otherwise the first pending row with the same normal form; returns true exactly when a row was updated; a false answer leaves the table unchanged |
| FreqList.MarkExactTwice | greek_anki/freq_list.py:164-172 | marking a word present verbatim a second time, at a later time, succeeds again; it only moves the timestamp of the rows with that text, keeping their status and notes and every other row |
| FreqList.StampGreekTwice | greek_anki/freq_list.py:164-168 | a second update of the rows with a text overrides the first |
| FreqList.MarkFallbackTwice | greek_anki/freq_list.py:174-189 | when no two rows share a normal form, after a fallback hit with a non-pending status the same call again finds no pending row and returns false |
| FreqList.PendingIndexSpec | greek_anki/freq_list.py:199-206 | `norm_to_rank` has a key exactly for the normal forms of pending rows, and maps it to the last such row in rank order |
| FreqList.MarkEachIsStampRanks | greek_anki/freq_list.py:208-218 | the update loop equals one stamp of all looked-up ranks, and counts one per word found, repeats included |
| FreqList.MarkManyProcessed | greek_anki/freq_list.py:191-221 | the count is the number of words whose normal form names a pending row; exactly the rows those words map to are stamped |
| FreqList.MarkManyOnlyPending | greek_anki/freq_list.py:197-206 | batch marking changes only rows that were pending |
| FreqList.MarkManyHitsLastPending | greek_anki/freq_list.py:203-206 | when pending rows share a normal form, the highest-ranked of them is the one marked |
| FreqList.RankDeterminesRow | greek_anki/freq_list.py:214-216 | a rank names one row, so an update by rank touches one row |
| FreqList.SkipNote | greek_anki/freq_list.py:331 | the note starts with "manual skip" and, given a reason, carries it after "manual skip: " |
| FreqList.SkipWords | greek_anki/freq_list.py:322-332 | the count is the number of words whose normal form names a pending row; exactly the rows those words map to become skipped with the manual-skip note and the time; only pending rows change |
| FreqList.Filter | greek_anki/freq_list.py:227-251 | a filter keeps exactly the rows that pass, drawn from the table |
| FreqList.FilterAscending | greek_anki/freq_list.py:245 | a filtered table is still in rank order |
| FreqList.Select | greek_anki/freq_list.py:262-269 | a query result holds exactly the matching rows and stays in rank order |
| FreqList.GetPending | greek_anki/freq_list.py:227-251 | returns pending rows inside the bounds in rank order, as a prefix of all of them; all of them without a limit or with a negative one; otherwise exactly the smaller of `limit` and their number |
| FreqList.GetRange | greek_anki/freq_list.py:253-270 | returns the rows in the closed range, except skipped rows whose notes start with "auto-skip" (ASCII case-insensitive) and skipped rows with no notes |
| FreqList.ManualSkipsStayInRange | greek_anki/freq_list.py:264-269 | manually skipped words still appear in range queries; auto-skipped function words do not |
| FreqList.ShiftCard | greek_anki/freq_list.py:276-285 | moving a set of row positions one place up keeps its size |
| FreqList.StatusIndicesCons | greek_anki/freq_list.py:276-285 | the rows with a status are the first row, if it has it, and those of the rest |
| FreqList.CountStatus | greek_anki/freq_list.py:276-285 | a status count is the number of rows with that status |
| FreqList.StatusCountsBounded | greek_anki/freq_list.py:276-285 | the three status counts add up to at most the total, and to the total when every status is 0, 1 or 2 |
| FreqList.MaxRankOrZero | greek_anki/freq_list.py:287-289 | `MAX(rank) or 0` is 0 for an empty table, and otherwise the greatest rank |
| FreqList.BucketCount | greek_anki/freq_list.py:291 | `range(1, max_rank + 1, 500)` has just enough buckets to reach the maximum rank |
| FreqList.Buckets | greek_anki/freq_list.py:291-312 | bucket i spans ranks 1+500i to 500(i+1) |
| FreqList.GetStatusSummary | greek_anki/freq_list.py:272-320 | the summary total is the row count, the in-Anki, skipped and pending counts are the numbers of rows with status 1, 2 and 0 and add up to at most the total, and there is one bucket per 500 ranks up to the maximum |
| FreqList.WindowCountsBounded | greek_anki/freq_list.py:296-306 | within a bucket the per-status sums do not exceed its total, and equal it when every status is 0, 1 or 2 |
| FreqList.SummaryBucket | greek_anki/freq_list.py:291-312 | each bucket's bounds and count; its sums are NULL exactly when it is empty |
| FreqList.CountBetweenSplit | greek_anki/freq_list.py:304 | counting over adjacent rank windows adds up |
| FreqList.BucketTotals | greek_anki/freq_list.py:291-312 | the bucket totals add up to the rows ranked 1 to 500n |
| FreqList.SummaryBucketsCoverTable | greek_anki/freq_list.py:291-312 | with positive ranks, the bucket totals add up to the whole table |
| FreqList.BucketOfRank | greek_anki/freq_list.py:291-312 | every row with a positive rank lies in the bucket (rank-1)/500 |
| FreqList.GetWordByGreek | greek_anki/freq_list.py:334-349 | an exact text match wins, taking the first such row; otherwise the first row in rank order with the same normal form; none when neither exists |
| FreqList.FirstWhere | greek_anki/freq_list.py:345-348 | finds the first row satisfying the test, or proves there is none |
| FreqList.MarkThenLookup | greek_anki/freq_list.py:155-172 | after marking a word present verbatim, looking it up returns it with the new status and notes |
| FreqImport.EntryFor | greek_anki/freq_list.py:122-146 | the row number is the rank; a normalised function word is inserted as skipped, stamped with the clock's time and the auto-skip note, when auto-skip is on; any other row is pending, with no timestamp and no note |
| FreqImport.Step | greek_anki/freq_list.py:98-146 | each row adds one to the row count, keeps the counts balanced, and grows the table by what it imports |
| FreqImport.Admit | greek_anki/freq_list.py:122-146 | a plain `INSERT`: the row is imported exactly when its rank is free; when the rank is taken the `IntegrityError` is caught and the row counts as a duplicate |
| FreqImport.StepRows | greek_anki/freq_list.py:98-146 | a row adds to the table only when it is usable and its normal form is new, and then only its own entry |
| FreqImport.StepSeen | greek_anki/freq_list.py:112-118 | every usable row's normal form is recorded as seen |
| FreqImport.Run | greek_anki/freq_list.py:98-146 | after the loop the row count is the number of rows, the counts balance, and the old table is kept |
| FreqImport.RunLast | greek_anki/freq_list.py:98 | the loop processes rows in order, numbering them from 1 |
| FreqImport.ImportCsv | greek_anki/freq_list.py:68-149 | fails exactly on a file with no header; otherwise `total_rows` counts the data rows and imported + duplicates + empty equals that |
| FreqImport.SeenIsUsableKeys | greek_anki/freq_list.py:112-118 | the seen set is exactly the normal forms of the usable rows read so far |
| FreqImport.AddedRowsAreFirstOfKey | greek_anki/freq_list.py:114-118 | every imported row is the first usable row with its normal form |
| FreqImport.FreshRanksBounded | greek_anki/freq_list.py:99 | into an empty table, ranks run from 1 to the number of rows |
| FreqImport.FreshImportRows | greek_anki/freq_list.py:98-146 | into an empty table, exactly the first usable row of each normal form is imported |
| FreqImport.FreshKeepsFirst | greek_anki/freq_list.py:114-118 | into an empty table, the first row of each normal form is kept |
| FreqImport.FreshImportNormUnique | greek_anki/freq_list.py:114-118 | a fresh import never holds two rows with the same normal form |
| FreqImport.ReimportKeepsTable | greek_anki/freq_list.py:122-146 | importing the same file again leaves the table unchanged |
| FreqImport.ReimportImportsNothing | greek_anki/freq_list.py:122-146 | a re-import imports nothing, and counts every row as a duplicate or empty |
| Html.EscapeChar | greek_anki/claude_generator.py:71 | `&`, `<`, `>`, `"` and `'` become entities; other characters stay |
| Html.Escape | greek_anki/claude_generator.py:71 | escaped text holds no markup character |
| Html.EscapePlain | greek_anki/claude_generator.py:71 | text without special characters is unchanged |
| Html.EscapeAppend | greek_anki/claude_generator.py:71 | escaping works piecewise over concatenation |
| Html.UnescapeEscape | greek_anki/claude_generator.py:71 | unescaping escaped text gives the text back |
| Html.UnescapeEscapeAppend | greek_anki/claude_generator.py:71 | escaped text is decoded back even when more text follows |
| Html.EscapeInjective | greek_anki/claude_generator.py:71 | different texts escape differently |
| ClaudeGenerator.SanitizeAsWritten | greek_anki/claude_generator.py:65-74 | the placeholder sanitiser as written leaves text without special characters and NUL unchanged; SanitizeAsWrittenCorrupts shows where it fails |
| ClaudeGenerator.SanitizeExample | greek_anki/claude_generator.py:65-74 | the corrected sanitiser never shortens its input and is empty only for empty input; what it means is SanitizeRoundTrip and SanitizeOnlyEmTags |
| ClaudeGenerator.SanitizeAsWrittenNul | greek_anki/claude_generator.py:65-74 | text holding the opening placeholder itself comes out as an `<em>` tag, though it has no special character |
| ClaudeGenerator.SanitizeAsWrittenPlain | greek_anki/claude_generator.py:65-74 | the placeholder version leaves text without special characters and without NUL unchanged |
| ClaudeGenerator.SanitizeAsWrittenCorrupts | greek_anki/claude_generator.py:65-74 | the placeholder version turns `"</em>EM<em>"` into text that does not decode to the input; the corrected one keeps it |
| ClaudeGenerator.SanitizeExampleExample | greek_anki/claude_generator.py:65-74 | the corrected sanitiser keeps `"</em>EM<em>"` as it is |
| ClaudeGenerator.SanitizeRoundTrip | greek_anki/claude_generator.py:65-74 | what a sanitised example shows, once decoded, is the original text |
| ClaudeGenerator.SanitizeRoundTripAppend | greek_anki/claude_generator.py:65-74 | the round trip holds even when more text follows |
| ClaudeGenerator.SanitizeOnlyEmTags | greek_anki/claude_generator.py:66 | the only markup in a sanitised example is `<em>` and `</em>` |
| ClaudeGenerator.SanitizePlain | greek_anki/claude_generator.py:65-74 | text without special characters is unchanged |
| ClaudeGenerator.SanitizeKeepsTags | greek_anki/claude_generator.py:69 | a leading `<em>` or `</em>` passes through |
| ClaudeGenerator.FrontHtml | greek_anki/claude_generator.py:81-85 | the front is never empty |
| ClaudeGenerator.FrontDecodes | greek_anki/claude_generator.py:81-85 | the front decodes to the Russian text and the English text, each in its own `<div>`, with an empty-line `<div>` between them |
| ClaudeGenerator.ExampleLines | greek_anki/claude_generator.py:88-92 | one list item per example, in order |
| ClaudeGenerator.CommentParts | greek_anki/claude_generator.py:96-109 | conjugation adds two parts, synonyms one, and no part is empty |
| ClaudeGenerator.RenderFields | greek_anki/claude_generator.py:76-120 | only the five HTML fields change; the front is never empty; collocations and etymology keep their old value when there is nothing to render; the comment is empty exactly when there is neither conjugation nor synonyms |
| ClaudeGenerator.RenderIdempotent | greek_anki/claude_generator.py:76-120 | rendering twice gives the same card as once |
| ClaudeGenerator.ToNoteDict | greek_anki/claude_generator.py:122-133 | renders only when the front is empty, and the dictionary holds the six fields of the resulting card |
| ClaudeGenerator.ToNoteDictStable | greek_anki/claude_generator.py:122-133 | a second `to_note_dict` gives the same dictionary and card |
| ClaudeGenerator.ExampleLineDecodes | greek_anki/claude_generator.py:90 | an example line decodes to the Greek and Russian texts between its fixed markup |
| ClaudeGenerator.EtymologyDecodes | greek_anki/claude_generator.py:119-120 | the etymology field decodes to the note inside `<em>` |
| ClaudeGenerator.ExampleFieldLines | greek_anki/claude_generator.py:93 | with no newline in the texts, the example field splits on newlines back into its lines |
| ClaudeGenerator.CommentShape | greek_anki/claude_generator.py:96-111 | with a conjugation the comment opens with it and a blank line; without one it is the synonym block |
| ClaudeGenerator.CommentOpensWithConjugation | greek_anki/claude_generator.py:98-100 | a non-empty conjugation opens the comment, followed by a blank line |
| ClaudeGenerator.MatchBrace | greek_anki/claude_generator.py:155-165 | the scan stops at the first brace that brings the depth back to zero, or reports that the depth never returns to zero |
| ClaudeGenerator.ClosesUnique | greek_anki/claude_generator.py:158-162 | an opening brace has at most one matching close |
| ClaudeGenerator.Find | greek_anki/claude_generator.py:152 | `text.find("{")` gives the first occurrence, or none when absent |
| ClaudeGenerator.ExtractJson | greek_anki/claude_generator.py:141-170 | a fenced block that parses wins; otherwise succeeds exactly when the span from the first `{` to its matching `}` parses; any failure carries the message with the first 500 characters |
| CardCache.Store | greek_anki/card_cache.py:73-86 | upsert on the normal form: a new entry records the word and creation time; an existing one keeps both and takes the new data, model and update time; other entries are untouched |
| CardCache.Get | greek_anki/card_cache.py:88-97 | finds the data stored under the word's normal form, or nothing |
| CardCache.StoreKeyedByNorm | greek_anki/card_cache.py:73-86 | every entry stays filed under the normal form of its original word |
| CardCache.StoreThenGet | greek_anki/card_cache.py:73-97 | after storing, any word with the same normal form reads the stored data |
| CardCache.StoreKeepsOthers | greek_anki/card_cache.py:73-97 | storing does not change lookups for other normal forms |
| CardCache.TextOr | greek_anki/card_cache.py:30-38 | `data.get(key, default)` for text values: the text when present, the default when the key is missing; a JSON null reads as the default (see Left out) |
| CardCache.OptionalText | greek_anki/card_cache.py:35 | `data.get(key)` for an optional text: none exactly when the key is missing or its value is not text (a JSON null among them), otherwise the text |
| CardCache.PartOfSpeech | greek_anki/card_cache.py:34 | the part of speech as the `pos::` tag prints it: the text, "unknown" when missing, and "None" for a JSON null |
| CardCache.DictToCard | greek_anki/card_cache.py:28-43 | fails with the `TypeError` of claude_generator.py:89 exactly when `examples` is null; otherwise missing keys take their defaults ("", "unknown", empty lists, none), a null part of speech reads "None", and the rebuilt card is rendered |
| CardCache.NullFieldsExample | greek_anki/card_cache.py:34-35 | `{"front_ru":"x","part_of_speech":null}` rebuilds with part of speech "None", and `{"front_ru":"x","examples":null}` fails with the `TypeError` |
| CardCache.DictToCardRendered | greek_anki/card_cache.py:42 | a card that is rebuilt is already rendered: rendering again or `to_note_dict` changes nothing |
| CardCache.GetCard | greek_anki/card_cache.py:99-104 | a cached word gives the card rebuilt from its data, or the rebuild's failure when its examples are null; an uncached one gives none |
| CardCache.Stats | greek_anki/card_cache.py:106-114 | the total is the number of entries; each model present maps to its entry count |
| CardCache.StatsSum | greek_anki/card_cache.py:106-114 | the per-model counts add up to the total |
| CardCache.SumCounts | greek_anki/card_cache.py:109-112 | adding counts over some models counts the entries made with any of them |
| CardCache.GenerateCardCached | greek_anki/card_cache.py:117-136 | without force, a cached word returns the cached card and leaves the cache unchanged, or fails when the cached examples are null; otherwise the card is generated and its raw data stored |
| CardCache.GenerateThenHit | greek_anki/card_cache.py:117-136 | a second call for a word with the same normal form is a cache hit and returns the stored data; it fails exactly when the stored examples are null, and a first call that failed makes it fail the same way |
| AnkiDeck.Pad | greek_anki/anki_deck.py:85-86 | missing fields are filled with empty strings up to six; existing ones are kept |
| AnkiDeck.DecodeTags | greek_anki/anki_deck.py:82-83 | the tags are exactly `split()` of the tag column (the strip before it changes nothing), and none for NULL or blank text |
| AnkiDeck.DecodeRow | greek_anki/anki_deck.py:79-99 | the note takes id and guid from the row, and its six fields are the first six pieces of the `\x1f` split, padded |
| AnkiDeck.DecodeEncode | greek_anki/anki_deck.py:79-99 | a note stored with fields joined by `\x1f` and tags by spaces reads back as the same note |
| AnkiDeck.TagsRoundTrip | greek_anki/anki_deck.py:82-83 | space-joined tags split back into the same tags |
| AnkiDeck.ExtraFieldsIgnored | greek_anki/anki_deck.py:88-99 | fields beyond the sixth do not change the note |
| AnkiDeck.NoteFields | greek_anki/anki_deck.py:158-165 | the six written fields are the dictionary's values in note-type order, empty where a key is missing |
| AnkiDeck.NoteFieldsOfCard | greek_anki/anki_deck.py:158-165 | a card's note dictionary is written field for field |
| AnkiDeck.WrittenFieldsReadBack | greek_anki/anki_deck.py:155-168 | fields written to a package read back unchanged by the row decoder |
| AnkiDeck.SetupDeck | greek_anki/anki_deck.py:153 | a zero or missing deck id, or an empty or missing name, falls back to the configured deck; missing tags mean none |
| AnkiDeck.SupplementNotes | greek_anki/anki_deck.py:155-168 | one note per dictionary, with its fields, the shared tags and its own guid when given |
| Cli.AnyOfSome | greek_anki/cli.py:120 | the short-circuit search answers true exactly when some element passes |
| Cli.FoundInDeckSome | greek_anki/cli.py:120 | a word is in the deck exactly when some Back field covers its normal form |
| Cli.InDeck | greek_anki/cli.py:120 | the loop computes the deck test |
| Cli.SkipAsDuplicate | greek_anki/cli.py:326 | the skip test of `add` holds exactly when the deck test holds, so the `back_fields and` guard never changes the answer |
| Cli.SyncWords | greek_anki/cli.py:116-121 | the matched words are drawn from the pending rows |
| Cli.SyncWordsMembers | greek_anki/cli.py:116-121 | a word is matched exactly when it is pending and found in the deck |
| Cli.SelectedMembers | greek_anki/cli.py:119-121 | the filter keeps exactly the words that pass |
| Cli.SelectNext | greek_anki/cli.py:119-121 | one loop pass appends the row's word exactly when it is in the deck |
| Cli.SelectMatched | greek_anki/cli.py:116-121 | the loop collects exactly the pending words found in the deck, in rank order |
| Cli.Sync | greek_anki/cli.py:103-131 | with no match nothing changes; otherwise the matched words are batch-marked in Anki with the sync note, and only pending rows change |
| Cli.SyncWordsArePending | greek_anki/cli.py:116-121 | every matched word is the text of a pending row |
| Cli.BucketStart | greek_anki/cli.py:379-380 | `((rank - 1) // 500) * 500 + 1` is the start of the 500-wide bucket holding the rank |
| Cli.BucketStartUnique | greek_anki/cli.py:379-380 | that bucket is the only one of its kind holding the rank |
| Cli.BucketStartIsSummaryBucket | greek_anki/cli.py:572-577 | the tag bucket is the status summary's bucket for the same rank |
| Cli.FreqTag | greek_anki/cli.py:380-381 | the frequency tag names the one 500-wide bucket, starting at 1 mod 500, that holds the rank |
| Cli.BatchTags | greek_anki/cli.py:572-577 | an accepted batch card gets the three base tags, its part of speech, and its rank bucket tag |
| Cli.AddTags | greek_anki/cli.py:369-381 | an added card gets three tags, plus the bucket tag when the word is in the frequency list |
| Cli.DeckNameFor | greek_anki/cli.py:871-876 | default deck name "Greek Top N" from rank 1, "Greek A-B" otherwise |
| Cli.OutputFor | greek_anki/cli.py:878-883 | default file name "Greek_top_N.apkg" from rank 1, "Greek_A_B.apkg" otherwise |
| Cli.BuildDeckTags | greek_anki/cli.py:977-981 | the third build-deck tag names the requested range |
| Cli.BuildTagMatchesBatchTag | greek_anki/cli.py:977-981 | a deck built over one 500-rank bucket carries the same frequency tag as batch cards from it |
| Cli.Candidates | greek_anki/cli.py:636-648 | `--full` picks notes with no example and no comment; the default picks notes missing any enrichable field. There is one entry per wanted note, repeats included, in deck order: a wanted note sits at the index given by the number of wanted notes before it, and the length is the number of wanted notes |
| Cli.FullCandidatesWithinDefault | greek_anki/cli.py:636-648 | every full-mode candidate is also a default-mode candidate |
| Cli.ToEnrich | greek_anki/cli.py:657 | `candidates[:limit]`: a prefix of the candidates. Its length is the smaller of the limit and the candidate count; a negative limit drops that many candidates from the end, and gives none when it is at least the count |
| Cli.CleanWord | greek_anki/cli.py:663 | the word taken from a Back field is trimmed, and is the stripped field itself when the field has no `<` |
| Cli.KeepOrFill | greek_anki/cli.py:697-700 | existing content wins; a blank field takes the generated one |
| Cli.EnrichedNote | greek_anki/cli.py:678-703 | the enriched note keeps guid, front and back and fills the other four fields by mode |
| Cli.EnrichFullReplaces | greek_anki/cli.py:678-690 | full mode replaces all four generated fields |
| Cli.EnrichFillsOnlyBlanks | greek_anki/cli.py:691-703 | default mode replaces only the blank fields |
| Cli.EnrichKeepsCompleteNote | greek_anki/cli.py:691-703 | a note with no blank field is written back unchanged |
| Cli.KeepOrFillIdempotent | greek_anki/cli.py:697-700 | filling twice is the same as filling once |
| Cli.BackLookup | greek_anki/cli.py:748-752 | the lookup has one key per normalised, tag-free Back field, mapped to the last note with that key |
| Cli.RefreshTargets | greek_anki/cli.py:762-766 | one note per word found in the lookup and no other; the note of a found word is the one its normal form maps to, placed after the notes of the found words before it, so the order of the words is kept |
| Cli.RefreshTargetsAllFound | greek_anki/cli.py:762-766 | when every word is found, word `i` yields note `i` |
| Cli.RefreshedNote | greek_anki/cli.py:803-814 | the refreshed note keeps guid and Back, and takes the other fields from the new card |
| Cli.Dedup | greek_anki/cli.py:1110 | no duplicates, same elements |
| Cli.MergeTags | greek_anki/cli.py:1110 | merged tags are the union of the note's and the given tags, without duplicates |
| Cli.TagNote | greek_anki/cli.py:1110-1119 | tagging keeps guid and fields and sets the tags to the union |
| Cli.TagTwice | greek_anki/cli.py:1110 | tagging twice with the same tags equals tagging once |
| Cli.DedupDistinct | greek_anki/cli.py:1110 | a tag list without duplicates is kept as it is |
| Cli.DedupPresent | greek_anki/cli.py:1110 | adding tags the note already has changes nothing |
| Cli.TagDeck | greek_anki/cli.py:1103-1105 | no name means the configured deck; a name gives that name and its derived id |
| Cli.Chunks | greek_anki/cli.py:1040-1041 | the range is cut into consecutive 500-wide chunks, the last one ending at the range end |
| Cli.ChunksDisjoint | greek_anki/cli.py:1040-1041 | chunks do not overlap |
| Cli.ChunksCover | greek_anki/cli.py:1040-1041 | a rank lies in some chunk exactly when it lies in the range |
| Cli.StatusRange | greek_anki/cli.py:1020-1029 | the range defaults to 1 up to the maximum rank, or 0 for an empty table |
| Cli.CachedIndicesCons | greek_anki/cli.py:1045-1049 | the cached rows are the first row, if cached, and the cached rows of the rest |
| Cli.CachedCount | greek_anki/cli.py:1045-1049 | the cached count is the number of rows whose word is cached, so at most the number of rows, and zero exactly when no row's word is cached |
| Cli.CachedCountAll | greek_anki/cli.py:1045-1049 | the count equals the number of rows exactly when every row is cached |
| Cli.ChunkLines | greek_anki/cli.py:1042-1049 | one candidate line per chunk, holding the chunk's bounds, its `get_range` size and its cached count |
| Cli.NonEmptyLinesStep | greek_anki/cli.py:1040-1045 | dropping empty lines one chunk at a time keeps every non-empty line, in order |
| Cli.CacheStatus | greek_anki/cli.py:1020-1057 | the coverage lines are exactly the lines of the non-empty chunks of the status range, in order, each inside the range, at most 500 ranks wide, with a positive total no smaller than its cached count |
| Cli.CoverageLines | greek_anki/cli.py:1040-1049 | the lines are exactly the lines of the chunks with words, each with total the chunk's `get_range` size and its cached count, in chunk order; no more lines than chunks |
| Cli.CoverageBounds | greek_anki/cli.py:1040-1049 | each line describes one of the chunks and has a positive total no smaller than its cached count |
| Cli.BatchSplit | greek_anki/cli.py:515-517 | the cached part is the number of selected words with a cached card; cached plus to-generate equals the selection, with nothing to generate exactly when all are cached |

## Left out

- SQLite itself is not modelled: connections, WAL mode, commits, schema creation and
  `row_factory`. Tables are sequences of rows in rank order.
- Reading the CSV file is left out. The rows after the header come as a sequence of
  cell sequences, and Python's `int()` is the parameter `parseInt`.
- Reading `.apkg` archives is left out: temporary files, zip extraction and the SQLite
  query. So are writing packages through `genanki` and the note type `get_anki_model`.
  Rows come as `NoteRow` values, and the written notes are `SupplementNote` values.
- Unicode.Lower: covers ASCII and the basic Greek letters (U+0386 to U+03AB), because the
  full `str.lower` table is too large to include. Every other character lowers to itself,
  including the capitals of Latin-1, Greek Extended and the Greek symbols.
- Unicode.LowerString: the final-sigma rule uses Cased and Case_Ignorable tables limited to
  the ASCII and basic Greek letters and a short list of marks and punctuation.
- Unicode.Fold: the extra classes of `re.IGNORECASE` are those of Python's regular
  expression compiler; case mappings outside the `Lower` table are not included.
- Unicode.Nfc: composes only a Greek letter with one following U+0301 or U+0308, the accents
  found in the data. It is not full NFC, which needs the Unicode tables. It leaves out the
  singleton mappings (U+1F71 to U+03AC, U+037E to `;`, U+0387 to U+00B7), the composition
  of ι or υ with U+0308 and then U+0301 into ΐ or ΰ, and the decomposition of U+0344 into two
  characters, which can make real NFC output longer than its input.
- Unicode.NfcNoMarks: holds of the modelled composition only. Under full NFC, text without
  U+0301 and U+0308 can still change, through the singletons above.
- Normalizer.StripTags: its own contract bounds only the length. What the result means is
  stated in StripTagsLeavesNoTag, StripTagsPlainThen and StripTagsTagThen.
- Matcher.FreqWordInAnki: the `Levenshtein` C library is not modelled. The code only asks
  whether the distance is at most one. The model answers that with a linear one-edit test,
  proved equal to the textbook Levenshtein recursion (WithinOneEditIsLev).
- JSON parsing, the fenced-block regular expression and `json.dumps` are left out. The
  first two are parameters; cached card data is a map of typed values.
- The model call is left out: `generate_card`, the Anthropic client, prompts, retries and
  usage accounting. Generation is a parameter returning a card and its raw data.
- `deck_id_from_name` is left out, because SHA-256 is out of scope. It is the parameter
  `idOf`.
- Integer formatting in tags and file names is the parameter `show`.
- Timestamps (`_now_iso`, `datetime.now().strftime`) are string parameters.
- `random.sample` in `add-batch`, the interactive review loops and prompts, console output,
  and the cost and percentage arithmetic on floats are all left out.
- The sort in `build-deck` that orders cards before writing is left out.
- Cli.MergeTags: `list(set(a) | set(b))` has an unspecified order. The model keeps the first
  occurrence of each tag, in order, and its contract speaks only of membership and
  distinctness.
- FreqList.GetStatusSummary: the status counts run over whole integers. The model keeps a
  status as any integer, as the column allows, so the three counts reach the total only
  when every status is 0, 1 or 2 (StatusCountsBounded).
- Some commands only call a modelled operation and print its result: `import-freq`,
  `status`, `pending`, `skip`, `preview` and `export`, and the model listing of
  `cache-status`. They are left out; the operations they call are modelled in `FreqList`,
  `FreqImport` and `CardCache`. `set-key` and `clear-key` handle the API key and are
  left out as I/O.
- ClaudeGenerator.ExampleLineDecodes: stated for the corrected sanitiser. The program's own
  placeholder sanitiser breaks it on examples like `"</em>EM<em>"` (see Findings).
- ClaudeGenerator.ExampleLines: each example line, built by ExampleLine, passes its Greek text
  through the corrected sanitiser, where the program calls `_sanitize_example_greek` as written
  (claude_generator.py:90). The reason and the difference are those of the next line.
- ClaudeGenerator.RenderFields: renders examples with the corrected sanitiser, for the same
  reason. On text without special characters and without NUL both leave the example
  unchanged (SanitizeAsWrittenPlain, SanitizePlain). A NUL matters to the program's
  version: the text `"\x00EM\x00"` has no special character, yet it comes out as `<em>`
  (SanitizeAsWrittenNul).
- CardCache.TextOr: a key present with JSON null, or with a value of another JSON type,
  reads as the default, where `data.get(key, default)` returns the value itself. The card's
  text fields hold text only. For `front_ru` and `front_en` a null renders the same as the
  default, because the escaping helper maps any false value to "". For `back` the program
  would put None in the note's Back field; the model puts "".
- CardCache.DictToCard: besides the null cases above, values of a JSON type other than the
  field's declared type are read as the field's default. The program keeps them, and
  `render_fields` then renders them or raises, depending on the type. Null `synonyms` and
  `collocations` render as the empty list does, and the model reads them as the empty list.

## Findings

| source | as written | input that shows it | evidently intended | confidence | as-written member | corrected member |
|---|---|---|---|---|---|---|
| greek_anki/claude_generator.py:65-74 | `<em>` and `</em>` are protected with the placeholders `"\x00EM\x00"` and `"\x00/EM\x00"`, and restored by `replace` afterwards. A placeholder's closing NUL, text "EM", and the next placeholder's opening NUL then read as a third placeholder. | `"</em>EM<em>"` becomes `"\x00/EM<em>EM\x00"`: both tags are lost, and NUL characters and a spurious `<em>` appear. | keep exactly the `<em>` and `</em>` tags and escape everything else, so the field decodes to the original text | not executed | ClaudeGenerator.SanitizeAsWrittenCorrupts | ClaudeGenerator.SanitizeRoundTrip |

The rest of the model renders examples with the corrected `ClaudeGenerator.SanitizeExample`.
It scans the text once, keeping `<em>` and `</em>` and escaping every other character.
SanitizeRoundTrip proves that the result decodes to the input. SanitizeOnlyEmTags proves
that its only markup is the two tags.

=== FILE: anki_deck.dfy ===
/** Reading and writing deck packages (anki_deck.py), reduced to the pure parts: decoding a
    row of the `notes` table into a note, and assembling the field list of a note to write.
    The zip, zstd, SQLite and package-writer layers are not modelled. */
module AnkiDeck {
  import opened Wrappers
  import opened Strings
  import opened Config
  import opened ClaudeGenerator

  /** The field separator of the `flds` column, U+001F. */
  const FieldSep: char := '\U{1F}'

  /** Number of fields of the note type. */
  const FieldCount: nat := 6

  /** A row of `SELECT id, guid, flds, tags FROM notes`; `tags` may be NULL. */
  datatype NoteRow = NoteRow(id: int, guid: string, flds: string, tags: Option<string>)

  /** `AnkiNote`. */
  datatype AnkiNote = AnkiNote(
    noteId: int,
    guid: string,
    front: string,
    back: string,
    example: string,
    comment: string,
    collocations: string,
    etymology: string,
    tags: seq<string>)

  /** `while len(fields) < 6: fields.append("")`. */
  function Pad(fields: seq<string>): (r: seq<string>)
    ensures |r| == if |fields| < FieldCount then FieldCount else |fields|
    ensures r[..|fields|] == fields
    ensures forall i :: |fields| <= i < |r| ==> r[i] == ""
  {
    if |fields| < FieldCount then fields + seq(FieldCount - |fields|, _ => "") else fields
  }

  /** The tag column: nothing for NULL or blank text, otherwise the whitespace-separated
      words of the trimmed text. */
  function DecodeTags(tags: Option<string>): (r: seq<string>)
    ensures forall i :: 0 <= i < |r| ==> |r[i]| > 0 && NoSpace(r[i])
    ensures tags.None? || Trim(tags.value) == "" ==> r == []
    ensures tags.Some? ==> r == SplitWhitespace(tags.value)
  {
    match tags
    case None => []
    case Some(text) =>
      SplitTrim(text);
      SplitEmpty();
      var t := if text != "" then Trim(text) else "";
      if t != "" then SplitWhitespace(t) else []
  }

  /** The row decoding inside `read_apkg_notes`: the fields are the `\x1f`-separated parts of
      `flds`, padded to six, of which the first six are kept; id and guid are copied. */
  function DecodeRow(row: NoteRow): (r: AnkiNote)
    ensures r.noteId == row.id && r.guid == row.guid
    ensures r.tags == DecodeTags(row.tags)
    ensures var parts := SplitAny(row.flds, {FieldSep});
      && [r.front, r.back, r.example, r.comment, r.collocations, r.etymology]
         == (parts + seq(FieldCount, _ => ""))[..FieldCount]
  {
    var fields := Pad(SplitAny(row.flds, {FieldSep}));
    PadPrefix(SplitAny(row.flds, {FieldSep}));
    PadSix(fields);
    AnkiNote(row.id, row.guid, fields[0], fields[1], fields[2], fields[3], fields[4], fields[5],
             DecodeTags(row.tags))
  }

  lemma PadSix(fields: seq<string>)
    requires |fields| >= 6
    ensures fields[..6] == [fields[0], fields[1], fields[2], fields[3], fields[4], fields[5]]
  {
    SixItems(fields[..6]);
  }

  /** The first six padded fields are the first six of the parts followed by enough blanks. */
  lemma PadPrefix(parts: seq<string>)
    ensures Pad(parts)[..FieldCount] == (parts + seq(FieldCount, _ => ""))[..FieldCount]
  {
    var blanks := seq(FieldCount, _ => "");
    forall i | 0 <= i < FieldCount
      ensures Pad(parts)[i] == (parts + blanks)[i]
    {
      if i >= |parts| {
        assert (parts + blanks)[i] == blanks[i - |parts|];
      }
    }
  }

  /** The fields of a note, in the note type's order. */
  function FieldsOf(n: AnkiNote): seq<string> {
    [n.front, n.back, n.example, n.comment, n.collocations, n.etymology]
  }

  /** The row a note is stored as: fields joined by `\x1f`, tags joined by spaces. */
  function EncodeNote(n: AnkiNote): NoteRow {
    NoteRow(n.noteId, n.guid, JoinWith([FieldSep], FieldsOf(n)), Some(JoinWith(" ", n.tags)))
  }

  /** A note's fields may hold any text but the separator, and its tags are non-empty words. */
  predicate Encodable(n: AnkiNote) {
    && (forall i :: 0 <= i < |FieldsOf(n)| ==> NoneIn(FieldsOf(n)[i], {FieldSep}))
    && (forall i :: 0 <= i < |n.tags| ==> |n.tags[i]| > 0 && NoSpace(n.tags[i]))
  }

  /** Decoding a stored note gives the note back. */
  lemma DecodeEncode(n: AnkiNote)
    requires Encodable(n)
    ensures DecodeRow(EncodeNote(n)) == n
  {
    JoinSplit(FieldsOf(n), FieldSep);
    TagsRoundTrip(n.tags);
  }

  lemma TagsRoundTrip(tags: seq<string>)
    requires forall i :: 0 <= i < |tags| ==> |tags[i]| > 0 && NoSpace(tags[i])
    ensures DecodeTags(Some(JoinWith(" ", tags))) == tags
  {
    var j := JoinWith(" ", tags);
    JoinWordsCollapsed(tags);
    TrimCollapsed(j);
    DecodeTrimmedTags(j);
    if |tags| > 0 {
      SplitJoinWords(tags);
    }
  }

  lemma DecodeTrimmedTags(s: string)
    requires Trim(s) == s
    ensures DecodeTags(Some(s)) == (if s == "" then [] else SplitWhitespace(s))
  {
  }

  lemma TrimCollapsed(s: string)
    requires Collapsed(s)
    ensures Trim(s) == s
  {
    assert Trimmed(s);
  }

  /** Fields past the sixth are dropped: a row with extra fields decodes like its first six. */
  lemma ExtraFieldsIgnored(id: int, guid: string, fields: seq<string>, extra: seq<string>, tags: Option<string>)
    requires |fields| == FieldCount
    requires forall i :: 0 <= i < |fields| ==> NoneIn(fields[i], {FieldSep})
    requires forall i :: 0 <= i < |extra| ==> NoneIn(extra[i], {FieldSep})
    ensures DecodeRow(NoteRow(id, guid, JoinWith([FieldSep], fields + extra), tags))
         == DecodeRow(NoteRow(id, guid, JoinWith([FieldSep], fields), tags))
  {
    var all := fields + extra;
    forall i | 0 <= i < |all|
      ensures NoneIn(all[i], {FieldSep})
    {
      if i >= |fields| {
        assert all[i] == extra[i - |fields|];
      } else {
        assert all[i] == fields[i];
      }
    }
    JoinSplit(all, FieldSep);
    JoinSplit(fields, FieldSep);
    SixOf(all, fields);
    SixOf(fields, fields);
  }

  lemma SixOf(all: seq<string>, fields: seq<string>)
    requires |fields| == FieldCount && fields <= all
    ensures (all + seq(FieldCount, _ => ""))[..FieldCount] == fields
  {
    var padded := all + seq(FieldCount, _ => "");
    forall i | 0 <= i < FieldCount
      ensures padded[i] == fields[i]
    {
      assert padded[i] == all[i];
    }
  }

  // ---------------------------------------------------------------------------------------
  // create_supplement_apkg
  // ---------------------------------------------------------------------------------------

  /** The keys of a note dictionary, in field order. */
  const NoteKeys: seq<string> := ["front", "back", "example", "comment", "collocations", "etymology"]

  /** The field list written for one note dictionary; a missing key gives an empty field. */
  function NoteFields(data: Dict): (r: seq<string>)
    ensures |r| == FieldCount
    ensures forall i :: 0 <= i < FieldCount ==> r[i] == (if NoteKeys[i] in data then data[NoteKeys[i]] else "")
  {
    seq(FieldCount, i requires 0 <= i < FieldCount => Get(data, NoteKeys[i]))
  }

  /** The dictionary `to_note_dict` produces, with its six keys. */
  function DictOf(n: NoteDict): Dict {
    map["front" := n.front, "back" := n.back, "example" := n.example, "comment" := n.comment,
        "collocations" := n.collocations, "etymology" := n.etymology]
  }

  /** A rendered card's dictionary is written field for field in the note type's order. */
  lemma NoteFieldsOfCard(c: Card)
    ensures var d := ToNoteDict(c).0;
      NoteFields(DictOf(d)) == [d.front, d.back, d.example, d.comment, d.collocations, d.etymology]
  {
    NoteFieldsOfDict(ToNoteDict(c).0);
  }

  lemma NoteFieldsOfDict(d: NoteDict)
    ensures NoteFields(DictOf(d)) == [d.front, d.back, d.example, d.comment, d.collocations, d.etymology]
  {
    var f := NoteFields(DictOf(d));
    SixItems(f);
    assert f[0] == d.front && f[1] == d.back && f[2] == d.example;
    assert f[3] == d.comment && f[4] == d.collocations && f[5] == d.etymology;
  }

  /** What was written is what is read back: a note whose fields carry no separator decodes
      to the dictionary's fields, in order. */
  lemma WrittenFieldsReadBack(data: Dict, id: int, guid: string, tags: Option<string>)
    requires forall i :: 0 <= i < FieldCount ==> NoneIn(NoteFields(data)[i], {FieldSep})
    ensures FieldsOf(DecodeRow(NoteRow(id, guid, JoinWith([FieldSep], NoteFields(data)), tags))) == NoteFields(data)
  {
    var f := NoteFields(data);
    JoinSplit(f, FieldSep);
    assert (f + seq(FieldCount, _ => ""))[..FieldCount] == f;
  }

  /** A deck for the supplement: its id, its name, and the tags given to every note. */
  datatype DeckSetup = DeckSetup(id: int, name: string, tags: seq<string>)

  /** `deck_id or DECK_ID`, `deck_name or DECK_NAME` and `tags or []`: a missing or falsy
      value falls back to the default. */
  function SetupDeck(deckId: Option<int>, deckName: Option<string>, tags: Option<seq<string>>): (r: DeckSetup)
    ensures r.id == (if deckId.Some? && deckId.value != 0 then deckId.value else DeckId)
    ensures r.name == (if deckName.Some? && deckName.value != "" then deckName.value else DeckName)
    ensures r.tags == (if tags.Some? then tags.value else [])
    ensures r.id != 0 && r.name != ""
  {
    DeckSetup(
      if deckId.Some? && deckId.value != 0 then deckId.value else DeckId,
      if deckName.Some? && deckName.value != "" then deckName.value else DeckName,
      if tags.Some? && tags.value != [] then tags.value else [])
  }

  /** One note of the supplement: its fields, the deck's tags and the dictionary's guid. */
  datatype SupplementNote = SupplementNote(fields: seq<string>, tags: seq<string>, guid: Option<string>)

  function SupplementNotes(notes: seq<Dict>, setup: DeckSetup): (r: seq<SupplementNote>)
    ensures |r| == |notes|
    ensures forall i :: 0 <= i < |notes| ==>
      && r[i].fields == NoteFields(notes[i])
      && r[i].tags == setup.tags
      && r[i].guid == (if "guid" in notes[i] then Some(notes[i]["guid"]) else None)
  {
    if |notes| == 0 then []
    else
      var g := if "guid" in notes[0] then Some(notes[0]["guid"]) else None;
      [SupplementNote(NoteFields(notes[0]), setup.tags, g)] + SupplementNotes(notes[1..], setup)
  }
}

=== FILE: card_cache.dfy ===
/** The card cache (card_cache.py): generated card data kept per normalised word, so that the
    same word is not sent to the model twice. The table's primary key is the normal form of
    the word, so the cache is a map from normal forms to entries. The normaliser, the clock
    and the card generator are parameters. */
module CardCache {
  import opened Wrappers
  import opened ClaudeGenerator

  /** The JSON values a cached card is made of. */
  datatype Value = Null | Text(text: string) | Texts(texts: seq<string>) | Records(records: seq<Dict>)

  /** The card data the model returned, as a JSON object. */
  type CardData = map<string, Value>

  /** A row of `card_cache`. */
  datatype Entry = Entry(wordOriginal: string, cardData: CardData, model: string, createdAt: string, updatedAt: string)

  /** The table, keyed by `word_normalized`. */
  type Cache = map<string, Entry>

  /** Every entry sits under the normal form of the word it was first stored for. */
  predicate KeyedByNorm(c: Cache, norm: string -> string) {
    forall k :: k in c ==> norm(c[k].wordOriginal) == k
  }

  /** `store`: an upsert on the normal form. A new entry records the word as given and the
      time as both creation and update time; an existing one takes the new data, model and
      update time and keeps its original word and creation time. */
  function Store(c: Cache, word: string, data: CardData, model: string, now: string, norm: string -> string): (r: Cache)
    ensures norm(word) in r
    ensures r[norm(word)].cardData == data && r[norm(word)].model == model && r[norm(word)].updatedAt == now
    ensures norm(word) in c ==>
      r[norm(word)].wordOriginal == c[norm(word)].wordOriginal && r[norm(word)].createdAt == c[norm(word)].createdAt
    ensures norm(word) !in c ==> r[norm(word)].wordOriginal == word && r[norm(word)].createdAt == now
    ensures forall k :: k != norm(word) ==> (k in r <==> k in c)
    ensures forall k :: k != norm(word) && k in c ==> r[k] == c[k]
  {
    var k := norm(word);
    if k in c then c[k := c[k].(cardData := data, model := model, updatedAt := now)]
    else c[k := Entry(word, data, model, now, now)]
  }

  /** `get`: the data stored under the word's normal form, or nothing. */
  function Get(c: Cache, word: string, norm: string -> string): (r: Option<CardData>)
    ensures r.None? <==> norm(word) !in c
    ensures r.Some? ==> r.value == c[norm(word)].cardData
  {
    if norm(word) in c then Some(c[norm(word)].cardData) else None
  }

  /** Storing keeps the cache keyed by normal forms: there is one entry per normal form and
      it belongs to the first word stored under it. */
  lemma StoreKeyedByNorm(c: Cache, word: string, data: CardData, model: string, now: string, norm: string -> string)
    requires KeyedByNorm(c, norm)
    ensures KeyedByNorm(Store(c, word, data, model, now, norm), norm)
  {
    var r := Store(c, word, data, model, now, norm);
    forall k | k in r
      ensures norm(r[k].wordOriginal) == k
    {
      if k != norm(word) {
        assert r[k] == c[k];
      }
    }
  }

  /** After a store, every spelling with the same normal form finds the stored data. */
  lemma StoreThenGet(c: Cache, w1: string, w2: string, data: CardData, model: string, now: string, norm: string -> string)
    requires norm(w2) == norm(w1)
    ensures Get(Store(c, w1, data, model, now, norm), w2, norm) == Some(data)
  {
  }

  /** A store leaves the answers for other normal forms as they were. */
  lemma StoreKeepsOthers(c: Cache, w1: string, w2: string, data: CardData, model: string, now: string, norm: string -> string)
    requires norm(w2) != norm(w1)
    ensures Get(Store(c, w1, data, model, now, norm), w2, norm) == Get(c, w2, norm)
  {
  }

  /** The text under `key`, or `default` when the key is missing. A JSON `null` or a value of
      another JSON type is read as the default too: the card's text fields hold text only. */
  function TextOr(data: CardData, key: string, default: string): (r: string)
    ensures key !in data ==> r == default
    ensures key in data && data[key].Text? ==> r == data[key].text
    ensures key in data && data[key].Null? ==> r == default
  {
    if key in data && data[key].Text? then data[key].text else default
  }

  function TextsOr(data: CardData, key: string): (r: seq<string>)
    ensures key !in data ==> r == []
    ensures key in data && data[key].Texts? ==> r == data[key].texts
  {
    if key in data && data[key].Texts? then data[key].texts else []
  }

  function RecordsOr(data: CardData, key: string): (r: seq<Dict>)
    ensures key !in data ==> r == []
    ensures key in data && data[key].Records? ==> r == data[key].records
  {
    if key in data && data[key].Records? then data[key].records else []
  }

  /** `data.get(key)` for an optional text: missing and `null` both give nothing, and so does
      a value of another JSON type. */
  function OptionalText(data: CardData, key: string): (r: Option<string>)
    ensures r.None? <==> key !in data || !data[key].Text?
    ensures r.Some? ==> r.value == data[key].text
  {
    if key in data && data[key].Text? then Some(data[key].text) else None
  }

  /** The part of speech as the tags print it (`f"pos::{card.part_of_speech}"`): the text, the
      default `"unknown"` for a missing key, and `"None"` for a JSON `null`, which
      `data.get` passes through and the f-string prints as `None`. */
  function PartOfSpeech(data: CardData): (r: string)
    ensures "part_of_speech" !in data ==> r == "unknown"
    ensures "part_of_speech" in data && data["part_of_speech"].Text? ==> r == data["part_of_speech"].text
    ensures "part_of_speech" in data && data["part_of_speech"].Null? ==> r == "None"
  {
    if "part_of_speech" in data && data["part_of_speech"].Null? then "None"
    else TextOr(data, "part_of_speech", "unknown")
  }

  /** A JSON `null` under `examples`: `data.get` passes it through and `render_fields` then
      fails on `for ex in self.examples` with a `TypeError`. */
  predicate NullExamples(data: CardData) {
    "examples" in data && data["examples"].Null?
  }

  /** The message of the `TypeError` raised when the examples are `null`. */
  const NotIterable := "'NoneType' object is not iterable"

  /** The card read back from cached data, before rendering. */
  function CardOf(data: CardData): Card {
    Card(TextOr(data, "front_ru", ""), TextOr(data, "front_en", ""), TextOr(data, "back", ""),
         PartOfSpeech(data), RecordsOr(data, "examples"),
         OptionalText(data, "conjugation"), RecordsOr(data, "synonyms"),
         OptionalText(data, "etymology_note"), TextsOr(data, "collocations"),
         "", "", "", "", "")
  }

  /** `_dict_to_card`: rebuilds the card with defaults for missing keys and renders it; the
      rendering fails when the examples are `null`. */
  function DictToCard(data: CardData): (r: Result<Card, string>)
    ensures r.Failure? <==> NullExamples(data)
    ensures r.Failure? ==> r.error == NotIterable
    ensures r.Success? ==>
      && ("back" !in data ==> r.value.back == "")
      && ("part_of_speech" !in data ==> r.value.partOfSpeech == "unknown")
      && ("part_of_speech" in data && data["part_of_speech"].Null? ==> r.value.partOfSpeech == "None")
      && ("examples" !in data ==> r.value.examples == [])
      && ("synonyms" !in data ==> r.value.synonyms == [])
      && ("collocations" !in data ==> r.value.collocations == [] && r.value.collocationsHtml == "")
      && ("conjugation" !in data ==> r.value.conjugation == None)
      && ("etymology_note" !in data ==> r.value.etymologyNote == None && r.value.etymologyHtml == "")
      && r.value.front != ""
  {
    if NullExamples(data) then Failure(NotIterable) else Success(RenderFields(CardOf(data)))
  }

  /** A card that is rebuilt comes back fully rendered: rendering it again changes nothing, and the
      note it gives is the one its fields hold. */
  lemma DictToCardRendered(data: CardData)
    ensures DictToCard(data).Success? ==>
      && RenderFields(DictToCard(data).value) == DictToCard(data).value
      && ToNoteDict(DictToCard(data).value).1 == DictToCard(data).value
  {
    RenderIdempotent(CardOf(data));
  }

  /** Cached data with a `null` part of speech rebuilds to a card whose `pos::` tag reads
      `pos::None`, and with `null` examples the rebuild fails. */
  lemma NullFieldsExample()
    ensures DictToCard(map["front_ru" := Text("x"), "part_of_speech" := Null]).Success?
    ensures DictToCard(map["front_ru" := Text("x"), "part_of_speech" := Null]).value.partOfSpeech == "None"
    ensures DictToCard(map["front_ru" := Text("x"), "examples" := Null]) == Failure(NotIterable)
  {
  }

  /** `get_card`: the cached data turned into a card, or nothing; the rebuild's failure
      propagates. */
  function GetCard(c: Cache, word: string, norm: string -> string): (r: Result<Option<Card>, string>)
    ensures r.Success? && r.value.None? <==> norm(word) !in c
    ensures r.Failure? <==> norm(word) in c && NullExamples(c[norm(word)].cardData)
    ensures r.Success? && r.value.Some? ==> DictToCard(c[norm(word)].cardData) == Success(r.value.value)
  {
    match Get(c, word, norm)
    case None => Success(None)
    case Some(data) =>
      match DictToCard(data)
      case Success(card) => Success(Some(card))
      case Failure(e) => Failure(e)
  }

  // ---------------------------------------------------------------------------------------
  // stats
  // ---------------------------------------------------------------------------------------

  /** The words cached with a given model. */
  function WithModel(c: Cache, model: string): set<string> {
    set k | k in c && c[k].model == model
  }

  /** The models that occur in the cache. */
  function ModelsOf(c: Cache): set<string> {
    set k | k in c :: c[k].model
  }

  datatype CacheStats = CacheStats(total: nat, models: map<string, nat>)

  /** `stats`: the number of entries and, per model, how many entries were made with it. */
  function Stats(c: Cache): (r: CacheStats)
    ensures r.total == |c|
    ensures forall m :: m in r.models <==> exists k :: k in c && c[k].model == m
    ensures forall m :: m in r.models ==> r.models[m] == |WithModel(c, m)| && 0 < r.models[m] <= r.total
  {
    var r := CacheStats(|c|, map m | m in ModelsOf(c) :: |WithModel(c, m)|);
    forall m | m in r.models
      ensures 0 < r.models[m] <= r.total
    {
      var k :| k in c && c[k].model == m;
      assert k in WithModel(c, m);
      assert WithModel(c, m) <= c.Keys;
      SubsetCard(WithModel(c, m), c.Keys);
    }
    r
  }

  lemma SubsetCard(a: set<string>, b: set<string>)
    requires a <= b
    ensures |a| <= |b|
  {
    assert b == a + (b - a);
  }

  /** The sum of a map's values. */
  ghost function SumValues(m: map<string, nat>): nat
    decreases |m|
  {
    if |m| == 0 then 0
    else
      var k :| k in m;
      m[k] + SumValues(m - {k})
  }

  /** The per-model counts add up to the total. */
  lemma StatsSum(c: Cache)
    ensures SumValues(Stats(c).models) == Stats(c).total
  {
    var s := Stats(c);
    SumCounts(c, s.models);
    assert WithModels(c, s.models.Keys) == c.Keys;
  }

  /** The words cached with any of the given models. */
  function WithModels(c: Cache, ms: set<string>): set<string> {
    set k | k in c && c[k].model in ms
  }

  /** Summing the counts of some of the models counts the words made with any of them. */
  lemma {:induction false} SumCounts(c: Cache, m: map<string, nat>)
    requires forall x :: x in m ==> m[x] == |WithModel(c, x)|
    ensures SumValues(m) == |WithModels(c, m.Keys)|
    decreases |m|
  {
    if |m| == 0 {
      assert WithModels(c, m.Keys) == {};
    } else {
      var x :| x in m && SumValues(m) == m[x] + SumValues(m - {x});
      var rest := m - {x};
      SumCounts(c, rest);
      assert rest.Keys == m.Keys - {x};
      WithModelsSplit(c, m.Keys, x);
    }
  }

  lemma WithModelsSplit(c: Cache, ms: set<string>, x: string)
    requires x in ms
    ensures |WithModels(c, ms)| == |WithModel(c, x)| + |WithModels(c, ms - {x})|
  {
    var a := WithModel(c, x);
    var b := WithModels(c, ms - {x});
    assert WithModels(c, ms) == a + b;
    assert a !! b;
  }

  // ---------------------------------------------------------------------------------------
  // generate_card_cached
  // ---------------------------------------------------------------------------------------

  /** What `generate_card` hands back: the card and the raw data it was built from. */
  datatype Generated = Generated(card: Card, raw: CardData)

  datatype Outcome = Outcome(card: Card, cache: Cache, generated: bool)

  /** `generate_card_cached`: without `force`, a cached card is returned as it is and nothing
      is generated; otherwise the card is generated and its raw data stored under the word.
      A cached entry whose examples are `null` makes the call fail before anything is
      generated. */
  function GenerateCardCached(c: Cache, word: string, model: string, force: bool, now: string,
                              norm: string -> string, generate: (string, string) -> Generated): (r: Result<Outcome, string>)
    ensures !force && norm(word) in c ==>
      && (r.Failure? <==> NullExamples(c[norm(word)].cardData))
      && (r.Success? ==>
            r.value.cache == c && !r.value.generated && Success(r.value.card) == DictToCard(c[norm(word)].cardData))
    ensures force || norm(word) !in c ==>
      && r.Success?
      && r.value.generated
      && r.value.card == generate(word, model).card
      && r.value.cache == Store(c, word, generate(word, model).raw, model, now, norm)
  {
    var cached := if force then Success(None) else GetCard(c, word, norm);
    match cached
    case Failure(e) => Failure(e)
    case Success(hit) =>
      if hit.Some? then Success(Outcome(hit.value, c, false))
      else
        var g := generate(word, model);
        Success(Outcome(g.card, Store(c, word, g.raw, model, now, norm), true))
  }

  /** A second call finds what the first stored, whichever spelling of the word it uses; it
      fails only when the stored examples are `null`, and a first call that failed on the
      cached entry makes the second fail the same way. */
  lemma GenerateThenHit(c: Cache, w1: string, w2: string, model: string, force: bool, now: string, later: string,
                        norm: string -> string, generate: (string, string) -> Generated)
    requires norm(w2) == norm(w1)
    ensures var first := GenerateCardCached(c, w1, model, force, now, norm, generate);
      && (first.Failure? ==> GenerateCardCached(c, w2, model, false, later, norm, generate) == first)
      && (first.Success? ==>
            var second := GenerateCardCached(first.value.cache, w2, model, false, later, norm, generate);
            && (second.Failure? <==> NullExamples(first.value.cache[norm(w1)].cardData))
            && (second.Success? ==> !second.value.generated && second.value.cache == first.value.cache)
            && (first.value.generated ==> Get(first.value.cache, w2, norm) == Some(generate(w1, model).raw)))
  {
    var first := GenerateCardCached(c, w1, model, force, now, norm, generate);
    if first.Success? && first.value.generated {
      StoreThenGet(c, w1, w2, generate(w1, model).raw, model, now, norm);
    }
  }
}

=== FILE: claude_generator.dfy ===
/** Card rendering and JSON extraction of greek_anki/claude_generator.py: the escaping of
    example sentences that keeps only `<em>` and `</em>`, the HTML fields of a generated
    card, `to_note_dict`, and the brace scan `_extract_json` falls back on. */
module ClaudeGenerator {
  import opened Wrappers
  import opened Strings
  import opened Html

  const EmOpen := "<em>"
  const EmClose := "</em>"

  // ---------------------------------------------------------------------------------------
  // _sanitize_example_greek
  // ---------------------------------------------------------------------------------------

  /** Placeholders the code swaps the allowed tags for while it escapes. */
  const OpenMark := "\0EM\0"
  const CloseMark := "\0/EM\0"

  /** `_sanitize_example_greek` as written: protect the tags with placeholders, escape,
      then turn the placeholders back into tags. */
  function SanitizeAsWritten(text: string): (r: string)
    ensures NoneIn(text, Special + {'\0'}) ==> r == text
  {
    PlaceholderPassPlain(text);
    var protected := ReplaceAll(ReplaceAll(text, EmOpen, OpenMark), EmClose, CloseMark);
    ReplaceAll(ReplaceAll(Escape(protected), OpenMark, EmOpen), CloseMark, EmClose)
  }

  /** The four replacements and the escape pass plain text through unchanged. */
  lemma PlaceholderPassPlain(text: string)
    ensures NoneIn(text, Special + {'\0'}) ==>
      ReplaceAll(ReplaceAll(Escape(ReplaceAll(ReplaceAll(text, EmOpen, OpenMark), EmClose, CloseMark)),
        OpenMark, EmOpen), CloseMark, EmClose) == text
  {
    if NoneIn(text, Special + {'\0'}) {
      ReplaceAbsentHead(text, EmOpen, OpenMark);
      ReplaceAbsentHead(text, EmClose, CloseMark);
      EscapePlain(text);
      ReplaceAbsentHead(text, OpenMark, EmOpen);
      ReplaceAbsentHead(text, CloseMark, EmClose);
    }
  }

  /** Text with no character `html.escape` rewrites and no NUL comes out unchanged. */
  lemma SanitizeAsWrittenPlain(text: string)
    requires NoneIn(text, Special + {'\0'})
    ensures SanitizeAsWritten(text) == text
  {
    ReplaceAbsentHead(text, EmOpen, OpenMark);
    ReplaceAbsentHead(text, EmClose, CloseMark);
    EscapePlain(text);
    ReplaceAbsentHead(text, OpenMark, EmOpen);
    ReplaceAbsentHead(text, CloseMark, EmClose);
  }

  /** Text that holds a placeholder itself is not kept: "\0EM\0" has no character
      `html.escape` rewrites, yet it comes out as an `<em>` tag. */
  lemma SanitizeAsWrittenNul()
    ensures SanitizeAsWritten(OpenMark) == EmOpen
  {
    ReplaceAbsentHead(OpenMark, EmOpen, OpenMark);
    ReplaceAbsentHead(OpenMark, EmClose, CloseMark);
    EscapePlain(OpenMark);
    assert OpenMark[..4] == OpenMark && OpenMark[4..] == "";
    assert ReplaceAll(OpenMark, OpenMark, EmOpen) == EmOpen + "";
    ReplaceAbsentHead(EmOpen, CloseMark, EmClose);
  }

  /** The placeholders collide with the text around them: in "</em>EM<em>" the closing
      placeholder's last NUL, the letters "EM" and the opening placeholder's first NUL read
      as an opening placeholder, so the result keeps two NULs and loses the closing tag. */
  lemma SanitizeAsWrittenCorrupts()
    ensures SanitizeAsWritten("</em>EM<em>") == "\0/EM<em>EM\0"
    ensures Unescape(SanitizeAsWritten("</em>EM<em>")) != "</em>EM<em>"
    ensures SanitizeExample("</em>EM<em>") == "</em>EM<em>"
  {
    var s3 := "\0/EM<em>EM\0";
    SanitizeAsWrittenResult();
    UnescapeTextOnly(s3);
    assert s3[0] != "</em>EM<em>"[0];
    SanitizeExampleExample();
  }

  lemma SanitizeAsWrittenResult()
    ensures SanitizeAsWritten("</em>EM<em>") == "\0/EM<em>EM\0"
  {
    var x := "</em>EM<em>";
    var s2 := CloseMark + "EM" + OpenMark;
    ProtectOpen();
    ProtectClose();
    assert ReplaceAll(ReplaceAll(x, EmOpen, OpenMark), EmClose, CloseMark) == s2;
    PlaceholdersPlain();
    EscapePlain(s2);
    RestoreOpen();
    RestoreClose();
  }

  lemma PlaceholdersPlain()
    ensures NoneIn(CloseMark + "EM" + OpenMark, Special)
  {
    var s := CloseMark + "EM" + OpenMark;
    forall i | 0 <= i < |s| ensures s[i] !in Special {
      assert s[i] in {'\0', '/', 'E', 'M'};
    }
  }

  lemma ProtectOpen()
    ensures ReplaceAll("</em>EM<em>", EmOpen, OpenMark) == "</em>EM" + OpenMark
  {
    var x := "</em>EM<em>";
    var tail := "/em>EM" + EmOpen;
    assert x == ['<'] + tail;
    PrefixDiffers(x, EmOpen, 1);
    calc {
      ReplaceAll(x, EmOpen, OpenMark);
      { ReplaceMiss('<', tail, EmOpen, OpenMark); }
      ['<'] + ReplaceAll(tail, EmOpen, OpenMark);
      { ReplacePlain("/em>EM", EmOpen, EmOpen, OpenMark); }
      ['<'] + ("/em>EM" + ReplaceAll(EmOpen, EmOpen, OpenMark));
      { ReplaceHit("", EmOpen, OpenMark); assert EmOpen + "" == EmOpen; assert ReplaceAll("", EmOpen, OpenMark) == ""; }
      ['<'] + ("/em>EM" + (OpenMark + ""));
      "</em>EM" + OpenMark;
    }
  }

  lemma ProtectClose()
    ensures ReplaceAll("</em>EM" + OpenMark, EmClose, CloseMark) == CloseMark + "EM" + OpenMark
  {
    assert "</em>EM" + OpenMark == EmClose + ("EM" + OpenMark);
    ReplaceHit("EM" + OpenMark, EmClose, CloseMark);
    ReplacePlain("EM" + OpenMark, "", EmClose, CloseMark);
    assert ("EM" + OpenMark) + "" == "EM" + OpenMark;
  }

  /** The first placeholder match straddles the two placeholders. */
  lemma RestoreOpen()
    ensures ReplaceAll(CloseMark + "EM" + OpenMark, OpenMark, EmOpen) == "\0/EM<em>EM\0"
  {
    var s2 := CloseMark + "EM" + OpenMark;
    var tail := "/EM" + (OpenMark + ("EM" + ['\0']));
    assert s2 == ['\0'] + tail;
    PrefixDiffers(s2, OpenMark, 1);
    ReplaceMiss('\0', tail, OpenMark, EmOpen);
    ReplacePlain("/EM", OpenMark + ("EM" + ['\0']), OpenMark, EmOpen);
    ReplaceHit("EM" + ['\0'], OpenMark, EmOpen);
    ReplacePlain("EM", ['\0'], OpenMark, EmOpen);
  }

  /** No closing placeholder is left to restore. */
  lemma RestoreClose()
    ensures ReplaceAll("\0/EM<em>EM\0", CloseMark, EmClose) == "\0/EM<em>EM\0"
  {
    var s3 := "\0/EM<em>EM\0";
    var tail := "/EM<em>EM" + ['\0'];
    assert s3 == ['\0'] + tail;
    PrefixDiffers(s3, CloseMark, 4);
    calc {
      ReplaceAll(s3, CloseMark, EmClose);
      { ReplaceMiss('\0', tail, CloseMark, EmClose); }
      ['\0'] + ReplaceAll(tail, CloseMark, EmClose);
      { ReplacePlain("/EM<em>EM", ['\0'], CloseMark, EmClose); }
      ['\0'] + ("/EM<em>EM" + ReplaceAll(['\0'], CloseMark, EmClose));
      ['\0'] + ("/EM<em>EM" + ['\0']);
      s3;
    }
  }

  lemma SanitizeExampleExample()
    ensures SanitizeExample("</em>EM<em>") == "</em>EM<em>"
  {
    var x := "</em>EM<em>";
    assert x == EmClose + ("E" + ("M" + EmOpen));
    assert EmOpen == EmOpen + "";
    SanitizeOpenThen("");
    SanitizePlainThen('M', EmOpen);
    SanitizePlainThen('E', "M" + EmOpen);
    SanitizeCloseThen("E" + ("M" + EmOpen));
  }

  lemma SanitizeOpenThen(t: string)
    ensures SanitizeExample(EmOpen + t) == EmOpen + SanitizeExample(t)
  {
    var s := EmOpen + t;
    assert s[..4] == EmOpen && s[4..] == t;
  }

  lemma SanitizeCloseThen(t: string)
    ensures SanitizeExample(EmClose + t) == EmClose + SanitizeExample(t)
  {
    var s := EmClose + t;
    assert s[..4] != EmOpen by { assert s[..4][1] == '/'; }
    assert s[..5] == EmClose && s[5..] == t;
  }

  /** A character other than `<` and the special ones is copied and the scan moves on. */
  lemma SanitizePlainThen(c: char, t: string)
    requires c != '<' && c !in Special
    ensures SanitizeExample([c] + t) == [c] + SanitizeExample(t)
  {
    var s := [c] + t;
    if |s| >= 4 { assert s[..4][0] == c; }
    if |s| >= 5 { assert s[..5][0] == c; }
    assert s[1..] == t;
  }

  /** The intended sanitiser, in one pass: `<em>` and `</em>` are copied, every other
      character is escaped. */
  function SanitizeExample(text: string): (r: string)
    ensures |r| >= |text|
    ensures r == "" <==> text == ""
    decreases |text|
  {
    if |text| == 0 then ""
    else if StartsWith(text, EmOpen) then EmOpen + SanitizeExample(text[4..])
    else if StartsWith(text, EmClose) then EmClose + SanitizeExample(text[5..])
    else EscapeChar(text[0]) + SanitizeExample(text[1..])
  }

  /** Text whose only markup is `<em>` and `</em>`: it reads as a sequence of those two tags
      and of characters that are not `<`, `>`, `"` or `'`. */
  predicate OnlyEmTags(s: string)
    decreases |s|
  {
    if |s| == 0 then true
    else if StartsWith(s, EmOpen) then OnlyEmTags(s[4..])
    else if StartsWith(s, EmClose) then OnlyEmTags(s[5..])
    else s[0] !in Markup && OnlyEmTags(s[1..])
  }

  /** Decoding the sanitised text gives the input back, whatever follows it: every `<em>`
      and `</em>` was kept and every other character was escaped, not dropped. */
  lemma {:induction false} SanitizeRoundTripAppend(text: string, t: string)
    ensures Unescape(SanitizeExample(text) + t) == text + Unescape(t)
    decreases |text|
  {
    if |text| == 0 {
      assert SanitizeExample(text) + t == t;
    } else if StartsWith(text, EmOpen) {
      SanitizeRoundTripAppend(text[4..], t);
      RoundTripTag(text, EmOpen, t);
    } else if StartsWith(text, EmClose) {
      SanitizeRoundTripAppend(text[5..], t);
      RoundTripTag(text, EmClose, t);
    } else {
      SanitizeRoundTripAppend(text[1..], t);
      RoundTripChar(text, t);
    }
  }

  /** The step of the round trip for a tag at the front. */
  lemma RoundTripTag(text: string, tag: string, t: string)
    requires tag == EmOpen || tag == EmClose
    requires StartsWith(text, tag) && (tag == EmClose ==> !StartsWith(text, EmOpen))
    requires Unescape(SanitizeExample(text[|tag|..]) + t) == text[|tag|..] + Unescape(t)
    ensures Unescape(SanitizeExample(text) + t) == text + Unescape(t)
  {
    var rest := text[|tag|..];
    SanitizeTag(text, tag);
    AppendAssoc(tag, SanitizeExample(rest), t);
    UnescapePlain(tag, SanitizeExample(rest) + t);
    SplitAppend(text, |tag|, Unescape(t));
  }

  lemma SanitizeTag(text: string, tag: string)
    requires tag == EmOpen || tag == EmClose
    requires StartsWith(text, tag) && (tag == EmClose ==> !StartsWith(text, EmOpen))
    ensures SanitizeExample(text) == tag + SanitizeExample(text[|tag|..])
  {
  }

  /** The step of the round trip for any other character at the front. */
  lemma RoundTripChar(text: string, t: string)
    requires |text| > 0 && !StartsWith(text, EmOpen) && !StartsWith(text, EmClose)
    requires Unescape(SanitizeExample(text[1..]) + t) == text[1..] + Unescape(t)
    ensures Unescape(SanitizeExample(text) + t) == text + Unescape(t)
  {
    SanitizeChar(text, t);
    UnescapeEscapedThen(text, SanitizeExample(text) + t, SanitizeExample(text[1..]) + t, Unescape(t));
  }

  lemma SanitizeChar(text: string, t: string)
    requires |text| > 0 && !StartsWith(text, EmOpen) && !StartsWith(text, EmClose)
    ensures SanitizeExample(text) + t == EscapeChar(text[0]) + (SanitizeExample(text[1..]) + t)
  {
    var rest := SanitizeExample(text[1..]);
    assert SanitizeExample(text) == EscapeChar(text[0]) + rest;
    AppendAssoc(EscapeChar(text[0]), rest, t);
  }

  lemma SanitizeRoundTrip(text: string)
    ensures Unescape(SanitizeExample(text)) == text
  {
    SanitizeRoundTripAppend(text, "");
    assert SanitizeExample(text) + "" == SanitizeExample(text);
  }

  /** The sanitised text carries no markup but `<em>` and `</em>`. */
  lemma {:induction false} SanitizeOnlyEmTags(text: string)
    ensures OnlyEmTags(SanitizeExample(text))
    decreases |text|
  {
    if |text| > 0 {
      if StartsWith(text, EmOpen) {
        SanitizeOnlyEmTags(text[4..]);
        OnlyEmTagsOpen(SanitizeExample(text[4..]));
      } else if StartsWith(text, EmClose) {
        SanitizeOnlyEmTags(text[5..]);
        OnlyEmTagsClose(SanitizeExample(text[5..]));
      } else {
        SanitizeOnlyEmTags(text[1..]);
        OnlyEmTagsPlain(EscapeChar(text[0]), SanitizeExample(text[1..]));
      }
    }
  }

  lemma OnlyEmTagsOpen(t: string)
    requires OnlyEmTags(t)
    ensures OnlyEmTags(EmOpen + t)
  {
    assert (EmOpen + t)[..4] == EmOpen;
    assert (EmOpen + t)[4..] == t;
  }

  lemma OnlyEmTagsClose(t: string)
    requires OnlyEmTags(t)
    ensures OnlyEmTags(EmClose + t)
  {
    PrefixDiffers(EmClose + t, EmOpen, 1);
    assert (EmClose + t)[..5] == EmClose;
    assert (EmClose + t)[5..] == t;
  }

  /** Markup-free text may precede any text with only `<em>` tags. */
  lemma {:induction false} OnlyEmTagsPlain(p: string, t: string)
    requires NoneIn(p, Markup) && OnlyEmTags(t)
    ensures OnlyEmTags(p + t)
    decreases |p|
  {
    if |p| > 0 {
      var s := p + t;
      assert s[0] == p[0] && s[1..] == p[1..] + t;
      NotPrefix(s, EmOpen);
      NotPrefix(s, EmClose);
      OnlyEmTagsPlain(p[1..], t);
    } else {
      assert p + t == t;
    }
  }

  /** Text with no character `html.escape` rewrites is returned unchanged. */
  lemma {:induction false} SanitizePlain(text: string)
    requires NoneIn(text, Special)
    ensures SanitizeExample(text) == text
    decreases |text|
  {
    if |text| > 0 {
      NotPrefix(text, EmOpen);
      NotPrefix(text, EmClose);
      SanitizePlain(text[1..]);
      assert text == [text[0]] + text[1..];
    }
  }

  /** Tags at the front are copied and the sanitiser goes on after them. */
  lemma SanitizeKeepsTags(text: string)
    ensures SanitizeExample(EmOpen + text) == EmOpen + SanitizeExample(text)
    ensures SanitizeExample(EmClose + text) == EmClose + SanitizeExample(text)
  {
    assert (EmOpen + text)[..4] == EmOpen && (EmOpen + text)[4..] == text;
    assert (EmClose + text)[..5] == EmClose && (EmClose + text)[5..] == text;
    PrefixDiffers(EmClose + text, EmOpen, 1);
  }

  // ---------------------------------------------------------------------------------------
  // GeneratedCard, render_fields and to_note_dict
  // ---------------------------------------------------------------------------------------

  /** An example or synonym entry: a JSON object read with `.get(key, '')`. */
  type Dict = map<string, string>

  function Get(d: Dict, key: string): string {
    if key in d then d[key] else ""
  }

  /** `GeneratedCard`: the structured data from the model's answer and the five rendered
      HTML fields, which start out empty. */
  datatype Card = Card(
    frontRu: string,
    frontEn: string,
    back: string,
    partOfSpeech: string,
    examples: seq<Dict>,
    conjugation: Option<string>,
    synonyms: seq<Dict>,
    etymologyNote: Option<string>,
    collocations: seq<string>,
    front: string,
    example: string,
    comment: string,
    collocationsHtml: string,
    etymologyHtml: string)

  /** Python truthiness of an optional text. */
  predicate Truthy(s: Option<string>) {
    s.Some? && s.value != ""
  }

  /** The markup between the two halves of the front. */
  const FrontMid := "</div><div><br></div><div>"

  function FrontHtml(ru: string, en: string): (r: string)
    ensures |r| > 0
  {
    "<div>" + (Escape(ru) + (FrontMid + (Escape(en) + "</div>")))
  }

  function ExampleLine(ex: Dict): string {
    "<li><strong>" + (SanitizeExample(Get(ex, "greek")) + ("</strong> " + (Escape(Get(ex, "russian")) + "</li>")))
  }

  function ExampleLines(exs: seq<Dict>): (r: seq<string>)
    ensures |r| == |exs|
    ensures forall i :: 0 <= i < |exs| ==> r[i] == ExampleLine(exs[i])
  {
    if |exs| == 0 then [] else [ExampleLine(exs[0])] + ExampleLines(exs[1..])
  }

  function SynonymLine(syn: Dict): string {
    "<li><strong>" + Escape(Get(syn, "word")) + "</strong>: " + Escape(Get(syn, "distinction")) + "</li>"
  }

  function SynonymLines(syns: seq<Dict>): (r: seq<string>)
    ensures |r| == |syns|
  {
    if |syns| == 0 then [] else [SynonymLine(syns[0])] + SynonymLines(syns[1..])
  }

  /** The pieces of the comment field: the conjugation and a blank line when there is a
      conjugation, then the synonym list when there are synonyms. */
  function CommentParts(conjugation: Option<string>, synonyms: seq<Dict>): (r: seq<string>)
    ensures forall i :: 0 <= i < |r| ==> |r[i]| > 0
    ensures |r| == (if Truthy(conjugation) then 2 else 0) + (if |synonyms| > 0 then 1 else 0)
  {
    (if Truthy(conjugation) then [ConjugationDiv(conjugation.value), BlankLine] else [])
    + (if |synonyms| > 0 then [SynonymDiv(synonyms)] else [])
  }

  const BlankLine := "<div><br></div>"

  function ConjugationDiv(conjugation: string): string {
    "<div>" + (Escape(conjugation) + "</div>")
  }

  function SynonymDiv(synonyms: seq<Dict>): string {
    "<div>" + (JoinWith("\n", SynonymLines(synonyms)) + "</div>")
  }

  function CommentHtml(conjugation: Option<string>, synonyms: seq<Dict>): string {
    JoinWith("\n", CommentParts(conjugation, synonyms))
  }

  const ItemOpen := "<li><strong>"
  const ItemClose := "</strong></li>"

  function CollocationItem(c: string): string {
    ItemOpen + (Escape(c) + ItemClose)
  }

  function CollocationItems(cs: seq<string>): (r: seq<string>)
    ensures |r| == |cs|
  {
    if |cs| == 0 then [] else [CollocationItem(cs[0])] + CollocationItems(cs[1..])
  }

  function EtymologyHtml(note: string): string {
    "<em>" + (Escape(note) + "</em>")
  }

  /** `render_fields`. The collocation and etymology fields are assigned only when there is
      something to render; otherwise they keep whatever they held. */
  function RenderFields(c: Card): (r: Card)
    ensures r.(front := c.front, example := c.example, comment := c.comment,
               collocationsHtml := c.collocationsHtml, etymologyHtml := c.etymologyHtml) == c
    ensures |r.front| > 0
    ensures |c.collocations| == 0 ==> r.collocationsHtml == c.collocationsHtml
    ensures !Truthy(c.etymologyNote) ==> r.etymologyHtml == c.etymologyHtml
    ensures r.comment == "" <==> !Truthy(c.conjugation) && |c.synonyms| == 0
  {
    JoinNonEmpty(CommentParts(c.conjugation, c.synonyms));
    c.(front := FrontHtml(c.frontRu, c.frontEn),
       example := JoinWith("\n", ExampleLines(c.examples)),
       comment := CommentHtml(c.conjugation, c.synonyms),
       collocationsHtml := if |c.collocations| > 0 then Concat(CollocationItems(c.collocations)) else c.collocationsHtml,
       etymologyHtml := if Truthy(c.etymologyNote) then EtymologyHtml(c.etymologyNote.value) else c.etymologyHtml)
  }

  /** Joining gives the empty text exactly when there is nothing to join, provided no part
      is empty. */
  lemma JoinNonEmpty(parts: seq<string>)
    requires forall i :: 0 <= i < |parts| ==> |parts[i]| > 0
    ensures JoinWith("\n", parts) == "" <==> |parts| == 0
  {
    if |parts| > 1 {
      assert |JoinWith("\n", parts)| >= |parts[0]|;
    }
  }

  /** Rendering depends only on the structured data, so a second rendering changes nothing. */
  lemma RenderIdempotent(c: Card)
    ensures RenderFields(RenderFields(c)) == RenderFields(c)
  {
  }

  /** The dictionary `to_note_dict` hands to the deck writer. */
  datatype NoteDict = NoteDict(
    front: string,
    back: string,
    example: string,
    comment: string,
    collocations: string,
    etymology: string)

  /** `to_note_dict`: renders first only when the front is still empty; returns the dict and
      the card as the call leaves it. `back` is copied as it is, not escaped. */
  function ToNoteDict(c: Card): (r: (NoteDict, Card))
    ensures r.0.back == c.back
    ensures c.front != "" ==> r.1 == c
    ensures c.front == "" ==> r.1 == RenderFields(c)
    ensures r.0 == NoteDict(r.1.front, r.1.back, r.1.example, r.1.comment, r.1.collocationsHtml, r.1.etymologyHtml)
    ensures r.0.front != ""
  {
    var card := if c.front == "" then RenderFields(c) else c;
    (NoteDict(card.front, card.back, card.example, card.comment, card.collocationsHtml, card.etymologyHtml), card)
  }

  /** Asking again for the dict of the card the first call left gives the same dict and
      leaves the card alone. */
  lemma ToNoteDictStable(c: Card)
    ensures ToNoteDict(ToNoteDict(c).1) == ToNoteDict(c)
  {
  }

  // ---------------------------------------------------------------------------------------
  // Reading the rendered fields back
  // ---------------------------------------------------------------------------------------

  /** An example line decodes to its Greek and Russian texts inside the line's markup: the
      Greek keeps its `<em>` tags and nothing else of either text is lost. */
  lemma ExampleLineDecodes(ex: Dict)
    ensures Unescape(ExampleLine(ex))
      == "<li><strong>" + (Get(ex, "greek") + ("</strong> " + (Get(ex, "russian") + "</li>")))
  {
    LineDecodes(Get(ex, "greek"), Get(ex, "russian"));
  }

  lemma LineDecodes(g: string, r: string)
    ensures Unescape("<li><strong>" + (SanitizeExample(g) + ("</strong> " + (Escape(r) + "</li>"))))
      == "<li><strong>" + (g + ("</strong> " + (r + "</li>")))
  {
    var m := "</strong> " + (Escape(r) + "</li>");
    var x := SanitizeExample(g) + m;
    UnescapePlain("<li><strong>", x);
    SanitizeRoundTripAppend(g, m);
    ExampleTailDecodes(r);
  }

  lemma ExampleTailDecodes(r: string)
    ensures Unescape("</strong> " + (Escape(r) + "</li>")) == "</strong> " + (r + "</li>")
  {
    var tail := Escape(r) + "</li>";
    UnescapePlain("</strong> ", tail);
    UnescapeEscapeAppend(r, "</li>");
    UnescapeTextOnly("</li>");
  }

  /** The etymology field decodes to the note inside `<em>` tags. */
  lemma EtymologyDecodes(note: string)
    ensures Unescape(EtymologyHtml(note)) == "<em>" + note + "</em>"
  {
    var e := Escape(note);
    var close := Unescape(e + "</em>");
    UnescapePlain("<em>", e + "</em>");
    assert Unescape(EtymologyHtml(note)) == "<em>" + close;
    UnescapeEscapeAppend(note, "</em>");
    UnescapeTextOnly("</em>");
    assert close == note + "</em>";
  }

  /** The front decodes to the Russian and the English text, each in its own `<div>`, with
      an empty line between them. */
  lemma FrontDecodes(ru: string, en: string)
    ensures Unescape(FrontHtml(ru, en)) == "<div>" + ru + FrontMid + en + "</div>"
  {
    var tail := Escape(en) + "</div>";
    calc {
      Unescape(FrontHtml(ru, en));
      { UnescapePlain("<div>", Escape(ru) + (FrontMid + tail)); }
      "<div>" + Unescape(Escape(ru) + (FrontMid + tail));
      { UnescapeEscapeAppend(ru, FrontMid + tail); }
      "<div>" + (ru + Unescape(FrontMid + tail));
      { UnescapePlain(FrontMid, tail); }
      "<div>" + (ru + (FrontMid + Unescape(tail)));
      { UnescapeEscapeAppend(en, "</div>"); UnescapeTextOnly("</div>"); }
      "<div>" + (ru + (FrontMid + (en + "</div>")));
      { Regroup("<div>", ru, FrontMid, en, "</div>"); }
      "<div>" + ru + FrontMid + en + "</div>";
    }
  }

  /** Five strings joined from the right are the same five joined from the left. */
  lemma Regroup(a: string, b: string, c: string, d: string, e: string)
    ensures a + (b + (c + (d + e))) == a + b + c + d + e
  {
  }

  /** Text without `&` decodes to itself. */
  lemma UnescapeTextOnly(p: string)
    requires '&' !in p
    ensures Unescape(p) == p
  {
    UnescapePlain(p, "");
    assert p + "" == p;
  }

  lemma {:induction false} EscapeNoNewline(s: string)
    requires '\n' !in s
    ensures '\n' !in Escape(s)
  {
    if |s| > 0 {
      assert s == [s[0]] + s[1..];
      EscapeNoNewline(s[1..]);
    }
  }

  lemma {:induction false} SanitizeNoNewline(s: string)
    requires '\n' !in s
    ensures '\n' !in SanitizeExample(s)
    decreases |s|
  {
    if |s| > 0 {
      var n := if StartsWith(s, EmOpen) then 4 else if StartsWith(s, EmClose) then 5 else 1;
      var head := if n == 4 then EmOpen else if n == 5 then EmClose else EscapeChar(s[0]);
      assert '\n' !in s[n..] by { assert forall k :: 0 <= k < |s[n..]| ==> s[n..][k] == s[n + k]; }
      assert '\n' !in head;
      SanitizeNoNewline(s[n..]);
      assert SanitizeExample(s) == head + SanitizeExample(s[n..]);
      NotInAppend('\n', head, SanitizeExample(s[n..]));
    }
  }

  lemma NotInAppend(c: char, a: string, b: string)
    requires c !in a && c !in b
    ensures c !in a + b
  {
  }

  /** When no example text contains a line break, the example field splits on line breaks
      into exactly one line per example, in order. */
  lemma ExampleFieldLines(exs: seq<Dict>)
    requires |exs| > 0
    requires forall i :: 0 <= i < |exs| ==> '\n' !in Get(exs[i], "greek") && '\n' !in Get(exs[i], "russian")
    ensures SplitAny(JoinWith("\n", ExampleLines(exs)), {'\n'}) == ExampleLines(exs)
  {
    var lines := ExampleLines(exs);
    LinesNoNewline(exs);
    JoinSplit(lines, '\n');
    assert "\n" == ['\n'];
  }

  lemma LinesNoNewline(exs: seq<Dict>)
    requires forall i :: 0 <= i < |exs| ==> '\n' !in Get(exs[i], "greek") && '\n' !in Get(exs[i], "russian")
    ensures forall i :: 0 <= i < |exs| ==> NoneIn(ExampleLines(exs)[i], {'\n'})
  {
    forall i | 0 <= i < |exs|
      ensures NoneIn(ExampleLines(exs)[i], {'\n'})
    {
      LineNoNewline(exs[i]);
    }
  }

  lemma LineNoNewline(ex: Dict)
    requires '\n' !in Get(ex, "greek") && '\n' !in Get(ex, "russian")
    ensures NoneIn(ExampleLine(ex), {'\n'})
  {
    SanitizeNoNewline(Get(ex, "greek"));
    EscapeNoNewline(Get(ex, "russian"));
    var line := ExampleLine(ex);
    assert '\n' !in line;
    forall k | 0 <= k < |line| ensures line[k] != '\n' {
      assert line[k] in line;
    }
  }

  /** The comment field is empty exactly when there is neither a conjugation nor a synonym;
      with a conjugation it opens with it, without one it is the synonym list alone. */
  lemma CommentShape(c: Card)
    ensures var r := RenderFields(c).comment;
      && (Truthy(c.conjugation) ==> StartsWith(r, ConjugationDiv(c.conjugation.value) + ("\n" + BlankLine)))
      && (!Truthy(c.conjugation) && |c.synonyms| > 0 ==> r == SynonymDiv(c.synonyms))
  {
    if Truthy(c.conjugation) {
      CommentOpensWithConjugation(c.conjugation.value, c.synonyms);
    }
  }

  lemma CommentOpensWithConjugation(conjugation: string, synonyms: seq<Dict>)
    requires conjugation != ""
    ensures StartsWith(CommentHtml(Some(conjugation), synonyms), ConjugationDiv(conjugation) + ("\n" + BlankLine))
  {
    var parts := CommentParts(Some(conjugation), synonyms);
    var head := ConjugationDiv(conjugation);
    var rest := JoinWith("\n", parts[1..]);
    assert parts[0] == head && parts[1] == BlankLine;
    JoinStartsWithFirst(parts[1..]);
    PrefixJoin(head + "\n", BlankLine, rest);
    AppendAssoc(head, "\n", BlankLine);
    assert JoinWith("\n", parts) == head + "\n" + rest;
  }

  /** A join starts with its first part. */
  lemma JoinStartsWithFirst(parts: seq<string>)
    requires |parts| > 0
    ensures StartsWith(JoinWith("\n", parts), parts[0])
  {
    var j := JoinWith("\n", parts);
    if |parts| > 1 {
      assert j == parts[0] + ("\n" + JoinWith("\n", parts[1..]));
    }
    assert j[..|parts[0]|] == parts[0];
  }

  lemma PrefixJoin(a: string, b: string, t: string)
    requires StartsWith(t, b)
    ensures StartsWith(a + t, a + b)
  {
    assert (a + t)[..|a + b|] == a + t[..|b|];
  }

  // ---------------------------------------------------------------------------------------
  // _extract_json
  // ---------------------------------------------------------------------------------------

  /** Brace depth of `s[start..end]`: opening braces minus closing braces. Braces inside
      JSON strings count like any other. */
  function Depth(s: string, start: nat, end: nat): int
    requires start <= end <= |s|
    decreases end - start
  {
    if end == start then 0
    else Depth(s, start, end - 1) + (if s[end - 1] == '{' then 1 else if s[end - 1] == '}' then -1 else 0)
  }

  /** `s[e]` is the brace that first brings the depth counted from `start` back to zero. */
  predicate Closes(s: string, start: nat, e: nat) {
    start < e < |s|
    && Depth(s, start, e + 1) == 0
    && forall k :: start < k <= e ==> Depth(s, start, k) > 0
  }

  /** The scan of `_extract_json`'s second step: from the opening brace at `start`, walk
      forward counting braces and stop at the first index where the depth returns to zero. */
  method MatchBrace(text: string, start: nat) returns (r: Option<nat>)
    requires start < |text| && text[start] == '{'
    ensures r.Some? ==> Closes(text, start, r.value) && text[r.value] == '}'
    ensures r.None? ==> forall k :: start < k <= |text| ==> Depth(text, start, k) > 0
  {
    var depth := 0;
    var i := start;
    while i < |text|
      invariant start <= i <= |text|
      invariant depth == Depth(text, start, i)
      invariant forall k :: start < k <= i ==> Depth(text, start, k) > 0
    {
      if text[i] == '{' {
        depth := depth + 1;
      } else if text[i] == '}' {
        depth := depth - 1;
        if depth == 0 {
          return Some(i);
        }
      }
      i := i + 1;
    }
    return None;
  }

  /** There is only one such brace. */
  lemma ClosesUnique(s: string, start: nat, e1: nat, e2: nat)
    requires Closes(s, start, e1) && Closes(s, start, e2)
    ensures e1 == e2
  {
  }

  /** `text.find(c)`. */
  function Find(s: string, c: char): (r: Option<nat>)
    ensures r.None? <==> c !in s
    ensures r.Some? ==> r.value < |s| && s[r.value] == c && c !in s[..r.value]
  {
    if |s| == 0 then None
    else if s[0] == c then Some(0)
    else
      match Find(s[1..], c)
      case None => None
      case Some(k) =>
        assert s[..k + 1] == [s[0]] + s[1..][..k];
        Some(k + 1)
  }

  /** The fenced block was found and parses. */
  predicate FenceHit<T>(text: string, fence: string -> Option<string>, parse: string -> Option<T>) {
    fence(text).Some? && parse(fence(text).value).Some?
  }

  function NotFoundMessage(word: string, text: string): string {
    "Could not extract JSON from Claude's response for '" + word + "':\n" + PyTake(text, 500)
  }

  /** `_extract_json`. The fenced-code regular expression is the parameter `fence`, which
      gives the text of the first fenced block; JSON parsing is the partial function
      `parse`. A fenced block that does not parse falls through to the brace scan, which
      starts at the first `{` only: if that candidate does not parse, the search is over. */
  method ExtractJson<T>(text: string, word: string, fence: string -> Option<string>, parse: string -> Option<T>)
    returns (r: Result<T, string>)
    ensures FenceHit(text, fence, parse) ==> r == Success(parse(fence(text).value).value)
    ensures !FenceHit(text, fence, parse) ==>
      (r.Success? <==> Find(text, '{').Some?
                       && exists e :: Closes(text, Find(text, '{').value, e)
                                      && parse(text[Find(text, '{').value..e + 1]).Some?)
    ensures !FenceHit(text, fence, parse) && r.Success? ==>
      exists e :: Closes(text, Find(text, '{').value, e)
                  && parse(text[Find(text, '{').value..e + 1]) == Some(r.value)
    ensures r.Failure? ==> r.error == NotFoundMessage(word, text)
  {
    var block := fence(text);
    if block.Some? {
      var data := parse(block.value);
      if data.Some? {
        return Success(data.value);
      }
    }
    var start := Find(text, '{');
    if start.Some? {
      var close := MatchBrace(text, start.value);
      if close.Some? {
        var data := parse(text[start.value..close.value + 1]);
        if data.Some? {
          return Success(data.value);
        }
      }
    }
    return Failure(NotFoundMessage(word, text));
  }
}

=== FILE: cli.dfy ===
/** The pure computations inside the commands of cli.py: the sync selection, rank-bucket tags,
    the enrich selection and merge, the refresh lookup and output, the build-deck defaults,
    the cache-status ranges and the tag merge. Reading and writing packages, the model calls,
    prompts and printing are not modelled; the deck's notes, the cache and the frequency table
    are inputs. */
module Cli {
  import opened Wrappers
  import opened Strings
  import opened Config
  import opened Normalizer
  import opened Matcher
  import opened FreqList
  import opened ClaudeGenerator
  import CardCache
  import opened AnkiDeck

  // ---------------------------------------------------------------------------------------
  // sync
  // ---------------------------------------------------------------------------------------

  /** Some element of `xs` satisfies `p`, looking at the elements in order. */
  predicate AnyOf(xs: seq<string>, p: string -> bool)
    decreases |xs|
  {
    |xs| > 0 && (p(xs[0]) || AnyOf(xs[1..], p))
  }

  lemma {:induction false} AnyOfSome(xs: seq<string>, p: string -> bool)
    ensures AnyOf(xs, p) <==> exists i :: 0 <= i < |xs| && p(xs[i])
    decreases |xs|
  {
    if |xs| > 0 {
      AnyOfSome(xs[1..], p);
      if !p(xs[0]) && AnyOf(xs[1..], p) {
        var i :| 0 <= i < |xs[1..]| && p(xs[1..][i]);
        assert xs[i + 1] == xs[1..][i];
      }
      if exists i :: 0 <= i < |xs| && p(xs[i]) {
        var i :| 0 <= i < |xs| && p(xs[i]);
        if i > 0 {
          assert xs[1..][i - 1] == xs[i];
        }
      }
    }
  }

  /** The coverage test against one target, as a test on fields. */
  function CoversOf(target: string): string -> bool {
    field => Covers(field, target)
  }

  /** What `freq_word_in_anki(word, back_fields)` answers: some Back field, looking at them in
      order, covers the word's normal form. */
  predicate FoundInDeck(word: string, backs: seq<string>)
    decreases |backs|
  {
    |backs| > 0 && (Covers(backs[0], NormalizeGreek(word)) || FoundInDeck(word, backs[1..]))
  }

  lemma {:induction false} FoundInDeckAnyOf(word: string, backs: seq<string>)
    ensures FoundInDeck(word, backs) == AnyOf(backs, CoversOf(NormalizeGreek(word)))
    decreases |backs|
  {
    if |backs| > 0 {
      FoundInDeckAnyOf(word, backs[1..]);
      assert CoversOf(NormalizeGreek(word))(backs[0]) == Covers(backs[0], NormalizeGreek(word));
    }
  }

  /** The deck test is the existence of a covering Back field. */
  lemma FoundInDeckSome(word: string, backs: seq<string>)
    ensures FoundInDeck(word, backs) <==> exists i :: 0 <= i < |backs| && Covers(backs[i], NormalizeGreek(word))
  {
    var p := CoversOf(NormalizeGreek(word));
    FoundInDeckAnyOf(word, backs);
    AnyOfSome(backs, p);
    assert forall i :: 0 <= i < |backs| ==> p(backs[i]) == Covers(backs[i], NormalizeGreek(word));
  }

  /** `freq_word_in_anki` as a method whose answer is stated through `FoundInDeck`. */
  method InDeck(word: string, backs: seq<string>) returns (found: bool)
    ensures found == FoundInDeck(word, backs)
  {
    found := FreqWordInAnki(word, backs);
    FoundInDeckSome(word, backs);
  }

  /** The words `sync` hands to `mark_many_processed`: the text of every pending row, in rank
      order, that is found among the deck's Back fields. */
  function SyncWords(pending: seq<Entry>, backs: seq<string>): (r: seq<string>)
    ensures |r| <= |pending|
    decreases |pending|
  {
    if |pending| == 0 then []
    else
      var last := pending[|pending| - 1];
      SyncWords(pending[..|pending| - 1], backs) + (if FoundInDeck(last.greek, backs) then [last.greek] else [])
  }

  lemma SyncWordsStep(pending: seq<Entry>, backs: seq<string>, i: nat)
    requires i < |pending|
    ensures SyncWords(pending[..i + 1], backs) ==
      SyncWords(pending[..i], backs) + (if FoundInDeck(pending[i].greek, backs) then [pending[i].greek] else [])
  {
    assert pending[..i + 1][..i] == pending[..i];
  }

  /** The texts of the rows that pass `found`, in order. */
  function Selected(rows: seq<Entry>, found: string -> bool): (r: seq<string>)
    decreases |rows|
  {
    if |rows| == 0 then []
    else
      var last := rows[|rows| - 1];
      Selected(rows[..|rows| - 1], found) + (if found(last.greek) then [last.greek] else [])
  }

  /** A text is selected exactly when it is the text of one of the rows and passes. */
  lemma {:induction false} SelectedMembers(rows: seq<Entry>, found: string -> bool, w: string)
    ensures w in Selected(rows, found) <==> (exists i :: 0 <= i < |rows| && rows[i].greek == w) && found(w)
    decreases |rows|
  {
    if |rows| > 0 {
      var front := rows[..|rows| - 1];
      SelectedMembers(front, found, w);
      if exists i :: 0 <= i < |front| && front[i].greek == w {
        var i :| 0 <= i < |front| && front[i].greek == w;
        assert rows[i].greek == w;
      }
      if exists i :: 0 <= i < |rows| && rows[i].greek == w {
        var i :| 0 <= i < |rows| && rows[i].greek == w;
        if i < |front| {
          assert front[i].greek == w;
        }
      }
    }
  }

  /** The deck test for a fixed list of Back fields. */
  function DeckTest(backs: seq<string>): string -> bool {
    w => FoundInDeck(w, backs)
  }

  lemma {:induction false} SyncWordsSelected(pending: seq<Entry>, backs: seq<string>)
    ensures SyncWords(pending, backs) == Selected(pending, DeckTest(backs))
    decreases |pending|
  {
    if |pending| > 0 {
      SyncWordsSelected(pending[..|pending| - 1], backs);
      var last := pending[|pending| - 1];
      assert DeckTest(backs)(last.greek) == FoundInDeck(last.greek, backs);
    }
  }

  /** A word is selected exactly when it is the text of a pending row and is found in the
      deck. */
  lemma SyncWordsMembers(pending: seq<Entry>, backs: seq<string>, w: string)
    ensures w in SyncWords(pending, backs) <==>
      (exists i :: 0 <= i < |pending| && pending[i].greek == w) && FoundInDeck(w, backs)
  {
    SyncWordsSelected(pending, backs);
    SelectedMembers(pending, DeckTest(backs), w);
    assert DeckTest(backs)(w) == FoundInDeck(w, backs);
  }

  /** One step of the loop of `sync`: the next pending row is looked up in the deck. */
  method SelectNext(pending: seq<Entry>, backs: seq<string>, i: nat, matched: seq<string>) returns (next: seq<string>)
    requires i < |pending| && matched == SyncWords(pending[..i], backs)
    ensures next == SyncWords(pending[..i + 1], backs)
  {
    var found := InDeck(pending[i].greek, backs);
    SyncWordsStep(pending, backs, i);
    next := if found then matched + [pending[i].greek] else matched;
  }

  /** The loop of `sync` over the pending rows. */
  method SelectMatched(pending: seq<Entry>, backs: seq<string>) returns (matched: seq<string>)
    ensures matched == SyncWords(pending, backs)
  {
    matched := [];
    var i := 0;
    while i < |pending|
      invariant 0 <= i <= |pending|
      invariant matched == SyncWords(pending[..i], backs)
    {
      matched := SelectNext(pending, backs, i, matched);
      i := i + 1;
    }
    assert pending[..|pending|] == pending;
  }

  const SyncNote := "sync: found in APKG"

  /** `sync`: every pending word found in the deck is marked as in the deck, in one batch;
      when none is found the table is left alone. Only pending rows ever change. */
  method Sync(db: Table, backs: seq<string>, now: string) returns (r: Table, count: nat, matched: seq<string>)
    ensures matched == SyncWords(GetPending(db, None, None, None), backs)
    ensures |matched| == 0 ==> r == db && count == 0
    ensures |matched| > 0 ==> (r, count) == MarkManyProcessed(db, matched, InAnki, Some(SyncNote), now, NormalizeGreek)
    ensures |r| == |db| && count <= |matched|
    ensures forall i :: 0 <= i < |db| && r[i] != db[i] ==> db[i].processed == Pending
  {
    matched := SelectMatched(GetPending(db, None, None, None), backs);
    if |matched| > 0 {
      var res := MarkManyProcessed(db, matched, InAnki, Some(SyncNote), now, NormalizeGreek);
      MarkManyOnlyPending(db, matched, InAnki, Some(SyncNote), now, NormalizeGreek);
      r, count := res.0, res.1;
    } else {
      r, count := db, 0;
    }
  }

  /** Every word sync selects is the text of a pending row. */
  lemma SyncWordsArePending(db: Table, backs: seq<string>)
    ensures forall w :: w in SyncWords(GetPending(db, None, None, None), backs) ==>
      exists i :: 0 <= i < |db| && db[i].greek == w && db[i].processed == Pending
  {
    var pending := GetPending(db, None, None, None);
    forall w | w in SyncWords(pending, backs)
      ensures exists i :: 0 <= i < |db| && db[i].greek == w && db[i].processed == Pending
    {
      SyncWordsMembers(pending, backs, w);
      var k :| 0 <= k < |pending| && pending[k].greek == w;
      assert pending[k] in db;
    }
  }

  // ---------------------------------------------------------------------------------------
  // Rank-bucket tags (add, add-batch, build-deck)
  // ---------------------------------------------------------------------------------------

  /** `((rank - 1) // 500) * 500 + 1`, the first rank of the rank's 500-wide bucket. Python's
      `//` rounds down, and so does Dafny's `/` for the positive divisor 500. */
  function BucketStart(rank: int): (rs: int)
    ensures rs <= rank <= rs + 499
    ensures rs % 500 == 1
    ensures rank >= 1 ==> rs >= 1
  {
    ((rank - 1) / 500) * 500 + 1
  }

  /** Ranks share a bucket start exactly when they lie in the same 500-wide window. */
  lemma BucketStartUnique(rank: int, s: int)
    requires s % 500 == 1 && s <= rank <= s + 499
    ensures BucketStart(rank) == s
  {
    var q := (rank - 1) / 500;
    var p := (s - 1) / 500;
    assert s - 1 == 500 * p;
    assert 500 * q <= rank - 1 < 500 * q + 500;
    assert 500 * p <= rank - 1 < 500 * p + 500;
  }

  /** The tag's bucket is the summary's bucket of that rank in `get_status_summary`. */
  lemma BucketStartIsSummaryBucket(t: Table, i: int)
    requires 0 <= i < |t| && t[i].rank >= 1
    ensures var b := (t[i].rank - 1) / 500;
      b < |GetStatusSummary(t).ranges| && GetStatusSummary(t).ranges[b].start == BucketStart(t[i].rank)
  {
    BucketOfRank(t, i);
  }

  /** `f"freq::{rs}-{rs + 499}"`; `show` is Python's decimal formatting of an integer. */
  function FreqTag(rank: int, show: int -> string): (r: string)
    ensures forall rs :: rs % 500 == 1 && rs <= rank <= rs + 499 ==> r == "freq::" + show(rs) + "-" + show(rs + 499)
  {
    var rs := BucketStart(rank);
    forall b | b % 500 == 1 && b <= rank <= b + 499 ensures b == rs {
      BucketStartUnique(rank, b);
    }
    "freq::" + show(rs) + "-" + show(rs + 499)
  }

  /** The tags `add-batch` puts on an accepted card: the batch's three base tags, then the
      part of speech and the rank bucket. */
  function BatchTags(month: string, partOfSpeech: string, rank: int, show: int -> string): (r: seq<string>)
    ensures |r| == 5 && r[0] == "auto-generated" && r[2] == "source::batch"
    ensures r[4] == FreqTag(rank, show)
  {
    ["auto-generated", "added::" + month, "source::batch", "pos::" + partOfSpeech, FreqTag(rank, show)]
  }

  /** The tags `add` puts on an accepted card: the bucket tag only when the word has a row in
      the frequency table. */
  function AddTags(month: string, partOfSpeech: string, freqRow: Option<Entry>, show: int -> string): (r: seq<string>)
    ensures freqRow.None? ==> |r| == 3
    ensures freqRow.Some? ==> |r| == 4 && r[3] == FreqTag(freqRow.value.rank, show)
    ensures r[..3] == ["auto-generated", "added::" + month, "pos::" + partOfSpeech]
  {
    var base := ["auto-generated", "added::" + month, "pos::" + partOfSpeech];
    if freqRow.Some? then base + [FreqTag(freqRow.value.rank, show)] else base
  }

  // ---------------------------------------------------------------------------------------
  // build-deck
  // ---------------------------------------------------------------------------------------

  /** The deck name: the one given, else "Greek Top {end}" for a range from 1, else
      "Greek {start}-{end}". */
  function DeckNameFor(rangeStart: int, rangeEnd: int, deckName: Option<string>, show: int -> string): (r: string)
    ensures deckName.Some? ==> r == deckName.value
    ensures deckName.None? && rangeStart == 1 ==> r == "Greek Top " + show(rangeEnd)
    ensures deckName.None? && rangeStart != 1 ==> r == "Greek " + show(rangeStart) + "-" + show(rangeEnd)
  {
    match deckName
    case Some(name) => name
    case None => if rangeStart == 1 then "Greek Top " + show(rangeEnd) else "Greek " + show(rangeStart) + "-" + show(rangeEnd)
  }

  /** The output file: the one given, else "Greek_top_{end}.apkg" for a range from 1, else
      "Greek_{start}_{end}.apkg". */
  function OutputFor(rangeStart: int, rangeEnd: int, output: Option<string>, show: int -> string): (r: string)
    ensures output.Some? ==> r == output.value
    ensures output.None? && rangeStart == 1 ==> r == "Greek_top_" + show(rangeEnd) + ".apkg"
    ensures output.None? && rangeStart != 1 ==> r == "Greek_" + show(rangeStart) + "_" + show(rangeEnd) + ".apkg"
  {
    match output
    case Some(name) => name
    case None =>
      if rangeStart == 1 then "Greek_top_" + show(rangeEnd) + ".apkg"
      else "Greek_" + show(rangeStart) + "_" + show(rangeEnd) + ".apkg"
  }

  /** The tags every note of a built deck carries. */
  function BuildDeckTags(rangeStart: int, rangeEnd: int, show: int -> string): (r: seq<string>)
    ensures |r| == 3 && r[2] == "freq::" + show(rangeStart) + "-" + show(rangeEnd)
  {
    ["auto-generated", "source::build-deck", "freq::" + show(rangeStart) + "-" + show(rangeEnd)]
  }

  /** A range that starts at a bucket start and is one bucket long gets the same `freq::` tag
      as the words in it get from `add-batch`. */
  lemma BuildTagMatchesBatchTag(rangeStart: int, rank: int, show: int -> string)
    requires rangeStart % 500 == 1 && rangeStart <= rank <= rangeStart + 499
    ensures BuildDeckTags(rangeStart, rangeStart + 499, show)[2] == FreqTag(rank, show)
  {
    BucketStartUnique(rank, rangeStart);
  }

  // ---------------------------------------------------------------------------------------
  // enrich
  // ---------------------------------------------------------------------------------------

  /** `not s.strip()`. */
  predicate Blank(s: string) {
    Trim(s) == ""
  }

  /** `--full` mode: neither an example nor a comment. */
  predicate Minimal(n: AnkiNote) {
    Blank(n.example) && Blank(n.comment)
  }

  /** Default mode: any of the four enrichable fields is blank. */
  predicate HasGap(n: AnkiNote) {
    Blank(n.example) || Blank(n.comment) || Blank(n.collocations) || Blank(n.etymology)
  }

  predicate Wanted(n: AnkiNote, full: bool) {
    if full then Minimal(n) else HasGap(n)
  }

  /** How many of `notes` the mode wants. */
  function WantedCount(notes: seq<AnkiNote>, full: bool): nat
    decreases |notes|
  {
    if |notes| == 0 then 0
    else (if Wanted(notes[0], full) then 1 else 0) + WantedCount(notes[1..], full)
  }

  /** The candidate notes of either mode, in deck order: one entry per wanted note, repeats
      included, and the `i`-th note, when wanted, sits after the wanted notes before it. */
  function Candidates(notes: seq<AnkiNote>, full: bool): (r: seq<AnkiNote>)
    ensures |r| == WantedCount(notes, full) && |r| <= |notes|
    ensures forall i :: 0 <= i < |notes| && Wanted(notes[i], full) ==>
      WantedCount(notes[..i], full) < |r| && r[WantedCount(notes[..i], full)] == notes[i]
    ensures forall n :: n in r <==> n in notes && Wanted(n, full)
    decreases |notes|
  {
    if |notes| == 0 then []
    else
      var rest := Candidates(notes[1..], full);
      assert forall n :: n in notes <==> n == notes[0] || n in notes[1..];
      var r := if Wanted(notes[0], full) then [notes[0]] + rest else rest;
      forall i | 0 <= i < |notes| && Wanted(notes[i], full)
        ensures WantedCount(notes[..i], full) < |r| && r[WantedCount(notes[..i], full)] == notes[i]
      {
        if i > 0 {
          CandidateStep(notes, full, rest, i);
        }
      }
      r
  }

  /** The position of the `i`-th note, `i > 0`, one note further on: it moves by one when the
      first note is wanted and stays otherwise. */
  lemma CandidateStep(notes: seq<AnkiNote>, full: bool, rest: seq<AnkiNote>, i: int)
    requires 0 < i < |notes| && Wanted(notes[i], full)
    requires forall j :: 0 <= j < |notes[1..]| && Wanted(notes[1..][j], full) ==>
      WantedCount(notes[1..][..j], full) < |rest| && rest[WantedCount(notes[1..][..j], full)] == notes[1..][j]
    ensures var r := if Wanted(notes[0], full) then [notes[0]] + rest else rest;
      WantedCount(notes[..i], full) < |r| && r[WantedCount(notes[..i], full)] == notes[i]
  {
    var tail := notes[1..];
    TailOfPrefix(notes, i);
    assert tail[i - 1] == notes[i];
    var c := WantedCount(tail[..i - 1], full);
    assert c < |rest| && rest[c] == notes[i];
    assert notes[..i][0] == notes[0];
    assert WantedCount(notes[..i], full) == (if Wanted(notes[0], full) then 1 else 0) + c;
    if Wanted(notes[0], full) {
      ConsAt(notes[0], rest, c);
    }
  }

  /** Putting one element in front moves every element one place on. */
  lemma ConsAt<T>(x: T, s: seq<T>, c: int)
    requires 0 <= c < |s|
    ensures ([x] + s)[c + 1] == s[c]
  {
  }

  lemma TailOfPrefix<T>(s: seq<T>, i: int)
    requires 0 < i <= |s|
    ensures s[..i][1..] == s[1..][..i - 1]
  {
  }

  /** The full-mode candidates are exactly the minimal notes among the default-mode ones, so
      they are a subset of them in the same order. */
  lemma {:induction false} FullCandidatesWithinDefault(notes: seq<AnkiNote>)
    ensures Candidates(notes, true) == Candidates(Candidates(notes, false), true)
    decreases |notes|
  {
    if |notes| > 0 {
      FullCandidatesWithinDefault(notes[1..]);
      var d := Candidates(notes, false);
      if HasGap(notes[0]) {
        assert d[0] == notes[0] && d[1..] == Candidates(notes[1..], false);
      }
    }
  }

  /** `candidates[:limit]`: Python slicing, so a negative limit drops notes from the end. */
  function ToEnrich(notes: seq<AnkiNote>, full: bool, limit: int): (r: seq<AnkiNote>)
    ensures limit >= 0 ==> |r| <= limit
    ensures |r| <= |Candidates(notes, full)|
    ensures limit >= 0 ==> |r| == if limit < WantedCount(notes, full) then limit else WantedCount(notes, full)
    ensures limit < 0 ==> |r| == if -limit < WantedCount(notes, full) then WantedCount(notes, full) + limit else 0
    ensures r == Candidates(notes, full)[..|r|]
    ensures forall n :: n in r ==> n in notes && Wanted(n, full)
  {
    PyTake(Candidates(notes, full), limit)
  }

  /** `re.sub(r"<[^>]+>", "", note.back).strip()`: the word a note is regenerated from. */
  function CleanWord(back: string): (r: string)
    ensures Trimmed(r)
    ensures '<' !in back ==> r == Trim(back)
  {
    if '<' !in back then StripTagsNoAngle(back); Trim(back) else Trim(StripTags(back))
  }

  /** The field written for an enrichable field in default mode: the note's own content when
      it has any, the generated field otherwise. */
  function KeepOrFill(existing: string, generated: string): (r: string)
    ensures !Blank(existing) ==> r == existing
    ensures Blank(existing) ==> r == generated
  {
    if Blank(existing) then generated else existing
  }

  /** The four enrichable fields written for a note: in `--full` mode the card's, otherwise
      the card's only where the note's own field is blank. */
  function EnrichedFields(note: AnkiNote, card: Card, full: bool): (f: seq<string>)
    ensures |f| == 4
  {
    if full then [card.example, card.comment, card.collocationsHtml, card.etymologyHtml]
    else [KeepOrFill(note.example, card.example), KeepOrFill(note.comment, card.comment),
          KeepOrFill(note.collocations, card.collocationsHtml), KeepOrFill(note.etymology, card.etymologyHtml)]
  }

  /** The dictionary written for an enriched note: guid, front and back always come from the
      note, the other four fields from `EnrichedFields`. */
  function EnrichedNote(note: AnkiNote, card: Card, full: bool): (r: Dict)
    ensures "guid" in r && r["guid"] == note.guid
    ensures NoteFields(r) == [note.front, note.back] + EnrichedFields(note, card, full)
  {
    var fields := EnrichedFields(note, card, full);
    EnrichDictFields(note.guid, note.front, note.back, fields);
    EnrichDict(note.guid, note.front, note.back, fields)
  }

  /** In `--full` mode every enrichable field is replaced by the card's. */
  lemma EnrichFullReplaces(note: AnkiNote, card: Card)
    ensures NoteFields(EnrichedNote(note, card, true))
         == [note.front, note.back, card.example, card.comment, card.collocationsHtml, card.etymologyHtml]
  {
  }

  /** In default mode a blank field is filled from the card and any other field is kept. */
  lemma EnrichFillsOnlyBlanks(note: AnkiNote, card: Card)
    ensures var f := NoteFields(EnrichedNote(note, card, false));
      && f[2] == (if Blank(note.example) then card.example else note.example)
      && f[3] == (if Blank(note.comment) then card.comment else note.comment)
      && f[4] == (if Blank(note.collocations) then card.collocationsHtml else note.collocations)
      && f[5] == (if Blank(note.etymology) then card.etymologyHtml else note.etymology)
  {
    var e := EnrichedFields(note, card, false);
    var f := NoteFields(EnrichedNote(note, card, false));
    AfterTwo(note.front, note.back, e);
    assert f == [note.front, note.back] + e;
  }

  lemma AfterTwo<T>(a: T, b: T, e: seq<T>)
    requires |e| == 4
    ensures var f := [a, b] + e; f[2] == e[0] && f[3] == e[1] && f[4] == e[2] && f[5] == e[3]
  {
  }

  function EnrichDict(guid: string, front: string, back: string, rest: seq<string>): Dict
    requires |rest| == 4
  {
    map["guid" := guid, "front" := front, "back" := back, "example" := rest[0], "comment" := rest[1],
        "collocations" := rest[2], "etymology" := rest[3]]
  }

  lemma EnrichDictFields(guid: string, front: string, back: string, rest: seq<string>)
    requires |rest| == 4
    ensures NoteFields(EnrichDict(guid, front, back, rest)) == [front, back] + rest
  {
    var f := NoteFields(EnrichDict(guid, front, back, rest));
    SixItems(f);
    SixItems([front, back] + rest);
    assert f[0] == front && f[1] == back && f[2] == rest[0];
    assert f[3] == rest[1] && f[4] == rest[2] && f[5] == rest[3];
  }

  /** A note without gaps is written back unchanged in default mode, whatever was generated. */
  lemma EnrichKeepsCompleteNote(note: AnkiNote, card: Card)
    requires !HasGap(note)
    ensures NoteFields(EnrichedNote(note, card, false)) == FieldsOf(note)
  {
    assert KeepOrFill(note.example, card.example) == note.example;
    assert KeepOrFill(note.comment, card.comment) == note.comment;
    assert KeepOrFill(note.collocations, card.collocationsHtml) == note.collocations;
    assert KeepOrFill(note.etymology, card.etymologyHtml) == note.etymology;
    assert EnrichedFields(note, card, false) == [note.example, note.comment, note.collocations, note.etymology];
    TwoThenFour(note.front, note.back, note.example, note.comment, note.collocations, note.etymology);
  }

  lemma TwoThenFour(a: string, b: string, c: string, d: string, e: string, f: string)
    ensures [a, b] + [c, d, e, f] == [a, b, c, d, e, f]
  {
  }

  /** In default mode the merge is idempotent: merging the same card into its own output
      changes nothing, since every field it filled is no longer blank or was filled with a
      blank one again. */
  lemma KeepOrFillIdempotent(existing: string, generated: string)
    ensures KeepOrFill(KeepOrFill(existing, generated), generated) == KeepOrFill(existing, generated)
  {
  }

  // ---------------------------------------------------------------------------------------
  // refresh
  // ---------------------------------------------------------------------------------------

  /** The lookup key of a note: the normal form of its Back field without tags. */
  function BackKey(n: AnkiNote, norm: string -> string): string {
    norm(StripTags(n.back))
  }

  /** The lookup `refresh` builds over the deck's notes; a later note replaces an earlier one
      with the same key. */
  function BackLookup(notes: seq<AnkiNote>, norm: string -> string): (r: map<string, AnkiNote>)
    ensures forall k :: k in r <==> exists i :: 0 <= i < |notes| && BackKey(notes[i], norm) == k
    ensures forall k :: k in r ==> LastWithKey(notes, norm, k, r[k])
    decreases |notes|
  {
    if |notes| == 0 then map[]
    else
      var front := notes[..|notes| - 1];
      var last := notes[|notes| - 1];
      var m := BackLookup(front, norm);
      LookupStep(notes, norm, m);
      m[BackKey(last, norm) := last]
  }

  /** `n` is the last note with key `k`. */
  predicate LastWithKey(notes: seq<AnkiNote>, norm: string -> string, k: string, n: AnkiNote) {
    exists i :: 0 <= i < |notes| && notes[i] == n && BackKey(n, norm) == k &&
      forall j :: i < j < |notes| ==> BackKey(notes[j], norm) != k
  }

  lemma LookupStep(notes: seq<AnkiNote>, norm: string -> string, m: map<string, AnkiNote>)
    requires |notes| > 0
    requires var front := notes[..|notes| - 1];
      && (forall k :: k in m <==> exists i :: 0 <= i < |front| && BackKey(front[i], norm) == k)
      && (forall k :: k in m ==> LastWithKey(front, norm, k, m[k]))
    ensures var last := notes[|notes| - 1];
      var r := m[BackKey(last, norm) := last];
      && (forall k :: k in r <==> exists i :: 0 <= i < |notes| && BackKey(notes[i], norm) == k)
      && (forall k :: k in r ==> LastWithKey(notes, norm, k, r[k]))
  {
    var front := notes[..|notes| - 1];
    var last := notes[|notes| - 1];
    assert notes == front + [last];
    LookupKeys(front, last, norm, m);
    var r := m[BackKey(last, norm) := last];
    forall k | k in r
      ensures LastWithKey(front + [last], norm, k, r[k])
    {
      if k == BackKey(last, norm) {
        LastWithKeyLast(front, last, norm);
      } else {
        LastWithKeyExtend(front, last, norm, k, m[k]);
      }
    }
  }

  /** The keys after one more note are the keys before plus that note's key. */
  lemma LookupKeys(front: seq<AnkiNote>, last: AnkiNote, norm: string -> string, m: map<string, AnkiNote>)
    requires forall k :: k in m <==> exists i :: 0 <= i < |front| && BackKey(front[i], norm) == k
    ensures var notes := front + [last];
      forall k :: (k in m || k == BackKey(last, norm)) <==> exists i :: 0 <= i < |notes| && BackKey(notes[i], norm) == k
  {
    var notes := front + [last];
    forall k | exists i :: 0 <= i < |notes| && BackKey(notes[i], norm) == k
      ensures k in m || k == BackKey(last, norm)
    {
      var i :| 0 <= i < |notes| && BackKey(notes[i], norm) == k;
      if i < |front| {
        assert front[i] == notes[i];
      }
    }
    forall k | k in m || k == BackKey(last, norm)
      ensures exists i :: 0 <= i < |notes| && BackKey(notes[i], norm) == k
    {
      if k != BackKey(last, norm) {
        var i :| 0 <= i < |front| && BackKey(front[i], norm) == k;
        assert notes[i] == front[i];
      } else {
        assert notes[|front|] == last;
      }
    }
  }

  lemma LastWithKeyLast(front: seq<AnkiNote>, last: AnkiNote, norm: string -> string)
    ensures LastWithKey(front + [last], norm, BackKey(last, norm), last)
  {
    assert (front + [last])[|front|] == last;
  }

  lemma LastWithKeyExtend(front: seq<AnkiNote>, last: AnkiNote, norm: string -> string, k: string, n: AnkiNote)
    requires LastWithKey(front, norm, k, n) && BackKey(last, norm) != k
    ensures LastWithKey(front + [last], norm, k, n)
  {
    var notes := front + [last];
    var i :| 0 <= i < |front| && front[i] == n && BackKey(n, norm) == k &&
      forall j :: i < j < |front| ==> BackKey(front[j], norm) != k;
    assert notes[i] == front[i];
    forall j | i < j < |notes|
      ensures BackKey(notes[j], norm) != k
    {
      if j < |front| {
        assert notes[j] == front[j];
      }
    }
  }

  /** How many of `words` find a note through their normal form. */
  function FoundCount(words: seq<string>, lookup: map<string, AnkiNote>, norm: string -> string): nat
    decreases |words|
  {
    if |words| == 0 then 0
    else (if norm(words[0]) in lookup then 1 else 0) + FoundCount(words[1..], lookup, norm)
  }

  /** The notes `refresh` regenerates: for each given word, in order, the note its normal
      form finds; a word that finds none is skipped. So there is one note per found word, and
      the note of the `i`-th word sits after the notes of the found words before it. */
  function RefreshTargets(words: seq<string>, lookup: map<string, AnkiNote>, norm: string -> string): (r: seq<AnkiNote>)
    ensures |r| == FoundCount(words, lookup, norm) && |r| <= |words|
    ensures forall i :: 0 <= i < |words| && norm(words[i]) in lookup ==>
      FoundCount(words[..i], lookup, norm) < |r| && r[FoundCount(words[..i], lookup, norm)] == lookup[norm(words[i])]
    ensures forall n :: n in r ==> exists w :: w in words && norm(w) in lookup && lookup[norm(w)] == n
    decreases |words|
  {
    if |words| == 0 then []
    else
      var rest := RefreshTargets(words[1..], lookup, norm);
      assert forall w :: w in words[1..] ==> w in words;
      assert forall i :: 0 < i <= |words| ==> words[..i][1..] == words[1..][..i - 1];
      assert forall i :: 0 < i < |words| ==> words[i] == words[1..][i - 1];
      var k := norm(words[0]);
      if k in lookup then [lookup[k]] + rest else rest
  }

  /** When every word finds a note, word `i` yields the `i`-th note. */
  lemma RefreshTargetsAllFound(words: seq<string>, lookup: map<string, AnkiNote>, norm: string -> string)
    requires forall w :: w in words ==> norm(w) in lookup
    ensures |RefreshTargets(words, lookup, norm)| == |words|
    ensures forall i :: 0 <= i < |words| ==> RefreshTargets(words, lookup, norm)[i] == lookup[norm(words[i])]
  {
    forall i | 0 <= i <= |words| ensures FoundCount(words[..i], lookup, norm) == i {
      FoundCountAll(words[..i], lookup, norm);
    }
  }

  lemma {:induction false} FoundCountAll(words: seq<string>, lookup: map<string, AnkiNote>, norm: string -> string)
    requires forall w :: w in words ==> norm(w) in lookup
    ensures FoundCount(words, lookup, norm) == |words|
    decreases |words|
  {
    if |words| > 0 {
      assert words[0] in words;
      assert forall w :: w in words[1..] ==> w in words;
      FoundCountAll(words[1..], lookup, norm);
    }
  }

  /** The dictionary written for a refreshed note: its guid and its original Back, and every
      other field from the regenerated card. */
  function RefreshedNote(note: AnkiNote, nd: NoteDict): (r: Dict)
    ensures "guid" in r && r["guid"] == note.guid
    ensures NoteFields(r) == [nd.front, note.back, nd.example, nd.comment, nd.collocations, nd.etymology]
  {
    EnrichDictFields(note.guid, nd.front, note.back, [nd.example, nd.comment, nd.collocations, nd.etymology]);
    EnrichDict(note.guid, nd.front, note.back, [nd.example, nd.comment, nd.collocations, nd.etymology])
  }

  // ---------------------------------------------------------------------------------------
  // tag
  // ---------------------------------------------------------------------------------------

  predicate Distinct(s: seq<string>) {
    forall i, j :: 0 <= i < j < |s| ==> s[i] != s[j]
  }

  /** The first occurrence of each element, in order. */
  function Dedup(s: seq<string>): (r: seq<string>)
    ensures Distinct(r)
    ensures forall x :: x in r <==> x in s
    decreases |s|
  {
    if |s| == 0 then []
    else
      var front := s[..|s| - 1];
      var last := s[|s| - 1];
      var d := Dedup(front);
      assert forall x :: x in s <==> x in front || x == last;
      if last in d then d else d + [last]
  }

  /** `list(set(note.tags) | set(tags))`: every old and every new tag, once each. */
  function MergeTags(current: seq<string>, added: seq<string>): (r: seq<string>)
    ensures Distinct(r)
    ensures forall x :: x in r <==> x in current || x in added
  {
    Dedup(current + added)
  }

  /** The note `tag` writes: the same guid and fields, with the merged tags. */
  function TagNote(note: AnkiNote, added: seq<string>): (r: AnkiNote)
    ensures r.guid == note.guid && FieldsOf(r) == FieldsOf(note)
    ensures forall x :: x in r.tags <==> x in note.tags || x in added
    ensures Distinct(r.tags)
  {
    note.(tags := MergeTags(note.tags, added))
  }

  /** Tagging twice with the same tags gives the same tags as tagging once. */
  lemma {:induction false} TagTwice(tags: seq<string>, added: seq<string>)
    ensures MergeTags(MergeTags(tags, added), added) == MergeTags(tags, added)
  {
    var d := MergeTags(tags, added);
    DedupDistinct(d);
    DedupPresent(d, added);
  }

  lemma {:induction false} DedupDistinct(s: seq<string>)
    requires Distinct(s)
    ensures Dedup(s) == s
    decreases |s|
  {
    if |s| > 0 {
      var front := s[..|s| - 1];
      DedupDistinct(front);
      assert s[|s| - 1] !in front;
      assert front + [s[|s| - 1]] == s;
    }
  }

  /** Appending elements that are already there leaves the first occurrences alone. */
  lemma {:induction false} DedupPresent(s: seq<string>, extra: seq<string>)
    requires forall x :: x in extra ==> x in s
    ensures Dedup(s + extra) == Dedup(s)
    decreases |extra|
  {
    if |extra| > 0 {
      var front := extra[..|extra| - 1];
      DedupPresent(s, front);
      assert (s + extra)[..|s + extra| - 1] == s + front;
      assert extra[|extra| - 1] in Dedup(s + front);
    } else {
      assert s + extra == s;
    }
  }

  /** The deck `tag` writes to: the given name with an id derived from it, or the default
      deck; `idOf` is the name hash. */
  function TagDeck(deckName: Option<string>, idOf: string -> int): (r: (int, string))
    ensures deckName.None? || deckName.value == "" ==> r == (DeckId, DeckName)
    ensures deckName.Some? && deckName.value != "" ==> r == (idOf(deckName.value), deckName.value)
  {
    if deckName.Some? && deckName.value != "" then (idOf(deckName.value), deckName.value) else (DeckId, DeckName)
  }

  // ---------------------------------------------------------------------------------------
  // cache-status
  // ---------------------------------------------------------------------------------------

  function Min(a: int, b: int): int {
    if a <= b then a else b
  }

  /** `for start in range(range_start, range_end + 1, 500): end = min(start + 499, range_end)`. */
  function Chunks(rangeStart: int, rangeEnd: int): (r: seq<(int, int)>)
    ensures rangeStart > rangeEnd ==> r == []
    ensures rangeStart <= rangeEnd ==> |r| > 0 && r[0].0 == rangeStart && r[|r| - 1].1 == rangeEnd
    ensures forall i :: 0 <= i < |r| ==> r[i].0 == rangeStart + 500 * i && r[i].0 <= r[i].1 <= r[i].0 + 499 && r[i].1 <= rangeEnd
    ensures forall i :: 0 <= i < |r| ==> r[i].1 == r[i].0 + 499 || r[i].1 == rangeEnd
    ensures forall i :: 0 <= i < |r| - 1 ==> r[i + 1].0 == r[i].1 + 1
    decreases rangeEnd - rangeStart
  {
    if rangeStart > rangeEnd then []
    else
      var rest := Chunks(rangeStart + 500, rangeEnd);
      [(rangeStart, Min(rangeStart + 499, rangeEnd))] + rest
  }

  /** The chunks are disjoint: a later one starts after an earlier one ends. */
  lemma {:induction false} ChunksDisjoint(rangeStart: int, rangeEnd: int, i: int, j: int)
    requires 0 <= i < j < |Chunks(rangeStart, rangeEnd)|
    ensures Chunks(rangeStart, rangeEnd)[i].1 < Chunks(rangeStart, rangeEnd)[j].0
  {
  }

  /** The chunks cover the range exactly: a rank lies in some chunk iff it lies in the range. */
  lemma ChunksCover(rangeStart: int, rangeEnd: int, rank: int)
    ensures (exists i :: 0 <= i < |Chunks(rangeStart, rangeEnd)| &&
               Chunks(rangeStart, rangeEnd)[i].0 <= rank <= Chunks(rangeStart, rangeEnd)[i].1)
            <==> rangeStart <= rank <= rangeEnd
  {
    var c := Chunks(rangeStart, rangeEnd);
    if rangeStart <= rank <= rangeEnd {
      var i := (rank - rangeStart) / 500;
      var l := |c| - 1;
      assert 500 * i <= rank - rangeStart < 500 * i + 500;
      assert c[l].0 == rangeStart + 500 * l && c[l].1 == rangeEnd && c[l].1 <= c[l].0 + 499;
      assert i < |c|;
      assert c[i].0 <= rank <= c[i].1;
    }
  }

  /** The default range of `cache-status`: from 1 to the highest rank, or to 0 for an empty
      table. */
  function StatusRange(t: Table, rankRange: Option<(int, int)>): (r: (int, int))
    ensures rankRange.Some? ==> r == rankRange.value
    ensures rankRange.None? ==> r.0 == 1 && forall i :: 0 <= i < |t| ==> t[i].rank <= r.1
    ensures rankRange.None? && |t| > 0 ==> exists i :: 0 <= i < |t| && t[i].rank == r.1
    ensures rankRange.None? && |t| == 0 ==> r.1 == 0
  {
    if rankRange.Some? then rankRange.value
    else
      assert |t| > 0 ==> forall i :: 0 <= i < |t| ==> t[i].rank <= t[|t| - 1].rank;
      (1, MaxRankOrZero(t))
  }

  /** The positions of the rows whose word has a cached card. */
  function CachedIndices(rows: seq<Entry>, cache: CardCache.Cache, norm: string -> string): set<int> {
    set i | 0 <= i < |rows| && norm(rows[i].greek) in cache
  }

  lemma CachedIndicesCons(rows: seq<Entry>, cache: CardCache.Cache, norm: string -> string)
    requires |rows| > 0
    ensures |CachedIndices(rows, cache, norm)|
         == (if norm(rows[0].greek) in cache then 1 else 0) + |CachedIndices(rows[1..], cache, norm)|
  {
    var rest := CachedIndices(rows[1..], cache, norm);
    var head: set<int> := if norm(rows[0].greek) in cache then {0} else {};
    assert CachedIndices(rows, cache, norm) == head + Shift(rest) by {
      forall i | i in CachedIndices(rows, cache, norm) ensures i in head + Shift(rest) {
        if i > 0 { assert i - 1 in rest; }
      }
    }
    ShiftCard(rest, |rows| - 1);
  }

  /** How many of the rows have a cached card. */
  function CachedCount(rows: seq<Entry>, cache: CardCache.Cache, norm: string -> string): (n: nat)
    ensures n <= |rows|
    ensures n == |CachedIndices(rows, cache, norm)|
    ensures n == 0 <==> forall i :: 0 <= i < |rows| ==> norm(rows[i].greek) !in cache
    decreases |rows|
  {
    if |rows| == 0 then 0
    else
      assert forall i :: 1 <= i < |rows| ==> rows[i] == rows[1..][i - 1];
      CachedIndicesCons(rows, cache, norm);
      (if norm(rows[0].greek) in cache then 1 else 0) + CachedCount(rows[1..], cache, norm)
  }

  /** One line of the coverage table. */
  datatype Coverage = Coverage(start: int, end: int, total: nat, cached: nat)

  /** The coverage line of one chunk: the words `get_range` returns for it and how many of
      them are cached. */
  function LineFor(t: Table, cache: CardCache.Cache, chunk: (int, int), norm: string -> string): Coverage {
    var rows := GetRange(t, chunk.0, chunk.1);
    Coverage(chunk.0, chunk.1, |rows|, CachedCount(rows, cache, norm))
  }

  /** The line of every chunk, in chunk order, before empty chunks are dropped. */
  function ChunkLines(t: Table, cache: CardCache.Cache, chunks: seq<(int, int)>, norm: string -> string): (ls: seq<Coverage>)
    ensures |ls| == |chunks|
    ensures forall j :: 0 <= j < |chunks| ==> ls[j] == LineFor(t, cache, chunks[j], norm)
  {
    seq(|chunks|, j requires 0 <= j < |chunks| => LineFor(t, cache, chunks[j], norm))
  }

  /** Lines listed by strictly increasing start. */
  predicate StartsIncrease(ls: seq<Coverage>) {
    forall j, k :: 0 <= j < k < |ls| ==> ls[j].start < ls[k].start
  }

  /** `r` holds the lines of `ls` that count some words, each of them, and nothing else;
      when `ls` comes in increasing order, so does `r`. */
  predicate NonEmptyLines(ls: seq<Coverage>, r: seq<Coverage>) {
    && (forall i :: 0 <= i < |r| ==> r[i] in ls && r[i].total > 0)
    && (forall j :: 0 <= j < |ls| && ls[j].total > 0 ==> ls[j] in r)
    && (StartsIncrease(ls) ==> StartsIncrease(r))
  }

  /** The selection for all lines from the selection for all but the first. */
  lemma NonEmptyLinesStep(ls: seq<Coverage>, rest: seq<Coverage>)
    requires |ls| > 0 && NonEmptyLines(ls[1..], rest)
    ensures NonEmptyLines(ls, if ls[0].total == 0 then rest else [ls[0]] + rest)
  {
    var r := if ls[0].total == 0 then rest else [ls[0]] + rest;
    NonEmptyLinesMembers(ls, rest);
    if StartsIncrease(ls) {
      assert StartsIncrease(ls[1..]);
      if ls[0].total != 0 {
        NonEmptyLinesOrder(ls, rest);
      }
    }
  }

  lemma NonEmptyLinesMembers(ls: seq<Coverage>, rest: seq<Coverage>)
    requires |ls| > 0
    requires forall i :: 0 <= i < |rest| ==> rest[i] in ls[1..] && rest[i].total > 0
    requires forall j :: 0 <= j < |ls[1..]| && ls[1..][j].total > 0 ==> ls[1..][j] in rest
    ensures var r := if ls[0].total == 0 then rest else [ls[0]] + rest;
      && (forall i :: 0 <= i < |r| ==> r[i] in ls && r[i].total > 0)
      && (forall j :: 0 <= j < |ls| && ls[j].total > 0 ==> ls[j] in r)
  {
    var r := if ls[0].total == 0 then rest else [ls[0]] + rest;
    forall i | 0 <= i < |r| ensures r[i] in ls && r[i].total > 0 {
      var x := if ls[0].total != 0 && i == 0 then ls[0] else rest[if ls[0].total != 0 then i - 1 else i];
      assert r[i] == x;
    }
    forall j | 0 <= j < |ls| && ls[j].total > 0 ensures ls[j] in r {
      if j > 0 { assert ls[j] == ls[1..][j - 1]; }
    }
  }

  lemma NonEmptyLinesOrder(ls: seq<Coverage>, rest: seq<Coverage>)
    requires |ls| > 0 && StartsIncrease(ls)
    requires forall i :: 0 <= i < |rest| ==> rest[i] in ls[1..]
    requires StartsIncrease(rest)
    ensures StartsIncrease([ls[0]] + rest)
  {
    var r := [ls[0]] + rest;
    forall i, k | 0 <= i < k < |r| ensures r[i].start < r[k].start {
      assert r[k] == rest[k - 1];
      if i == 0 {
        var j :| 0 <= j < |ls[1..]| && ls[1..][j] == rest[k - 1];
        assert ls[1..][j] == ls[j + 1];
      } else {
        assert r[i] == rest[i - 1];
      }
    }
  }

  /** The coverage lines of `cache-status` for the given chunks: one line per chunk with
      words, in chunk order; a chunk without words is left out. */
  function CoverageLines(t: Table, cache: CardCache.Cache, chunks: seq<(int, int)>, norm: string -> string): (r: seq<Coverage>)
    ensures |r| <= |chunks|
    ensures forall i :: 0 <= i < |r| ==> 0 < r[i].total && r[i].cached <= r[i].total
    ensures forall i :: 0 <= i < |r| ==> exists j :: 0 <= j < |chunks| && (r[i].start, r[i].end) == chunks[j]
    ensures NonEmptyLines(ChunkLines(t, cache, chunks, norm), r)
    decreases |chunks|
  {
    if |chunks| == 0 then []
    else
      var rest := CoverageLines(t, cache, chunks[1..], norm);
      var line := LineFor(t, cache, chunks[0], norm);
      var r := if line.total == 0 then rest else [line] + rest;
      CoverageStep(t, cache, chunks, norm, rest);
      CoverageBounds(t, cache, chunks, norm, r);
      r
  }

  lemma CoverageStep(t: Table, cache: CardCache.Cache, chunks: seq<(int, int)>, norm: string -> string, rest: seq<Coverage>)
    requires |chunks| > 0
    requires NonEmptyLines(ChunkLines(t, cache, chunks[1..], norm), rest)
    ensures var line := LineFor(t, cache, chunks[0], norm);
      NonEmptyLines(ChunkLines(t, cache, chunks, norm), if line.total == 0 then rest else [line] + rest)
  {
    var ls := ChunkLines(t, cache, chunks, norm);
    assert ChunkLines(t, cache, chunks[1..], norm) == ls[1..];
    NonEmptyLinesStep(ls, rest);
  }

  /** Each selected line describes one of the chunks, with a positive total it does not
      exceed. */
  lemma CoverageBounds(t: Table, cache: CardCache.Cache, chunks: seq<(int, int)>, norm: string -> string, r: seq<Coverage>)
    requires NonEmptyLines(ChunkLines(t, cache, chunks, norm), r)
    ensures forall i :: 0 <= i < |r| ==> 0 < r[i].total && r[i].cached <= r[i].total
    ensures forall i :: 0 <= i < |r| ==> exists j :: 0 <= j < |chunks| && (r[i].start, r[i].end) == chunks[j]
  {
    var ls := ChunkLines(t, cache, chunks, norm);
    forall i | 0 <= i < |r|
      ensures 0 < r[i].total && r[i].cached <= r[i].total
      ensures exists j :: 0 <= j < |chunks| && (r[i].start, r[i].end) == chunks[j]
    {
      var j :| 0 <= j < |ls| && ls[j] == r[i];
      assert r[i] == LineFor(t, cache, chunks[j], norm);
    }
  }

  /** Every line lies inside `lo..hi` and spans at most 500 ranks. */
  predicate LinesWithin(ls: seq<Coverage>, lo: int, hi: int) {
    forall i :: 0 <= i < |ls| ==> lo <= ls[i].start <= ls[i].end <= hi && ls[i].end - ls[i].start < 500
  }

  /** The coverage part of `cache-status`: one line per chunk of the range that has words, in
      rank order, each inside the range and at most 500 ranks wide. */
  function CacheStatus(t: Table, cache: CardCache.Cache, rankRange: Option<(int, int)>, norm: string -> string): (r: seq<Coverage>)
    ensures var range := StatusRange(t, rankRange);
      NonEmptyLines(ChunkLines(t, cache, Chunks(range.0, range.1), norm), r)
    ensures var range := StatusRange(t, rankRange); LinesWithin(r, range.0, range.1)
    ensures forall i :: 0 <= i < |r| ==> 0 < r[i].total && r[i].cached <= r[i].total
  {
    var range := StatusRange(t, rankRange);
    var chunks := Chunks(range.0, range.1);
    var lines := CoverageLines(t, cache, chunks, norm);
    LinesInChunks(lines, chunks, range.0, range.1);
    lines
  }

  lemma LinesInChunks(lines: seq<Coverage>, chunks: seq<(int, int)>, lo: int, hi: int)
    requires forall i :: 0 <= i < |lines| ==> exists j :: 0 <= j < |chunks| && (lines[i].start, lines[i].end) == chunks[j]
    requires forall j :: 0 <= j < |chunks| ==> lo <= chunks[j].0 <= chunks[j].1 <= hi && chunks[j].1 - chunks[j].0 < 500
    ensures LinesWithin(lines, lo, hi)
  {
    forall i | 0 <= i < |lines| ensures lo <= lines[i].start <= lines[i].end <= hi && lines[i].end - lines[i].start < 500 {
      var j :| 0 <= j < |chunks| && (lines[i].start, lines[i].end) == chunks[j];
    }
  }

  // ---------------------------------------------------------------------------------------
  // add-batch
  // ---------------------------------------------------------------------------------------

  /** The cost estimate's split of the selected words: those already cached, and those that
      need a model call. */
  function BatchSplit(selected: seq<Entry>, cache: CardCache.Cache, norm: string -> string): (r: (nat, nat))
    ensures r.0 + r.1 == |selected|
    ensures r.0 == |CachedIndices(selected, cache, norm)|
    ensures r.1 == 0 <==> forall i :: 0 <= i < |selected| ==> norm(selected[i].greek) in cache
  {
    var cached := CachedCount(selected, cache, norm);
    CachedCountAll(selected, cache, norm);
    (cached, |selected| - cached)
  }

  lemma {:induction false} CachedCountAll(rows: seq<Entry>, cache: CardCache.Cache, norm: string -> string)
    ensures CachedCount(rows, cache, norm) == |rows| <==> forall i :: 0 <= i < |rows| ==> norm(rows[i].greek) in cache
    decreases |rows|
  {
    if |rows| > 0 {
      CachedCountAll(rows[1..], cache, norm);
      assert forall i :: 1 <= i < |rows| ==> rows[i] == rows[1..][i - 1];
    }
  }

  /** `add` and `add-batch` skip a word the deck already has; `add` checks only when a deck
      was given, i.e. when there are Back fields to check. No Back field covers anything, so
      the extra guard of `add` never changes the answer. */
  function SkipAsDuplicate(word: string, backs: seq<string>): (r: bool)
    ensures r <==> FoundInDeck(word, backs)
  {
    |backs| > 0 && FoundInDeck(word, backs)
  }
}

=== FILE: config.dfy ===
/** Constants of the program's configuration that the modelled logic reads. */
module Config {

  /** Default deck id and name of the existing deck (config.py). */
  const DeckId: int := 1728801742169
  const DeckName: string := "AZ greek words"

  /** Function words auto-skipped on import: articles, prepositions, conjunctions, pronouns and
      particles. The fourth entry is spelled with a Latin small o (U+006F), as in the source,
      because the frequency list contains that misspelling. */
  const FunctionWords: set<string> := {
      "ο", "η", "το", "τo", "οι", "τα", "ένας", "μία",
      "ένα", "από", "σε", "με", "για", "προς", "κατά", "μετά",
      "παρά", "αντί", "ως", "και", "ή", "αλλά", "όμως", "ούτε",
      "ότι", "ώστε", "αν", "όταν", "ενώ", "εγώ", "εσύ", "αυτός",
      "αυτή", "αυτό", "εμείς", "εσείς", "αυτοί", "αυτές", "αυτά", "μου",
      "σου", "του", "της", "μας", "σας", "τους", "που", "ποιος",
      "τι", "πώς", "πόσος", "οποίος", "να", "θα", "δεν", "δε",
      "μην", "πιο", "πολύ"
    }

  /** Greek articles stripped from the front of a text during normalisation. */
  const Articles: set<string> := {"ο", "η", "το", "οι", "τα", "τις", "τους", "την", "τον"}

  /** Field names of the note type, in order. */
  const Fields: seq<string> := ["Front", "Back", "Example", "Comment", "Collocations", "Etymology"]
}

=== FILE: freq_import.dfy ===
/** `FreqDB.import_csv` (greek_anki/freq_list.py): the rows of the frequency CSV after its
    header, folded one by one into the table, the import statistics and the map of normal
    forms already seen. The row number, counted from 1 after the header, becomes the rank. */
module FreqImport {
  import opened Wrappers
  import opened Strings
  import opened Config
  import opened FreqList

  /** The statistics dictionary the import returns. */
  datatype Stats = Stats(
    totalRows: nat,
    imported: nat,
    duplicatesSkipped: nat,
    emptySkipped: nat,
    functionWordsSkipped: nat)

  /** What the import loop carries from row to row: the table, the statistics and
      `seen_normalized`, normal form to the row number that first produced it. */
  datatype State = State(db: Table, stats: Stats, seen: map<string, int>)

  /** What the loop body reads besides the row: Python's `int()` on the frequency cell, the
      normaliser, the clock `_now_iso` as read while importing a given row, the
      `auto_skip_function_words` flag and `norm_function_words`, the normal forms of the
      function words, which `ImportCsv` computes once before the loop. */
  datatype Env = Env(
    parseInt: string -> Option<int>,
    norm: string -> string,
    clock: nat -> string,
    autoSkip: bool,
    functionWords: set<string>)

  /** `row[0].strip()`. */
  function Lemma(row: seq<string>): string {
    if |row| == 0 then "" else Trim(row[0])
  }

  /** A row that is neither blank nor missing a readable frequency: the rows the import does
      not count as empty. */
  predicate Usable(row: seq<string>, env: Env) {
    |row| >= 2 && Trim(row[0]) != "" && env.parseInt(row[1]).Some?
  }

  /** The normal form the import deduplicates on. */
  function Key(row: seq<string>, env: Env): string {
    env.norm(Lemma(row))
  }

  /** `{normalize_greek(w) for w in FUNCTION_WORDS}`. */
  function NormFunctionWords(norm: string -> string): set<string> {
    set w | w in FunctionWords :: norm(w)
  }

  /** The row is inserted as an auto-skipped function word. */
  predicate AutoSkipped(row: seq<string>, env: Env) {
    env.autoSkip && Key(row, env) in env.functionWords
  }

  /** The row the import inserts for a usable CSV row. */
  function EntryFor(row: seq<string>, rowNum: nat, env: Env): (e: Entry)
    requires Usable(row, env)
    ensures e.rank == rowNum && e.greek == Lemma(row) && e.frequency == env.parseInt(row[1]).value
    ensures AutoSkipped(row, env) ==>
      e.processed == Skipped && e.processedAt == Some(env.clock(rowNum)) && e.notes == Some(AutoSkipNote)
    ensures !AutoSkipped(row, env) ==> e.processed == Pending && e.processedAt.None? && e.notes.None?
  {
    var frequency := env.parseInt(row[1]).value;
    if AutoSkipped(row, env) then
      Entry(rowNum, Lemma(row), frequency, Skipped, Some(env.clock(rowNum)), Some(AutoSkipNote))
    else
      Entry(rowNum, Lemma(row), frequency, Pending, None, None)
  }

  /** Counters that account for every row read: each row is imported, a duplicate or empty,
      and only imported rows are counted as skipped function words. */
  predicate Balanced(s: Stats) {
    s.totalRows == s.imported + s.duplicatesSkipped + s.emptySkipped
    && s.functionWordsSkipped <= s.imported
  }

  /** One pass of the loop body for row number `rowNum`. */
  function Step(st: State, row: seq<string>, rowNum: nat, env: Env): (r: State)
    ensures r.stats.totalRows == st.stats.totalRows + 1
    ensures Balanced(st.stats) ==> Balanced(r.stats)
    ensures |r.db| == |st.db| + (r.stats.imported - st.stats.imported)
  {
    var stats := st.stats.(totalRows := st.stats.totalRows + 1);
    if !Usable(row, env) then
      State(st.db, stats.(emptySkipped := stats.emptySkipped + 1), st.seen)
    else
      var key := Key(row, env);
      if key in st.seen then
        State(st.db, stats.(duplicatesSkipped := stats.duplicatesSkipped + 1), st.seen)
      else
        Admit(st.db, stats, st.seen[key := rowNum], EntryFor(row, rowNum, env), AutoSkipped(row, env))
  }

  /** The `try` block: the insert, and the counters it moves. An `IntegrityError` (the rank
      is taken) counts the row as a duplicate. */
  function Admit(db: Table, stats: Stats, seen: map<string, int>, e: Entry, autoSkipped: bool): (r: State)
    ensures r.seen == seen
    ensures r.stats.totalRows == stats.totalRows
    ensures r.stats.imported + r.stats.duplicatesSkipped + r.stats.emptySkipped
      == stats.imported + stats.duplicatesSkipped + stats.emptySkipped + 1
    ensures r.stats.imported - stats.imported >= r.stats.functionWordsSkipped - stats.functionWordsSkipped >= 0
    ensures |r.db| == |db| + (r.stats.imported - stats.imported)
    ensures forall x :: x in r.db <==> x in db || (r.stats.imported > stats.imported && x == e)
    ensures r.stats.imported > stats.imported <==> !HasRank(db, e.rank)
  {
    match Insert(db, e)
    case None =>
      State(db, stats.(duplicatesSkipped := stats.duplicatesSkipped + 1), seen)
    case Some(db') =>
      var skipped := if autoSkipped then 1 else 0;
      State(db', stats.(imported := stats.imported + 1,
                        functionWordsSkipped := stats.functionWordsSkipped + skipped), seen)
  }

  /** A step keeps every row, and the one row it may add is the current CSV row, provided
      its normal form was not seen before. */
  lemma StepRows(st: State, row: seq<string>, rowNum: nat, env: Env)
    ensures forall x :: x in st.db ==> x in Step(st, row, rowNum, env).db
    ensures forall x :: x in Step(st, row, rowNum, env).db ==> (x in st.db ||
      (Usable(row, env) && Key(row, env) !in st.seen && x == EntryFor(row, rowNum, env)))
  {
  }

  /** A step records the normal form of every usable row, inserted or not. */
  lemma StepSeen(st: State, row: seq<string>, rowNum: nat, env: Env, k: string)
    ensures k in Step(st, row, rowNum, env).seen <==> k in st.seen || (Usable(row, env) && Key(row, env) == k)
  {
  }

  /** The loop over the data rows, row numbers starting at 1. */
  function Run(db: Table, rows: seq<seq<string>>, env: Env): (r: State)
    ensures r.stats.totalRows == |rows|
    ensures Balanced(r.stats)
    ensures |r.db| == |db| + r.stats.imported
    ensures forall x :: x in db ==> x in r.db
  {
    if |rows| == 0 then State(db, Stats(0, 0, 0, 0, 0), map[])
    else
      var prev := Run(db, rows[..|rows| - 1], env);
      StepRows(prev, rows[|rows| - 1], |rows|, env);
      Step(prev, rows[|rows| - 1], |rows|, env)
  }

  /** A run is the run of all rows but the last, then one step for the last row. */
  lemma RunLast(db: Table, rows: seq<seq<string>>, env: Env)
    requires |rows| > 0
    ensures Run(db, rows, env) == Step(Run(db, rows[..|rows| - 1], env), rows[|rows| - 1], |rows|, env)
  {
  }

  /** `import_csv`: the first CSV row is the header; a file without one makes `next(reader)`
      raise `StopIteration`. */
  function ImportCsv(
    db: Table, csv: seq<seq<string>>, parseInt: string -> Option<int>, norm: string -> string,
    clock: nat -> string, autoSkip: bool): (r: Result<(Table, Stats), string>)
    ensures r.Failure? <==> |csv| == 0
    ensures r.Success? ==> r.value.1.totalRows == |csv| - 1 && Balanced(r.value.1)
    ensures r.Success? ==> |r.value.0| == |db| + r.value.1.imported
    ensures r.Success? ==> forall x :: x in db ==> x in r.value.0
  {
    if |csv| == 0 then Failure("StopIteration")
    else
      var env := Env(parseInt, norm, clock, autoSkip, NormFunctionWords(norm));
      var st := Run(db, csv[1..], env);
      Success((st.db, st.stats))
  }

  // ---------------------------------------------------------------------------------------
  // Deduplication
  // ---------------------------------------------------------------------------------------

  /** Row `i` is the first usable row with its normal form: the one the import keeps. */
  predicate FirstOfKey(rows: seq<seq<string>>, i: int, env: Env)
    requires 0 <= i < |rows|
  {
    Usable(rows[i], env)
    && forall j :: 0 <= j < i && Usable(rows[j], env) ==> Key(rows[j], env) != Key(rows[i], env)
  }

  /** The normal forms of the usable rows among the first `n`. */
  predicate SeenBefore(rows: seq<seq<string>>, n: int, env: Env, k: string)
    requires 0 <= n <= |rows|
  {
    exists j :: 0 <= j < n && Usable(rows[j], env) && Key(rows[j], env) == k
  }

  lemma PrefixFirstOfKey(rows: seq<seq<string>>, m: int, i: int, env: Env)
    requires 0 <= i < m <= |rows|
    ensures FirstOfKey(rows[..m], i, env) <==> FirstOfKey(rows, i, env)
  {
    assert forall j :: 0 <= j <= i ==> rows[..m][j] == rows[j];
  }

  /** `seen_normalized` holds exactly the normal forms of the usable rows read so far,
      whatever the table already held. */
  lemma {:induction false} SeenIsUsableKeys(db: Table, rows: seq<seq<string>>, env: Env, k: string)
    ensures k in Run(db, rows, env).seen <==> SeenBefore(rows, |rows|, env, k)
  {
    if |rows| > 0 {
      var n := |rows| - 1;
      var prev := Run(db, rows[..n], env);
      SeenIsUsableKeys(db, rows[..n], env, k);
      StepSeen(prev, rows[n], n + 1, env, k);
      SeenBeforePrefix(rows, n, env, k);
      SeenBeforeLast(rows, n, env, k);
    }
  }

  lemma SeenBeforePrefix(rows: seq<seq<string>>, n: int, env: Env, k: string)
    requires 0 <= n <= |rows|
    ensures SeenBefore(rows[..n], n, env, k) <==> SeenBefore(rows, n, env, k)
  {
    assert forall j :: 0 <= j < n ==> rows[..n][j] == rows[j];
  }

  lemma SeenBeforeLast(rows: seq<seq<string>>, n: int, env: Env, k: string)
    requires 0 <= n < |rows|
    ensures SeenBefore(rows, n + 1, env, k)
      <==> SeenBefore(rows, n, env, k) || (Usable(rows[n], env) && Key(rows[n], env) == k)
  {
    if SeenBefore(rows, n + 1, env, k) && !SeenBefore(rows, n, env, k) {
      var j :| 0 <= j < n + 1 && Usable(rows[j], env) && Key(rows[j], env) == k;
      assert j == n;
    }
  }

  /** Every row a run adds comes from the first usable row of its normal form, with that
      row's number as rank: later spellings of the same normal form are never inserted. */
  lemma {:induction false} AddedRowsAreFirstOfKey(db: Table, rows: seq<seq<string>>, env: Env, x: Entry)
    requires x in Run(db, rows, env).db && x !in db
    ensures exists i :: 0 <= i < |rows| && FirstOfKey(rows, i, env) && x == EntryFor(rows[i], i + 1, env)
  {
    var n := |rows| - 1;
    var prev := Run(db, rows[..n], env);
    if x in prev.db {
      AddedRowsAreFirstOfKey(db, rows[..n], env, x);
      var i :| 0 <= i < n && FirstOfKey(rows[..n], i, env) && x == EntryFor(rows[..n][i], i + 1, env);
      PrefixFirstOfKey(rows, n, i, env);
      assert rows[..n][i] == rows[i];
    } else {
      var row := rows[n];
      StepRows(prev, row, n + 1, env);
      assert Usable(row, env) && Key(row, env) !in prev.seen && x == EntryFor(row, n + 1, env);
      SeenIsUsableKeys(db, rows[..n], env, Key(row, env));
      FirstFromUnseen(rows, n, env);
    }
  }

  /** A usable row whose normal form was not seen before it is the first of its form. */
  lemma FirstFromUnseen(rows: seq<seq<string>>, n: int, env: Env)
    requires 0 <= n < |rows| && Usable(rows[n], env)
    requires !SeenBefore(rows[..n], n, env, Key(rows[n], env))
    ensures FirstOfKey(rows, n, env)
  {
    forall j | 0 <= j < n && Usable(rows[j], env)
      ensures Key(rows[j], env) != Key(rows[n], env)
    {
      assert rows[..n][j] == rows[j];
    }
  }

  /** A step whose row is usable, unseen and ranked at a free rank inserts its row. */
  lemma StepAdmits(st: State, row: seq<string>, rowNum: nat, env: Env)
    requires Usable(row, env) && Key(row, env) !in st.seen && !HasRank(st.db, rowNum)
    ensures EntryFor(row, rowNum, env) in Step(st, row, rowNum, env).db
  {
  }

  /** A step at a rank the table already holds changes neither the table nor the count of
      imported rows. */
  lemma StepTakenRank(st: State, row: seq<string>, rowNum: nat, env: Env)
    requires HasRank(st.db, rowNum)
    ensures Step(st, row, rowNum, env).db == st.db
  {
  }

  /** Into an empty table, a run adds only ranks up to the number of rows read. */
  lemma FreshRanksBounded(db: Table, rows: seq<seq<string>>, env: Env)
    requires |db| == 0
    ensures forall x :: x in Run(db, rows, env).db ==> 1 <= x.rank <= |rows|
  {
    forall x | x in Run(db, rows, env).db
      ensures 1 <= x.rank <= |rows|
    {
      AddedRowsAreFirstOfKey(db, rows, env, x);
    }
  }

  /** Importing into an empty table keeps exactly one row per normal form: the first usable
      row that has it, at its row number. Together with the ascending ranks of a table, this
      fixes the resulting table completely. */
  lemma FreshImportRows(db: Table, rows: seq<seq<string>>, env: Env, x: Entry)
    requires |db| == 0
    ensures x in Run(db, rows, env).db
      <==> exists i :: 0 <= i < |rows| && FirstOfKey(rows, i, env) && x == EntryFor(rows[i], i + 1, env)
  {
    if x in Run(db, rows, env).db {
      AddedRowsAreFirstOfKey(db, rows, env, x);
    }
    if exists i :: 0 <= i < |rows| && FirstOfKey(rows, i, env) && x == EntryFor(rows[i], i + 1, env) {
      var i :| 0 <= i < |rows| && FirstOfKey(rows, i, env) && x == EntryFor(rows[i], i + 1, env);
      FreshKeepsFirst(db, rows, env, i);
    }
  }

  lemma {:induction false} FreshKeepsFirst(db: Table, rows: seq<seq<string>>, env: Env, i: int)
    requires |db| == 0 && 0 <= i < |rows| && FirstOfKey(rows, i, env)
    ensures EntryFor(rows[i], i + 1, env) in Run(db, rows, env).db
  {
    var n := |rows| - 1;
    if i < n {
      var prev := Run(db, rows[..n], env);
      PrefixFirstOfKey(rows, n, i, env);
      assert rows[..n][i] == rows[i];
      FreshKeepsFirst(db, rows[..n], env, i);
      RunLast(db, rows, env);
      StepRows(prev, rows[n], n + 1, env);
    } else {
      assert i == |rows| - 1;
      FreshKeepsLast(db, rows, env);
    }
  }

  /** The last row, when it is the first of its key, is kept at its row number. */
  lemma FreshKeepsLast(db: Table, rows: seq<seq<string>>, env: Env)
    requires |db| == 0 && |rows| > 0 && FirstOfKey(rows, |rows| - 1, env)
    ensures EntryFor(rows[|rows| - 1], |rows|, env) in Run(db, rows, env).db
  {
    var n := |rows| - 1;
    var prev := Run(db, rows[..n], env);
    RunLast(db, rows, env);
    var k := Key(rows[n], env);
    assert !SeenBefore(rows, n, env, k);
    SeenBeforePrefix(rows, n, env, k);
    assert |rows[..n]| == n;
    SeenIsUsableKeys(db, rows[..n], env, k);
    assert k !in prev.seen;
    FreshRanksBounded(db, rows[..n], env);
    assert !HasRank(prev.db, n + 1);
    StepAdmits(prev, rows[n], n + 1, env);
  }

  /** Importing into an empty table never keeps two rows with the same normal form. */
  lemma FreshImportNormUnique(db: Table, rows: seq<seq<string>>, env: Env)
    requires |db| == 0
    ensures NormUnique(Run(db, rows, env).db, env.norm)
  {
    var t := Run(db, rows, env).db;
    forall p, q | 0 <= p < q < |t|
      ensures env.norm(t[p].greek) != env.norm(t[q].greek)
    {
      AddedRowsAreFirstOfKey(db, rows, env, t[p]);
      AddedRowsAreFirstOfKey(db, rows, env, t[q]);
      var i :| 0 <= i < |rows| && FirstOfKey(rows, i, env) && t[p] == EntryFor(rows[i], i + 1, env);
      var j :| 0 <= j < |rows| && FirstOfKey(rows, j, env) && t[q] == EntryFor(rows[j], j + 1, env);
      assert i < j;
      assert Key(rows[i], env) != Key(rows[j], env);
    }
  }

  /** Importing the same list again into a table that already holds every rank: each
      insert fails as an integrity error, so the table is unchanged and nothing counts as
      imported. */
  lemma {:induction false} ReimportKeepsTable(db: Table, rows: seq<seq<string>>, env: Env)
    requires forall i :: 1 <= i <= |rows| ==> HasRank(db, i)
    ensures Run(db, rows, env).db == db
  {
    if |rows| > 0 {
      var n := |rows| - 1;
      var prev := Run(db, rows[..n], env);
      ReimportKeepsTable(db, rows[..n], env);
      StepTakenRank(prev, rows[n], n + 1, env);
    }
  }

  /** ... and counts every row of such a re-import as a duplicate or an empty row. */
  lemma ReimportImportsNothing(db: Table, rows: seq<seq<string>>, env: Env)
    requires forall i :: 1 <= i <= |rows| ==> HasRank(db, i)
    ensures Run(db, rows, env).stats.imported == 0
    ensures Run(db, rows, env).stats.duplicatesSkipped + Run(db, rows, env).stats.emptySkipped == |rows|
  {
    ReimportKeepsTable(db, rows, env);
  }
}

=== FILE: freq_list.dfy ===
/** The `freq_words` table of greek_anki/freq_list.py and the queries and updates `FreqDB`
    runs against it. The table is a sequence of rows in ascending rank, which is the order
    SQLite returns them in (the rank is the INTEGER PRIMARY KEY, so every scan and every
    index lookup used here yields rows by ascending rank).

    The operations that compare normal forms take the normaliser as the parameter `norm`;
    the program always passes `normalize_greek` (`Normalizer.NormalizeGreek`), and nothing
    proved here depends on which function it is. */
module FreqList {
  import opened Wrappers
  import opened Strings
  
  /** Values of the `processed` column. */
  const Pending := 0
  const InAnki := 1
  const Skipped := 2

  /** One row of `freq_words`. The `processed` column is an INTEGER and the code accepts any
      status, so it is kept as an `int`. */
  datatype Entry = Entry(
    rank: int,
    greek: string,
    frequency: int,
    processed: int,
    processedAt: Option<string>,
    notes: Option<string>)

  predicate RanksAscending(rows: seq<Entry>) {
    forall i, j :: 0 <= i < j < |rows| ==> rows[i].rank < rows[j].rank
  }

  /** The table: ranks are unique (PRIMARY KEY) and rows come in rank order. */
  type Table = rows: seq<Entry> | RanksAscending(rows) witness []

  predicate HasRank(t: seq<Entry>, rank: int) {
    exists i :: 0 <= i < |t| && t[i].rank == rank
  }

  // ---------------------------------------------------------------------------------------
  // INSERT
  // ---------------------------------------------------------------------------------------

  /** Number of rows ranked below `rank`: they form a prefix of the table. */
  function CountBelow(t: Table, rank: int): (p: nat)
    ensures p <= |t|
    ensures forall i :: 0 <= i < p ==> t[i].rank < rank
    ensures forall i :: p <= i < |t| ==> t[i].rank >= rank
  {
    if |t| == 0 || t[0].rank >= rank then 0
    else
      var p := 1 + CountBelow(t[1..], rank);
      assert forall i :: 1 <= i < |t| ==> t[i].rank == t[1..][i - 1].rank;
      p
  }

  /** The table with `e` placed at its rank. */
  function InsertSorted(t: Table, e: Entry): (r: Table)
    requires !HasRank(t, e.rank)
    ensures r == t[..CountBelow(t, e.rank)] + [e] + t[CountBelow(t, e.rank)..]
  {
    var p := CountBelow(t, e.rank);
    var r := t[..p] + [e] + t[p..];
    assert forall i :: 0 <= i < |r| ==> r[i] == if i < p then t[i] else if i == p then e else t[i - 1];
    assert forall i :: p <= i < |t| ==> t[i].rank > e.rank;
    r
  }

  /** `INSERT INTO freq_words ...`: fails, as an IntegrityError, when the rank is taken;
      otherwise the row joins the table. */
  function Insert(t: Table, e: Entry): (r: Option<Table>)
    ensures r.None? <==> HasRank(t, e.rank)
    ensures r.Some? ==> |r.value| == |t| + 1 && forall x :: x in r.value <==> x in t || x == e
    ensures r.Some? && (forall i :: 0 <= i < |t| ==> t[i].rank < e.rank) ==> r.value == t + [e]
  {
    if HasRank(t, e.rank) then None
    else
      var r := InsertSorted(t, e);
      var p := CountBelow(t, e.rank);
      assert t == t[..p] + t[p..];
      Some(r)
  }

  // ---------------------------------------------------------------------------------------
  // UPDATE ... SET processed=?, processed_at=?, notes=?
  // ---------------------------------------------------------------------------------------

  /** The three columns every update of the code writes. */
  function Stamp(e: Entry, status: int, notes: Option<string>, now: string): (r: Entry)
    ensures r.rank == e.rank && r.greek == e.greek && r.frequency == e.frequency
    ensures r.processed == status && r.processedAt == Some(now) && r.notes == notes
  {
    e.(processed := status, processedAt := Some(now), notes := notes)
  }

  /** `UPDATE ... WHERE greek=?`: every row with exactly that text. */
  function StampGreek(t: Table, greek: string, status: int, notes: Option<string>, now: string): (r: Table)
    ensures |r| == |t|
    ensures forall i :: 0 <= i < |t| ==> r[i] == if t[i].greek == greek then Stamp(t[i], status, notes, now) else t[i]
  {
    if |t| == 0 then []
    else
      var rest := StampGreek(t[1..], greek, status, notes, now);
      var head := if t[0].greek == greek then Stamp(t[0], status, notes, now) else t[0];
      assert forall k :: 0 <= k < |rest| ==> rest[k].rank == t[k + 1].rank;
      [head] + rest
  }

  /** `UPDATE ... WHERE rank=?`. */
  function StampRank(t: Table, rank: int, status: int, notes: Option<string>, now: string): (r: Table)
    ensures |r| == |t|
    ensures forall i :: 0 <= i < |t| ==> r[i] == if t[i].rank == rank then Stamp(t[i], status, notes, now) else t[i]
  {
    if |t| == 0 then []
    else
      var rest := StampRank(t[1..], rank, status, notes, now);
      var head := if t[0].rank == rank then Stamp(t[0], status, notes, now) else t[0];
      assert forall k :: 0 <= k < |rest| ==> rest[k].rank == t[k + 1].rank;
      [head] + rest
  }

  /** Every row whose rank is in `ranks` updated at once. */
  function StampRanks(t: Table, ranks: set<int>, status: int, notes: Option<string>, now: string): (r: Table)
    ensures |r| == |t|
    ensures forall i :: 0 <= i < |t| ==> r[i] == if t[i].rank in ranks then Stamp(t[i], status, notes, now) else t[i]
  {
    if |t| == 0 then []
    else
      var rest := StampRanks(t[1..], ranks, status, notes, now);
      var head := if t[0].rank in ranks then Stamp(t[0], status, notes, now) else t[0];
      assert forall k :: 0 <= k < |rest| ==> rest[k].rank == t[k + 1].rank;
      [head] + rest
  }

  // ---------------------------------------------------------------------------------------
  // mark_processed
  // ---------------------------------------------------------------------------------------

  predicate HasGreek(t: seq<Entry>, greek: string) {
    exists i :: 0 <= i < |t| && t[i].greek == greek
  }

  /** A pending row whose text normalises to `key`. */
  predicate PendingWith(e: Entry, key: string, norm: string -> string) {
    e.processed == Pending && norm(e.greek) == key
  }

  /** The first pending row, in rank order, whose text normalises to `key`. */
  function FirstPendingWith(t: seq<Entry>, key: string, norm: string -> string): (r: Option<nat>)
    ensures r.Some? ==> r.value < |t| && PendingWith(t[r.value], key, norm)
    ensures r.Some? ==> forall j :: 0 <= j < r.value ==> !PendingWith(t[j], key, norm)
    ensures r.None? ==> forall j :: 0 <= j < |t| ==> !PendingWith(t[j], key, norm)
  {
    if |t| == 0 then None
    else if PendingWith(t[0], key, norm) then Some(0)
    else match FirstPendingWith(t[1..], key, norm)
      case None => None
      case Some(k) => Some(k + 1)
  }

  /** `mark_processed`: every row with exactly the given text is updated and the answer is
      true; failing that, the first pending row whose normal form equals the word's is
      updated and the answer is true; failing that, nothing changes and the answer is false.
      Only the status, timestamp and notes columns are ever written. */
  function MarkProcessed(t: Table, greek: string, status: int, notes: Option<string>, now: string,
                         norm: string -> string): (r: (Table, bool))
    ensures |r.0| == |t|
    ensures forall i :: 0 <= i < |t| ==>
      r.0[i].rank == t[i].rank && r.0[i].greek == t[i].greek && r.0[i].frequency == t[i].frequency
    ensures r.1 <==> HasGreek(t, greek) || exists i :: 0 <= i < |t| && PendingWith(t[i], norm(greek), norm)
    ensures HasGreek(t, greek) ==> r.0 == StampGreek(t, greek, status, notes, now)
    ensures !HasGreek(t, greek) && r.1 ==>
      exists i :: 0 <= i < |t| && PendingWith(t[i], norm(greek), norm) &&
        (forall j :: 0 <= j < i ==> !PendingWith(t[j], norm(greek), norm)) &&
        r.0 == t[i := Stamp(t[i], status, notes, now)]
    ensures !r.1 ==> r.0 == t
  {
    if HasGreek(t, greek) then (StampGreek(t, greek, status, notes, now), true)
    else match FirstPendingWith(t, norm(greek), norm)
      case None => (t, false)
      case Some(i) =>
        var u: Table := t[i := Stamp(t[i], status, notes, now)];
        (u, true)
  }

  /** Marking a text stored exactly a second time, at a later moment, still answers true;
      it only moves the timestamp of the rows with that text, and keeps their status and
      notes and every other row. */
  lemma MarkExactTwice(t: Table, greek: string, status: int, notes: Option<string>, now: string,
                       later: string, norm: string -> string)
    requires HasGreek(t, greek)
    ensures var once := MarkProcessed(t, greek, status, notes, now, norm).0;
      var twice := MarkProcessed(once, greek, status, notes, later, norm);
      && twice.1 && |twice.0| == |once|
      && forall i :: 0 <= i < |once| ==>
           twice.0[i] == if once[i].greek == greek then once[i].(processedAt := Some(later)) else once[i]
  {
    var once := StampGreek(t, greek, status, notes, now);
    StampGreekKeepsText(t, greek, status, notes, now);
    var twice := StampGreek(once, greek, status, notes, later);
    forall k | 0 <= k < |once|
      ensures twice[k] == if once[k].greek == greek then once[k].(processedAt := Some(later)) else once[k]
    {
      if once[k].greek == greek {
        StampAgain(t[k], status, notes, now, later);
      }
    }
  }

  /** Updating rows never removes a text from the table. */
  lemma StampGreekKeepsText(t: Table, greek: string, status: int, notes: Option<string>, now: string)
    requires HasGreek(t, greek)
    ensures HasGreek(StampGreek(t, greek, status, notes, now), greek)
  {
    var i :| 0 <= i < |t| && t[i].greek == greek;
    assert StampGreek(t, greek, status, notes, now)[i].greek == greek;
  }

  /** Stamping an entry again with the same status and notes only moves its timestamp. */
  lemma StampAgain(e: Entry, status: int, notes: Option<string>, now: string, later: string)
    ensures Stamp(Stamp(e, status, notes, now), status, notes, later)
         == Stamp(e, status, notes, now).(processedAt := Some(later))
  {
  }

  /** A second update of the same rows overrides the first. */
  lemma StampGreekTwice(t: Table, greek: string, status: int, notes: Option<string>, now: string, later: string)
    ensures StampGreek(StampGreek(t, greek, status, notes, now), greek, status, notes, later)
         == StampGreek(t, greek, status, notes, later)
  {
    var once := StampGreek(t, greek, status, notes, now);
    var twice := StampGreek(once, greek, status, notes, later);
    assert forall k :: 0 <= k < |t| ==> twice[k] == StampGreek(t, greek, status, notes, later)[k];
  }

  /** When the word is found only through its normal form and no two rows share a normal
      form, a second call with a non-pending status finds nothing and answers false: the one
      matching row is no longer pending. */
  lemma MarkFallbackTwice(t: Table, greek: string, status: int, notes: Option<string>, now: string,
                       norm: string -> string)
    requires NormUnique(t, norm)
    requires !HasGreek(t, greek) && status != Pending
    requires MarkProcessed(t, greek, status, notes, now, norm).1
    ensures var once := MarkProcessed(t, greek, status, notes, now, norm).0;
      MarkProcessed(once, greek, status, notes, now, norm) == (once, false)
  {
    var n := norm(greek);
    var once := MarkProcessed(t, greek, status, notes, now, norm).0;
    var i :| 0 <= i < |t| && PendingWith(t[i], n, norm) && once == t[i := Stamp(t[i], status, notes, now)];
    assert !HasGreek(once, greek) by {
      forall k | 0 <= k < |once| ensures once[k].greek != greek {
        assert once[k].greek == t[k].greek;
      }
    }
    forall k | 0 <= k < |once| ensures !PendingWith(once[k], n, norm) {
      if k < i {
        assert once[k] == t[k] && norm(t[k].greek) != norm(t[i].greek);
      } else if k > i {
        assert once[k] == t[k] && norm(t[i].greek) != norm(t[k].greek);
      }
    }
  }

  /** No two rows of the table share a normal form. */
  predicate NormUnique(t: seq<Entry>, norm: string -> string) {
    forall i, j :: 0 <= i < j < |t| ==> norm(t[i].greek) != norm(t[j].greek)
  }

  // ---------------------------------------------------------------------------------------
  // mark_many_processed and skip_words
  // ---------------------------------------------------------------------------------------

  /** `norm_to_rank`: normal form of each pending row to its rank, built in rank order, so
      when several pending rows share a normal form the highest-ranked one is kept. */
  function PendingIndex(t: seq<Entry>, norm: string -> string): map<string, int>
    decreases |t|
  {
    if |t| == 0 then map[]
    else
      var last := t[|t| - 1];
      var m := PendingIndex(t[..|t| - 1], norm);
      if last.processed == Pending then m[norm(last.greek) := last.rank] else m
  }

  /** The index has a key for every normal form of a pending row and no other key, and it
      maps each key to the highest-ranked pending row with that normal form. */
  lemma {:induction false} PendingIndexSpec(t: seq<Entry>, norm: string -> string, k: string)
    ensures k in PendingIndex(t, norm) <==> exists i :: 0 <= i < |t| && PendingWith(t[i], k, norm)
    ensures k in PendingIndex(t, norm) ==>
      exists i :: 0 <= i < |t| && t[i].rank == PendingIndex(t, norm)[k] && PendingWith(t[i], k, norm) &&
        forall j :: i < j < |t| ==> !PendingWith(t[j], k, norm)
    decreases |t|
  {
    if |t| > 0 {
      var front := t[..|t| - 1];
      var last := t[|t| - 1];
      PendingIndexSpec(front, norm, k);
      assert t == front + [last];
      PendingIndexStep(front, last, norm, k);
    }
  }

  predicate IndexedAt(t: seq<Entry>, norm: string -> string, k: string, rank: int) {
    exists i :: 0 <= i < |t| && t[i].rank == rank && PendingWith(t[i], k, norm) &&
      forall j :: i < j < |t| ==> !PendingWith(t[j], k, norm)
  }

  lemma PendingIndexStep(front: seq<Entry>, last: Entry, norm: string -> string, k: string)
    requires k in PendingIndex(front, norm) <==> exists i :: 0 <= i < |front| && PendingWith(front[i], k, norm)
    requires k in PendingIndex(front, norm) ==> IndexedAt(front, norm, k, PendingIndex(front, norm)[k])
    ensures var t := front + [last];
      && (k in PendingIndex(t, norm) <==> exists i :: 0 <= i < |t| && PendingWith(t[i], k, norm))
      && (k in PendingIndex(t, norm) ==> IndexedAt(t, norm, k, PendingIndex(t, norm)[k]))
  {
    var t := front + [last];
    var m := PendingIndex(front, norm);
    assert t[..|t| - 1] == front && t[|t| - 1] == last;
    assert PendingIndex(t, norm) == if last.processed == Pending then m[norm(last.greek) := last.rank] else m;
    if PendingWith(last, k, norm) {
      assert PendingIndex(t, norm)[k] == last.rank;
      assert t[|front|] == last;
    } else {
      assert k in PendingIndex(t, norm) <==> k in m;
      if k in m {
        assert PendingIndex(t, norm)[k] == m[k];
        var i :| 0 <= i < |front| && front[i].rank == m[k] && PendingWith(front[i], k, norm) &&
          forall j :: i < j < |front| ==> !PendingWith(front[j], k, norm);
        assert t[i] == front[i];
        forall j | i < j < |t|
          ensures !PendingWith(t[j], k, norm)
        {
          if j < |front| {
            assert t[j] == front[j];
          }
        }
      }
      if exists i :: 0 <= i < |t| && PendingWith(t[i], k, norm) {
        var i :| 0 <= i < |t| && PendingWith(t[i], k, norm);
        assert i < |front| && t[i] == front[i];
      }
    }
  }

  /** The loop over the words: each word whose normal form is in the index stamps the row of
      that rank and adds one to the count. */
  function MarkEach(t: Table, index: map<string, int>, words: seq<string>, status: int,
                    notes: Option<string>, now: string, norm: string -> string): (r: (Table, nat))
    ensures |r.0| == |t|
    ensures r.1 <= |words|
    decreases |words|
  {
    if |words| == 0 then (t, 0)
    else
      var key := norm(words[0]);
      var u := if key in index then StampRank(t, index[key], status, notes, now) else t;
      var rest := MarkEach(u, index, words[1..], status, notes, now, norm);
      (rest.0, rest.1 + if key in index then 1 else 0)
  }

  /** The ranks some word of `words` is mapped to. */
  function Targets(index: map<string, int>, words: seq<string>, norm: string -> string): set<int> {
    set w | w in words && norm(w) in index :: index[norm(w)]
  }

  /** Number of words, counted with repetition, whose normal form is in the index. */
  function Hits(index: map<string, int>, words: seq<string>, norm: string -> string): nat {
    if |words| == 0 then 0 else (if norm(words[0]) in index then 1 else 0) + Hits(index, words[1..], norm)
  }

  lemma StampTwice(e: Entry, status: int, notes: Option<string>, now: string)
    ensures Stamp(Stamp(e, status, notes, now), status, notes, now) == Stamp(e, status, notes, now)
  {
  }

  lemma StampRankThenRanks(t: Table, rank: int, ranks: set<int>, status: int, notes: Option<string>, now: string)
    ensures StampRanks(StampRank(t, rank, status, notes, now), ranks, status, notes, now)
         == StampRanks(t, ranks + {rank}, status, notes, now)
  {
    var u := StampRank(t, rank, status, notes, now);
    var l := StampRanks(u, ranks, status, notes, now);
    var r := StampRanks(t, ranks + {rank}, status, notes, now);
    assert |l| == |r|;
    forall i | 0 <= i < |t| ensures l[i] == r[i] {
      assert u[i].rank == t[i].rank;
      if t[i].rank == rank {
        StampTwice(t[i], status, notes, now);
        assert u[i] == Stamp(t[i], status, notes, now);
      } else {
        assert u[i] == t[i];
      }
    }
  }

  lemma StampRanksEmpty(t: Table, status: int, notes: Option<string>, now: string)
    ensures StampRanks(t, {}, status, notes, now) == t
  {
    var r := StampRanks(t, {}, status, notes, now);
    assert forall i :: 0 <= i < |t| ==> r[i] == t[i];
  }

  lemma TargetsCons(index: map<string, int>, words: seq<string>, norm: string -> string)
    requires |words| > 0
    ensures Targets(index, words, norm) == Targets(index, words[1..], norm) +
      if norm(words[0]) in index then {index[norm(words[0])]} else {}
  {
    assert forall w :: w in words <==> w == words[0] || w in words[1..];
  }

  /** Updating row by row, word by word, comes to updating the set of target ranks at once;
      the count is the number of words that hit, repetitions included. */
  lemma {:induction false} MarkEachIsStampRanks(t: Table, index: map<string, int>, words: seq<string>, status: int,
                                                notes: Option<string>, now: string, norm: string -> string)
    ensures MarkEach(t, index, words, status, notes, now, norm)
         == (StampRanks(t, Targets(index, words, norm), status, notes, now), Hits(index, words, norm))
    decreases |words|
  {
    if |words| == 0 {
      StampRanksEmpty(t, status, notes, now);
      assert Targets(index, words, norm) == {};
    } else if norm(words[0]) in index {
      var u := StampRank(t, index[norm(words[0])], status, notes, now);
      MarkEachIsStampRanks(u, index, words[1..], status, notes, now, norm);
      MarkEachHit(t, index, words, status, notes, now, norm);
    } else {
      MarkEachIsStampRanks(t, index, words[1..], status, notes, now, norm);
      MarkEachMiss(t, index, words, status, notes, now, norm);
    }
  }

  lemma MarkEachHit(t: Table, index: map<string, int>, words: seq<string>, status: int,
                    notes: Option<string>, now: string, norm: string -> string)
    requires |words| > 0 && norm(words[0]) in index
    requires var u := StampRank(t, index[norm(words[0])], status, notes, now);
      MarkEach(u, index, words[1..], status, notes, now, norm)
      == (StampRanks(u, Targets(index, words[1..], norm), status, notes, now), Hits(index, words[1..], norm))
    ensures MarkEach(t, index, words, status, notes, now, norm)
         == (StampRanks(t, Targets(index, words, norm), status, notes, now), Hits(index, words, norm))
  {
    var rank := index[norm(words[0])];
    var u := StampRank(t, rank, status, notes, now);
    var tail := Targets(index, words[1..], norm);
    var rest := MarkEach(u, index, words[1..], status, notes, now, norm);
    assert MarkEach(t, index, words, status, notes, now, norm) == (rest.0, rest.1 + 1);
    TargetsCons(index, words, norm);
    assert Targets(index, words, norm) == tail + {rank};
    StampRankThenRanks(t, rank, tail, status, notes, now);
  }

  lemma MarkEachMiss(t: Table, index: map<string, int>, words: seq<string>, status: int,
                     notes: Option<string>, now: string, norm: string -> string)
    requires |words| > 0 && norm(words[0]) !in index
    requires MarkEach(t, index, words[1..], status, notes, now, norm)
      == (StampRanks(t, Targets(index, words[1..], norm), status, notes, now), Hits(index, words[1..], norm))
    ensures MarkEach(t, index, words, status, notes, now, norm)
         == (StampRanks(t, Targets(index, words, norm), status, notes, now), Hits(index, words, norm))
  {
    var tail := Targets(index, words[1..], norm);
    var rest := MarkEach(t, index, words[1..], status, notes, now, norm);
    assert MarkEach(t, index, words, status, notes, now, norm) == (rest.0, rest.1 + 0);
    TargetsCons(index, words, norm);
    assert Targets(index, words, norm) == tail + {};
    assert tail + {} == tail;
  }

  /** `mark_many_processed`: the pending rows are indexed by normal form once, then every
      word whose normal form is indexed stamps the indexed row. */
  function MarkManyProcessed(t: Table, words: seq<string>, status: int, notes: Option<string>, now: string,
                             norm: string -> string): (r: (Table, nat))
    ensures r.1 <= |words|
    ensures r.1 == Hits(PendingIndex(t, norm), words, norm)
    ensures |r.0| == |t|
    ensures forall i :: 0 <= i < |t| ==>
      r.0[i] == if t[i].rank in Targets(PendingIndex(t, norm), words, norm) then Stamp(t[i], status, notes, now) else t[i]
  {
    var index := PendingIndex(t, norm);
    MarkEachIsStampRanks(t, index, words, status, notes, now, norm);
    MarkEach(t, index, words, status, notes, now, norm)
  }

  /** Only pending rows are ever changed by the batch update. */
  lemma MarkManyOnlyPending(t: Table, words: seq<string>, status: int, notes: Option<string>, now: string,
                            norm: string -> string)
    ensures var r := MarkManyProcessed(t, words, status, notes, now, norm).0;
      forall i :: 0 <= i < |t| && r[i] != t[i] ==> t[i].processed == Pending
  {
    var index := PendingIndex(t, norm);
    var r := MarkManyProcessed(t, words, status, notes, now, norm).0;
    forall i | 0 <= i < |t| && r[i] != t[i] ensures t[i].processed == Pending {
      var w :| w in words && norm(w) in index && index[norm(w)] == t[i].rank;
      PendingIndexSpec(t, norm, norm(w));
      var k :| 0 <= k < |t| && t[k].rank == index[norm(w)] && PendingWith(t[k], norm(w), norm);
      RankDeterminesRow(t, i, k);
    }
  }

  /** In the table a rank identifies one row. */
  lemma RankDeterminesRow(t: Table, i: int, k: int)
    requires 0 <= i < |t| && 0 <= k < |t| && t[i].rank == t[k].rank
    ensures i == k
  {
  }

  /** For every word, the highest-ranked pending row sharing its normal form is stamped. */
  lemma MarkManyHitsLastPending(t: Table, words: seq<string>, status: int, notes: Option<string>, now: string,
                                norm: string -> string, w: string, i: int)
    requires w in words && 0 <= i < |t| && PendingWith(t[i], norm(w), norm)
    requires forall j :: i < j < |t| ==> !PendingWith(t[j], norm(w), norm)
    ensures MarkManyProcessed(t, words, status, notes, now, norm).0[i] == Stamp(t[i], status, notes, now)
  {
    var index := PendingIndex(t, norm);
    PendingIndexSpec(t, norm, norm(w));
    var k :| 0 <= k < |t| && t[k].rank == index[norm(w)] && PendingWith(t[k], norm(w), norm) &&
      forall j :: k < j < |t| ==> !PendingWith(t[j], norm(w), norm);
    assert !(k < i) && !(i < k);
    assert t[i].rank in Targets(index, words, norm);
  }

  /** The notes `skip_words` writes: the reason after "manual skip: ", or "manual skip" alone
      when there is no reason or it is empty. */
  function SkipNote(reason: Option<string>): (n: string)
    ensures StartsWith(n, "manual skip")
    ensures reason.Some? && reason.value != "" ==> |n| >= 13 && n[13..] == reason.value
  {
    if reason.Some? && reason.value != "" then "manual skip: " + reason.value else "manual skip"
  }

  /** `skip_words`: the batch update with status Skipped and the manual-skip note. */
  function SkipWords(t: Table, words: seq<string>, reason: Option<string>, now: string,
                     norm: string -> string): (r: (Table, nat))
    ensures r.1 <= |words| && |r.0| == |t|
    ensures r.1 == Hits(PendingIndex(t, norm), words, norm)
    ensures forall i :: 0 <= i < |t| ==>
      r.0[i] == if t[i].rank in Targets(PendingIndex(t, norm), words, norm)
                then Stamp(t[i], Skipped, Some(SkipNote(reason)), now) else t[i]
    ensures forall i :: 0 <= i < |t| && r.0[i] != t[i] ==>
      t[i].processed == Pending && r.0[i].processed == Skipped && r.0[i].notes == Some(SkipNote(reason))
  {
    MarkManyOnlyPending(t, words, Skipped, Some(SkipNote(reason)), now, norm);
    MarkManyProcessed(t, words, Skipped, Some(SkipNote(reason)), now, norm)
  }

  // ---------------------------------------------------------------------------------------
  // SELECT
  // ---------------------------------------------------------------------------------------

  /** The rows `keep` accepts, in their order. */
  function Filter(t: seq<Entry>, keep: Entry -> bool): (r: seq<Entry>)
    ensures |r| <= |t|
    ensures forall i :: 0 <= i < |r| ==> r[i] in t && keep(r[i])
    ensures forall i :: 0 <= i < |t| && keep(t[i]) ==> t[i] in r
  {
    if |t| == 0 then []
    else
      var rest := Filter(t[1..], keep);
      assert forall i :: 1 <= i < |t| ==> t[i] == t[1..][i - 1];
      if keep(t[0]) then [t[0]] + rest else rest
  }

  lemma {:induction false} FilterAscending(t: seq<Entry>, keep: Entry -> bool)
    requires RanksAscending(t)
    ensures RanksAscending(Filter(t, keep))
  {
    if |t| > 0 {
      var tail := t[1..];
      AscendingTail(t);
      FilterAscending(tail, keep);
      var rest := Filter(tail, keep);
      if keep(t[0]) {
        assert Filter(t, keep) == [t[0]] + rest;
        forall i | 0 <= i < |rest| ensures rest[i].rank > t[0].rank {
          assert rest[i] in tail;
          var k :| 0 <= k < |tail| && tail[k] == rest[i];
        }
        ConsAscending(t[0], rest);
      } else {
        assert Filter(t, keep) == rest;
      }
    }
  }

  lemma AscendingTail(t: seq<Entry>)
    requires |t| > 0 && RanksAscending(t)
    ensures RanksAscending(t[1..])
    ensures forall k :: 0 <= k < |t[1..]| ==> t[1..][k].rank > t[0].rank
  {
    forall i, j | 0 <= i < j < |t[1..]|
      ensures t[1..][i].rank < t[1..][j].rank
    {
      assert t[1..][i] == t[i + 1] && t[1..][j] == t[j + 1];
    }
    forall k | 0 <= k < |t[1..]|
      ensures t[1..][k].rank > t[0].rank
    {
      assert t[1..][k] == t[k + 1];
    }
  }

  lemma ConsAscending(x: Entry, rest: seq<Entry>)
    requires RanksAscending(rest)
    requires forall i :: 0 <= i < |rest| ==> rest[i].rank > x.rank
    ensures RanksAscending([x] + rest)
  {
    var r := [x] + rest;
    forall i, j | 0 <= i < j < |r|
      ensures r[i].rank < r[j].rank
    {
      assert r[j] == rest[j - 1];
      if i > 0 {
        assert r[i] == rest[i - 1];
      }
    }
  }

  /** `SELECT * ... WHERE keep ORDER BY rank`. */
  function Select(t: Table, keep: Entry -> bool): (r: Table)
    ensures |r| <= |t|
    ensures forall i :: 0 <= i < |r| ==> r[i] in t && keep(r[i])
    ensures forall i :: 0 <= i < |t| && keep(t[i]) ==> t[i] in r
  {
    FilterAscending(t, keep);
    Filter(t, keep)
  }

  /** The optional bounds of `get_pending`: `rank >= range_start`, `rank <= range_end`. */
  predicate InWindow(e: Entry, rangeStart: Option<int>, rangeEnd: Option<int>) {
    (rangeStart.None? || e.rank >= rangeStart.value) && (rangeEnd.None? || e.rank <= rangeEnd.value)
  }

  function PendingRows(t: Table, rangeStart: Option<int>, rangeEnd: Option<int>): Table {
    Select(t, (e: Entry) => e.processed == Pending && InWindow(e, rangeStart, rangeEnd))
  }

  /** `get_pending`: the pending rows inside the optional bounds, by rank, cut to the first
      `limit` when a limit is given. SQLite treats a negative LIMIT as no limit at all. */
  function GetPending(t: Table, rangeStart: Option<int>, rangeEnd: Option<int>, limit: Option<int>): (r: Table)
    ensures forall i :: 0 <= i < |r| ==> r[i] in t && r[i].processed == Pending && InWindow(r[i], rangeStart, rangeEnd)
    ensures limit.None? || limit.value < 0 ==>
      forall i :: 0 <= i < |t| && t[i].processed == Pending && InWindow(t[i], rangeStart, rangeEnd) ==> t[i] in r
    ensures limit.Some? && limit.value >= 0 ==> |r| <= limit.value
    ensures |r| <= |PendingRows(t, rangeStart, rangeEnd)|
    ensures r == PendingRows(t, rangeStart, rangeEnd)[..|r|]
    ensures limit.Some? && limit.value >= 0 ==>
      |r| == if limit.value < |PendingRows(t, rangeStart, rangeEnd)| then limit.value
             else |PendingRows(t, rangeStart, rangeEnd)|
    ensures limit.None? || limit.value < 0 ==> r == PendingRows(t, rangeStart, rangeEnd)
  {
    var rows := PendingRows(t, rangeStart, rangeEnd);
    if limit.Some? && 0 <= limit.value < |rows| then rows[..limit.value] else rows
  }

  /** Three-valued truth of SQL conditions. */
  datatype Sql3 = Yes | No | Unknown

  function Not3(a: Sql3): Sql3 {
    match a
    case Yes => No
    case No => Yes
    case Unknown => Unknown
  }

  function And3(a: Sql3, b: Sql3): Sql3 {
    if a == No || b == No then No
    else if a == Yes && b == Yes then Yes
    else Unknown
  }

  /** ASCII-only case folding, which is what SQLite's LIKE applies. */
  function AsciiLower(c: char): char {
    if 'A' <= c <= 'Z' then (c as int + 32) as char else c
  }

  /** `s LIKE p || '%'` for a pattern `p` without wildcards. */
  predicate LikePrefix(s: string, p: string) {
    |p| <= |s| && forall k :: 0 <= k < |p| ==> AsciiLower(s[k]) == AsciiLower(p[k])
  }

  const AutoSkipNote := "auto-skip: function word"

  /** `notes LIKE 'auto-skip%'`, which is unknown on a NULL note. */
  function NotesLikeAutoSkip(notes: Option<string>): Sql3 {
    match notes
    case None => Unknown
    case Some(n) => if LikePrefix(n, "auto-skip") then Yes else No
  }

  /** The WHERE clause of `get_range`; a row is returned only when it evaluates to true. */
  predicate RangeWhere(e: Entry, rangeStart: int, rangeEnd: int) {
    rangeStart <= e.rank <= rangeEnd &&
    Not3(And3(if e.processed == Skipped then Yes else No, NotesLikeAutoSkip(e.notes))) == Yes
  }

  /** Not skipped, or skipped with a note that does not begin with "auto-skip". */
  predicate Shareable(e: Entry) {
    e.processed != Skipped || (e.notes.Some? && !LikePrefix(e.notes.value, "auto-skip"))
  }

  /** `get_range`: the rows in the closed rank range, by rank, except skipped rows whose
      notes begin with "auto-skip" (ignoring ASCII case) and, because of SQL's NULL logic,
      except skipped rows without notes. */
  function GetRange(t: Table, rangeStart: int, rangeEnd: int): (r: Table)
    ensures forall i :: 0 <= i < |r| ==> r[i] in t && rangeStart <= r[i].rank <= rangeEnd
    ensures forall i :: 0 <= i < |r| ==> Shareable(r[i])
    ensures forall i :: 0 <= i < |t| && rangeStart <= t[i].rank <= rangeEnd && Shareable(t[i]) ==> t[i] in r
  {
    Select(t, (e: Entry) => RangeWhere(e, rangeStart, rangeEnd))
  }

  /** Words skipped by hand stay in the shareable range; those skipped on import do not. */
  lemma ManualSkipsStayInRange(reason: Option<string>)
    ensures !LikePrefix(SkipNote(reason), "auto-skip")
    ensures LikePrefix(AutoSkipNote, "auto-skip")
  {
    assert AsciiLower(SkipNote(reason)[0]) == 'm';
  }

  // ---------------------------------------------------------------------------------------
  // get_status_summary
  // ---------------------------------------------------------------------------------------

  /** One 500-rank bucket. The three sums are NULL, here `None`, for a bucket without rows. */
  datatype Bucket = Bucket(start: int, end: int, total: nat, inAnki: Option<nat>, pending: Option<nat>, skipped: Option<nat>)

  datatype Summary = Summary(total: nat, inAnki: nat, skipped: nat, pending: nat, ranges: seq<Bucket>)

  /** Every member of a set of positions moved one place up. */
  function Shift(a: set<int>): set<int> {
    set i | i in a :: i + 1
  }

  /** Moving positions below `n` one place up keeps their number. */
  lemma {:induction false} ShiftCard(a: set<int>, n: nat)
    requires forall x :: x in a ==> 0 <= x < n
    ensures |Shift(a)| == |a|
    decreases n
  {
    if n == 0 {
      assert a == {};
    } else {
      var b := set x | x in a && x < n - 1;
      ShiftCard(b, n - 1);
      if n - 1 in a {
        assert a == b + {n - 1};
        assert Shift(a) == Shift(b) + {n};
      } else {
        assert a == b;
      }
    }
  }

  /** The positions of the rows with the given status. */
  function StatusIndices(t: seq<Entry>, status: int): set<int> {
    set i | 0 <= i < |t| && t[i].processed == status
  }

  lemma StatusIndicesCons(t: seq<Entry>, status: int)
    requires |t| > 0
    ensures |StatusIndices(t, status)|
         == (if t[0].processed == status then 1 else 0) + |StatusIndices(t[1..], status)|
  {
    var rest := StatusIndices(t[1..], status);
    var head: set<int> := if t[0].processed == status then {0} else {};
    assert StatusIndices(t, status) == head + Shift(rest) by {
      forall i | i in StatusIndices(t, status) ensures i in head + Shift(rest) {
        if i > 0 { assert i - 1 in rest; }
      }
    }
    ShiftCard(rest, |t| - 1);
  }

  /** `SUM(CASE WHEN processed=s ...)` over the whole table: the number of rows with that
      status. */
  function CountStatus(t: seq<Entry>, status: int): (n: nat)
    ensures n <= |t|
    ensures n == |StatusIndices(t, status)|
  {
    if |t| == 0 then 0
    else
      StatusIndicesCons(t, status);
      (if t[0].processed == status then 1 else 0) + CountStatus(t[1..], status)
  }

  /** `COUNT(*) ... WHERE rank BETWEEN lo AND hi`. */
  function CountBetween(t: seq<Entry>, lo: int, hi: int): (n: nat)
    ensures n <= |t|
  {
    if |t| == 0 then 0 else (if lo <= t[0].rank <= hi then 1 else 0) + CountBetween(t[1..], lo, hi)
  }

  function CountBetweenStatus(t: seq<Entry>, lo: int, hi: int, status: int): (n: nat)
    ensures n <= CountBetween(t, lo, hi)
  {
    if |t| == 0 then 0
    else (if lo <= t[0].rank <= hi && t[0].processed == status then 1 else 0) + CountBetweenStatus(t[1..], lo, hi, status)
  }

  /** `SUM(CASE WHEN processed=s THEN 1 ELSE 0 END)`: NULL over no rows. */
  function SumCase(t: seq<Entry>, lo: int, hi: int, status: int): Option<nat> {
    if CountBetween(t, lo, hi) == 0 then None else Some(CountBetweenStatus(t, lo, hi, status))
  }

  function MakeBucket(t: seq<Entry>, start: int): Bucket {
    var end := start + 499;
    Bucket(start, end, CountBetween(t, start, end), SumCase(t, start, end, InAnki),
           SumCase(t, start, end, Pending), SumCase(t, start, end, Skipped))
  }

  /** `MAX(rank) ... or 0`. */
  function MaxRankOrZero(t: Table): (m: int)
    ensures |t| == 0 ==> m == 0
    ensures |t| > 0 ==> exists i :: 0 <= i < |t| && t[i].rank == m
    ensures forall i :: 0 <= i < |t| ==> t[i].rank <= m
  {
    if |t| == 0 then 0 else t[|t| - 1].rank
  }

  /** Number of values `range(1, max_rank + 1, 500)` produces. */
  function BucketCount(maxRank: int): (n: nat)
    ensures maxRank >= 1 ==> 500 * (n - 1) < maxRank <= 500 * n
    ensures maxRank < 1 ==> n == 0
  {
    if maxRank < 1 then 0 else (maxRank - 1) / 500 + 1
  }

  /** The first `n` buckets, starting at ranks 1, 501, 1001, ... */
  function Buckets(t: seq<Entry>, n: nat): (r: seq<Bucket>)
    ensures |r| == n
    ensures forall i :: 0 <= i < n ==> r[i].start == 1 + 500 * i && r[i].end == 500 * (i + 1)
    ensures forall i :: 0 <= i < n ==> r[i] == MakeBucket(t, 1 + 500 * i)
  {
    if n == 0 then [] else Buckets(t, n - 1) + [MakeBucket(t, 1 + 500 * (n - 1))]
  }

  /** `get_status_summary`. */
  function GetStatusSummary(t: Table): (s: Summary)
    ensures s.total == |t|
    ensures s.inAnki == |StatusIndices(t, InAnki)| && s.skipped == |StatusIndices(t, Skipped)|
    ensures s.pending == |StatusIndices(t, Pending)|
    ensures s.inAnki + s.skipped + s.pending <= s.total
    ensures |s.ranges| == BucketCount(MaxRankOrZero(t))
  {
    StatusCountsBounded(t);
    Summary(|t|, CountStatus(t, InAnki), CountStatus(t, Skipped), CountStatus(t, Pending),
            Buckets(t, BucketCount(MaxRankOrZero(t))))
  }

  /** Rows in the three known states never outnumber the table, and match it exactly when
      every status is one of them. */
  lemma {:induction false} StatusCountsBounded(t: seq<Entry>)
    ensures CountStatus(t, InAnki) + CountStatus(t, Skipped) + CountStatus(t, Pending) <= |t|
    ensures (forall i :: 0 <= i < |t| ==> t[i].processed in {Pending, InAnki, Skipped}) ==>
      CountStatus(t, InAnki) + CountStatus(t, Skipped) + CountStatus(t, Pending) == |t|
  {
    if |t| > 0 {
      StatusCountsBounded(t[1..]);
      assert forall i :: 1 <= i < |t| ==> t[i] == t[1..][i - 1];
    }
  }

  /** The same for the rows of one rank window. */
  lemma {:induction false} WindowCountsBounded(t: seq<Entry>, lo: int, hi: int)
    ensures CountBetweenStatus(t, lo, hi, InAnki) + CountBetweenStatus(t, lo, hi, Pending)
            + CountBetweenStatus(t, lo, hi, Skipped) <= CountBetween(t, lo, hi)
    ensures (forall i :: 0 <= i < |t| ==> t[i].processed in {Pending, InAnki, Skipped}) ==>
      CountBetweenStatus(t, lo, hi, InAnki) + CountBetweenStatus(t, lo, hi, Pending)
      + CountBetweenStatus(t, lo, hi, Skipped) == CountBetween(t, lo, hi)
  {
    if |t| > 0 {
      WindowCountsBounded(t[1..], lo, hi);
      assert forall i :: 1 <= i < |t| ==> t[i] == t[1..][i - 1];
    }
  }

  /** Bucket `i` of the summary covers ranks `1 + 500 * i` to `500 * (i + 1)` and counts the
      rows there; its three sums are NULL exactly when it has no rows, and otherwise add up
      to at most its total. */
  lemma SummaryBucket(t: Table, i: int)
    requires 0 <= i < |GetStatusSummary(t).ranges|
    ensures var b := GetStatusSummary(t).ranges[i];
      && b.start == 1 + 500 * i && b.end == b.start + 499
      && b.total == CountBetween(t, b.start, b.end)
      && (b.inAnki.None? <==> b.total == 0)
      && (b.pending.None? <==> b.total == 0)
      && (b.skipped.None? <==> b.total == 0)
      && (b.total > 0 ==> b.inAnki.value + b.pending.value + b.skipped.value <= b.total)
  {
    WindowCountsBounded(t, 1 + 500 * i, 500 * (i + 1));
  }

  /** Adjacent rank windows count separately what they count together. */
  lemma {:induction false} CountBetweenSplit(t: seq<Entry>, lo: int, mid: int, hi: int)
    requires lo - 1 <= mid <= hi
    ensures CountBetween(t, lo, mid) + CountBetween(t, mid + 1, hi) == CountBetween(t, lo, hi)
  {
    if |t| > 0 {
      CountBetweenSplit(t[1..], lo, mid, hi);
    }
  }

  function SumTotals(bs: seq<Bucket>): nat {
    if |bs| == 0 then 0 else SumTotals(bs[..|bs| - 1]) + bs[|bs| - 1].total
  }

  lemma {:induction false} BucketTotals(t: seq<Entry>, n: nat)
    ensures SumTotals(Buckets(t, n)) == CountBetween(t, 1, 500 * n)
  {
    if n > 0 {
      var mid := 500 * (n - 1);
      var hi := 500 * n;
      assert mid + 500 == hi && 0 <= mid;
      calc {
        SumTotals(Buckets(t, n));
        { LastBucket(t, n); }
        SumTotals(Buckets(t, n - 1)) + CountBetween(t, mid + 1, hi);
        { BucketTotals(t, n - 1); }
        CountBetween(t, 1, mid) + CountBetween(t, mid + 1, hi);
        { CountBetweenSplit(t, 1, mid, hi); }
        CountBetween(t, 1, hi);
      }
    } else {
      assert Buckets(t, 0) == [];
      CountBetweenEmpty(t, 1, 0);
    }
  }

  lemma LastBucket(t: seq<Entry>, n: nat)
    requires n > 0
    ensures SumTotals(Buckets(t, n)) == SumTotals(Buckets(t, n - 1)) + CountBetween(t, 500 * (n - 1) + 1, 500 * n)
  {
    var bs := Buckets(t, n);
    assert bs[..n - 1] == Buckets(t, n - 1);
    assert bs[n - 1].total == CountBetween(t, 500 * (n - 1) + 1, 500 * n);
  }

  lemma {:induction false} CountBetweenEmpty(t: seq<Entry>, lo: int, hi: int)
    requires hi < lo
    ensures CountBetween(t, lo, hi) == 0
  {
    if |t| > 0 {
      CountBetweenEmpty(t[1..], lo, hi);
    }
  }

  lemma {:induction false} CountBetweenAll(t: seq<Entry>, lo: int, hi: int)
    requires forall i :: 0 <= i < |t| ==> lo <= t[i].rank <= hi
    ensures CountBetween(t, lo, hi) == |t|
  {
    if |t| > 0 {
      assert forall i :: 1 <= i < |t| ==> t[i] == t[1..][i - 1];
      CountBetweenAll(t[1..], lo, hi);
    }
  }

  /** When every rank is positive, as import makes them, the bucket totals add up to the
      number of rows: every row lies in exactly one bucket. */
  lemma SummaryBucketsCoverTable(t: Table)
    requires forall i :: 0 <= i < |t| ==> t[i].rank >= 1
    ensures SumTotals(GetStatusSummary(t).ranges) == |t|
  {
    var m := MaxRankOrZero(t);
    var n := BucketCount(m);
    BucketTotals(t, n);
    if |t| > 0 {
      assert t[|t| - 1].rank == m;
      assert forall i :: 0 <= i < |t| ==> t[i].rank <= m by {
        forall i | 0 <= i < |t| ensures t[i].rank <= m {
          if i < |t| - 1 { assert t[i].rank < t[|t| - 1].rank; }
        }
      }
      CountBetweenAll(t, 1, 500 * n);
    }
  }

  /** A row of positive rank up to the maximum is counted in bucket `(rank - 1) / 500`. */
  lemma BucketOfRank(t: Table, i: int)
    requires 0 <= i < |t| && t[i].rank >= 1
    ensures var b := (t[i].rank - 1) / 500;
      b < |GetStatusSummary(t).ranges| &&
      GetStatusSummary(t).ranges[b].start <= t[i].rank <= GetStatusSummary(t).ranges[b].end
  {
    var m := MaxRankOrZero(t);
    if i < |t| - 1 { assert t[i].rank < t[|t| - 1].rank; }
  }

  // ---------------------------------------------------------------------------------------
  // get_word_by_greek
  // ---------------------------------------------------------------------------------------

  /** `get_word_by_greek`: the first row with exactly this text; failing that, the first row
      of any status whose normal form matches; failing that, nothing. */
  function GetWordByGreek(t: Table, greek: string, norm: string -> string): (r: Option<Entry>)
    ensures HasGreek(t, greek) ==> r.Some?
    ensures HasGreek(t, greek) && r.Some? ==>
      exists i :: 0 <= i < |t| && t[i] == r.value && t[i].greek == greek &&
        forall j :: 0 <= j < i ==> t[j].greek != greek
    ensures !HasGreek(t, greek) ==>
      (r.Some? <==> exists i :: 0 <= i < |t| && norm(t[i].greek) == norm(greek))
    ensures !HasGreek(t, greek) && r.Some? ==>
      exists i :: 0 <= i < |t| && t[i] == r.value && norm(t[i].greek) == norm(greek) &&
        forall j :: 0 <= j < i ==> norm(t[j].greek) != norm(greek)
  {
    match FirstWhere(t, (e: Entry) => e.greek == greek)
    case Some(i) => Some(t[i])
    case None =>
      match FirstWhere(t, (e: Entry) => norm(e.greek) == norm(greek))
      case Some(i) => Some(t[i])
      case None => None
  }

  /** Index of the first row `keep` accepts. */
  function FirstWhere(t: seq<Entry>, keep: Entry -> bool): (r: Option<nat>)
    ensures r.Some? ==> r.value < |t| && keep(t[r.value]) && forall j :: 0 <= j < r.value ==> !keep(t[j])
    ensures r.None? ==> forall j :: 0 <= j < |t| ==> !keep(t[j])
  {
    if |t| == 0 then None
    else if keep(t[0]) then Some(0)
    else match FirstWhere(t[1..], keep)
      case None => None
      case Some(k) => Some(k + 1)
  }

  /** After an exact-text mark, looking the text up finds the row with the new status. */
  lemma MarkThenLookup(t: Table, greek: string, status: int, notes: Option<string>, now: string,
                       norm: string -> string)
    requires HasGreek(t, greek)
    ensures var u := MarkProcessed(t, greek, status, notes, now, norm).0;
      var r := GetWordByGreek(u, greek, norm);
      r.Some? && r.value.greek == greek && r.value.processed == status && r.value.notes == notes
  {
    var u := MarkProcessed(t, greek, status, notes, now, norm).0;
    var i :| 0 <= i < |t| && t[i].greek == greek;
    assert u[i].greek == greek;
  }
}

=== FILE: html.dfy ===
/** Python's `html.escape(s)` (with its default `quote=True`) and, as its partner, the
    decoding of exactly the five character references it produces. */
module Html {
  import opened Strings

  /** The characters `html.escape` rewrites. */
  const Special: set<char> := {'&', '<', '>', '"', '\''}

  /** The characters that make markup: after escaping none of them is left. */
  const Markup: set<char> := {'<', '>', '"', '\''}

  /** `html.escape` replaces `&` first and then `<`, `>`, `"` and `'`; since no later
      replacement introduces one of the characters an earlier one looks for, that is the
      same as rewriting each character on its own. */
  function EscapeChar(c: char): (r: string)
    ensures |r| > 0
    ensures NoneIn(r, Markup)
    ensures c !in Special ==> r == [c]
    ensures c in Special ==> r[0] == '&'
  {
    if c == '&' then "&amp;"
    else if c == '<' then "&lt;"
    else if c == '>' then "&gt;"
    else if c == '"' then "&quot;"
    else if c == '\'' then "&#x27;"
    else [c]
  }

  function Escape(s: string): (r: string)
    ensures |r| >= |s|
    ensures NoneIn(r, Markup)
  {
    if |s| == 0 then "" else EscapeChar(s[0]) + Escape(s[1..])
  }

  /** Text without special characters is its own escape. */
  lemma {:induction false} EscapePlain(s: string)
    requires NoneIn(s, Special)
    ensures Escape(s) == s
  {
    if |s| > 0 {
      EscapePlain(s[1..]);
      assert [s[0]] + s[1..] == s;
    }
  }

  lemma {:induction false} EscapeAppend(a: string, b: string)
    ensures Escape(a + b) == Escape(a) + Escape(b)
  {
    if |a| > 0 {
      assert (a + b)[1..] == a[1..] + b;
      EscapeAppend(a[1..], b);
    } else {
      assert a + b == b;
    }
  }

  /** The character a reference at the front of `s` stands for, and the reference's length;
      a character that starts no reference stands for itself. */
  function DecodeFirst(s: string): (r: (char, nat))
    requires |s| > 0
    ensures 1 <= r.1 <= |s|
  {
    if StartsWith(s, "&amp;") then ('&', 5)
    else if StartsWith(s, "&lt;") then ('<', 4)
    else if StartsWith(s, "&gt;") then ('>', 4)
    else if StartsWith(s, "&quot;") then ('"', 6)
    else if StartsWith(s, "&#x27;") then ('\'', 6)
    else (s[0], 1)
  }

  /** Decoding of `&amp;`, `&lt;`, `&gt;`, `&quot;` and `&#x27;`, the references `Escape`
      writes; every other character stands for itself. */
  function Unescape(s: string): (r: string)
    decreases |s|
  {
    if |s| == 0 then ""
    else
      var d := DecodeFirst(s);
      [d.0] + Unescape(s[d.1..])
  }

  /** Decoding sees an escaped character as that character. */
  lemma UnescapeEscapedChar(c: char, t: string)
    ensures Unescape(EscapeChar(c) + t) == [c] + Unescape(t)
  {
    var e := EscapeChar(c) + t;
    var n := |EscapeChar(c)|;
    assert e[..n] == EscapeChar(c);
    assert e[n..] == t;
    if c !in Special {
      UnescapeOther(e);
    } else {
      if c != '&' {
        DiffersAt(e, "&amp;", 1);
      }
      if c != '&' && c != '<' {
        DiffersAt(e, "&lt;", 1);
      }
      if c == '"' || c == '\'' {
        DiffersAt(e, "&gt;", 1);
      }
      if c == '\'' {
        DiffersAt(e, "&quot;", 1);
      }
      assert DecodeFirst(e) == (c, n);
    }
  }

  /** An escaped first character followed by text that decodes to the rest of `text`
      decodes to all of `text`. */
  lemma UnescapeEscapedThen(text: string, x: string, rest: string, u: string)
    requires |text| > 0 && x == EscapeChar(text[0]) + rest
    requires Unescape(rest) == text[1..] + u
    ensures Unescape(x) == text + u
  {
    UnescapeEscapedChar(text[0], rest);
    SplitAppend(text, 1, u);
  }

  /** A character other than `&` starts no reference. */
  lemma UnescapeOther(s: string)
    requires |s| > 0 && s[0] != '&'
    ensures Unescape(s) == [s[0]] + Unescape(s[1..])
  {
    NotPrefix(s, "&amp;");
    NotPrefix(s, "&lt;");
    NotPrefix(s, "&gt;");
    NotPrefix(s, "&quot;");
    NotPrefix(s, "&#x27;");
    assert DecodeFirst(s) == (s[0], 1);
  }

  lemma DiffersAt(s: string, r: string, k: nat)
    requires k < |s| && k < |r| && s[k] != r[k]
    ensures !StartsWith(s, r)
  {
    if |r| <= |s| {
      assert s[..|r|][k] == s[k];
    }
  }

  lemma NotPrefix(s: string, r: string)
    requires |s| > 0 && |r| > 0 && s[0] != r[0]
    ensures !StartsWith(s, r)
  {
    if |r| <= |s| {
      assert s[..|r|][0] == s[0];
    }
  }

  /** Text without `&` passes through decoding unchanged. */
  lemma {:induction false} UnescapePlain(p: string, t: string)
    requires '&' !in p
    ensures Unescape(p + t) == p + Unescape(t)
  {
    if |p| > 0 {
      assert p == [p[0]] + p[1..];
      var s := p + t;
      assert s[0] == p[0] && s[1..] == p[1..] + t;
      UnescapeOther(s);
      UnescapePlain(p[1..], t);
      assert [p[0]] + p[1..] == p;
    } else {
      assert p + t == t;
    }
  }

  /** Escaping loses nothing: decoding gives the text back, whatever follows it. */
  lemma {:induction false} UnescapeEscapeAppend(s: string, t: string)
    ensures Unescape(Escape(s) + t) == s + Unescape(t)
  {
    if |s| > 0 {
      UnescapeEscapeAppend(s[1..], t);
      UnescapeEscapeCons(s, t);
    } else {
      assert Escape(s) + t == t;
    }
  }

  /** The inductive step of `UnescapeEscapeAppend`. */
  lemma UnescapeEscapeCons(s: string, t: string)
    requires |s| > 0
    requires Unescape(Escape(s[1..]) + t) == s[1..] + Unescape(t)
    ensures Unescape(Escape(s) + t) == s + Unescape(t)
  {
    var rest := Escape(s[1..]) + t;
    EscapeCons(s, t);
    UnescapeEscapedChar(s[0], rest);
    SplitAppend(s, 1, Unescape(t));
  }

  lemma EscapeCons(s: string, t: string)
    requires |s| > 0
    ensures Escape(s) + t == EscapeChar(s[0]) + (Escape(s[1..]) + t)
  {
  }

  lemma UnescapeEscape(s: string)
    ensures Unescape(Escape(s)) == s
  {
    UnescapeEscapeAppend(s, "");
    assert Escape(s) + "" == Escape(s);
  }

  /** Hence different texts never escape to the same text. */
  lemma EscapeInjective(a: string, b: string)
    requires Escape(a) == Escape(b)
    ensures a == b
  {
    UnescapeEscape(a);
    UnescapeEscape(b);
  }
}

=== FILE: matcher.dfy ===
/** Token extraction and the deck-coverage test of greek_anki/matcher.py. */
module Matcher {
  import opened Unicode
  import opened Strings
  import opened Normalizer

  /** The separators of `re.split(r"[,/]", ...)`. */
  const Separators: set<char> := {',', '/'}

  // ---------------------------------------------------------------------------------------
  // extract_tokens
  // ---------------------------------------------------------------------------------------

  /** `[t.strip() for t in parts if t.strip()]`. */
  function KeepStripped(parts: seq<string>): (r: seq<string>)
    ensures forall i :: 0 <= i < |r| ==> |r[i]| > 0 && Trimmed(r[i])
    ensures |r| <= |parts|
  {
    if |parts| == 0 then []
    else
      var rest := KeepStripped(parts[1..]);
      var t := Trim(parts[0]);
      if t != "" then ConsTrimmed(t, rest); [t] + rest else rest
  }

  lemma ConsTrimmed(t: string, rest: seq<string>)
    requires |t| > 0 && Trimmed(t)
    requires forall i :: 0 <= i < |rest| ==> |rest[i]| > 0 && Trimmed(rest[i])
    ensures forall i :: 0 <= i < |[t] + rest| ==> |([t] + rest)[i]| > 0 && Trimmed(([t] + rest)[i])
  {
    forall i | 0 <= i < |[t] + rest|
      ensures |([t] + rest)[i]| > 0 && Trimmed(([t] + rest)[i])
    {
      if i > 0 {
        assert ([t] + rest)[i] == rest[i - 1];
      }
    }
  }

  /** The kept tokens are exactly the non-empty stripped parts. */
  lemma {:induction false} KeepStrippedMembers(parts: seq<string>, t: string)
    ensures t in KeepStripped(parts) <==> exists p :: p in parts && Trim(p) == t && t != ""
  {
    if |parts| > 0 {
      KeepStrippedMembers(parts[1..], t);
      assert forall p :: p in parts <==> p == parts[0] || p in parts[1..];
    }
  }

  /** Stripping keeps a part free of the characters it was free of. */
  lemma {:induction false} KeepStrippedAvoids(parts: seq<string>, bad: set<char>)
    requires forall i :: 0 <= i < |parts| ==> NoneIn(parts[i], bad)
    ensures forall i :: 0 <= i < |KeepStripped(parts)| ==> NoneIn(KeepStripped(parts)[i], bad)
  {
    if |parts| > 0 {
      var tail := parts[1..];
      forall i | 0 <= i < |tail| ensures NoneIn(tail[i], bad) {
        assert tail[i] == parts[i + 1];
      }
      KeepStrippedAvoids(tail, bad);
      var t := Trim(parts[0]);
      TrimAvoids(parts[0], bad);
      if t != "" {
        ConsAvoids(t, KeepStripped(tail), bad);
      }
    }
  }

  /** `extract_tokens`: the normalised field cut at commas and slashes, each piece trimmed,
      empty pieces dropped. A newline is not a separator. */
  function ExtractTokens(text: string): (r: seq<string>)
    ensures forall i :: 0 <= i < |r| ==> |r[i]| > 0 && Trimmed(r[i]) && NoneIn(r[i], Separators)
    ensures forall t :: t in r <==> t != "" && exists p :: p in SplitAny(NormalizeGreek(text), Separators) && Trim(p) == t
  {
    var parts := SplitAny(NormalizeGreek(text), Separators);
    KeepStrippedAvoids(parts, Separators);
    forall t ensures t in KeepStripped(parts) <==> t != "" && exists p :: p in parts && Trim(p) == t {
      KeepStrippedMembers(parts, t);
    }
    KeepStripped(parts)
  }

  /** Every token is non-empty, has no surrounding whitespace and contains no separator. */
  lemma TokensShape(text: string)
    ensures forall i :: 0 <= i < |ExtractTokens(text)| ==>
      var t := ExtractTokens(text)[i]; |t| > 0 && Trimmed(t) && NoneIn(t, Separators)
  {
    KeepStrippedAvoids(SplitAny(NormalizeGreek(text), Separators), Separators);
  }

  /** A field whose normal form has no comma and no slash is one token, or none when it
      normalises to the empty string. */
  lemma TokensWithoutSeparators(text: string)
    requires NoneIn(NormalizeGreek(text), Separators)
    ensures ExtractTokens(text) == if NormalizeGreek(text) == "" then [] else [NormalizeGreek(text)]
  {
    var n := NormalizeGreek(text);
    SplitNoSep(n, Separators);
    assert Trim(n) == n;
    KeepStrippedOne(n);
  }

  lemma KeepStrippedOne(p: string)
    ensures KeepStripped([p]) == if Trim(p) == "" then [] else [Trim(p)]
  {
    assert [p][1..] == [];
  }

  /** A trimmed word and a trimmed text after one space keep their text, without the space. */
  lemma KeepTwo(a: string, b: string)
    requires |a| > 0 && Trimmed(a) && |b| > 0 && Trimmed(b)
    ensures KeepStripped([a, " " + b]) == [a, b]
  {
    TrimSpaced(b);
    assert [a, " " + b][1..] == [" " + b];
    KeepStrippedOne(" " + b);
  }

  /** Tokens of a field keep out whatever its normal form keeps out. */
  lemma TokensAvoid(text: string, bad: set<char>)
    requires NoneIn(NormalizeGreek(text), bad)
    ensures forall i :: 0 <= i < |ExtractTokens(text)| ==> NoneIn(ExtractTokens(text)[i], bad)
  {
    var parts := SplitAny(NormalizeGreek(text), Separators);
    SplitAnyAvoids(NormalizeGreek(text), Separators, bad);
    KeepStrippedAvoids(parts, bad);
  }

  lemma {:induction false} SplitAnyAvoids(s: string, seps: set<char>, bad: set<char>)
    requires NoneIn(s, bad)
    ensures forall i :: 0 <= i < |SplitAny(s, seps)| ==> NoneIn(SplitAny(s, seps)[i], bad)
  {
    if |s| > 0 {
      SliceAvoids(s, 1, |s|, bad);
      assert s[1..] == s[1..|s|];
      SplitAnyAvoids(s[1..], seps, bad);
      var rest := SplitAny(s[1..], seps);
      var r := SplitAny(s, seps);
      if s[0] in seps {
        assert r == [""] + rest;
        forall i | 0 <= i < |r|
          ensures NoneIn(r[i], bad)
        {
          if i > 0 { assert r[i] == rest[i - 1]; }
        }
      } else {
        assert r == [[s[0]] + rest[0]] + rest[1..];
        assert NoneIn([s[0]] + rest[0], bad);
        forall i | 0 <= i < |r|
          ensures NoneIn(r[i], bad)
        {
          if i > 0 { assert r[i] == rest[i]; }
        }
      }
    }
  }

  // ---------------------------------------------------------------------------------------
  // Edit distance
  // ---------------------------------------------------------------------------------------

  function Min3(x: nat, y: nat, z: nat): nat {
    if x <= y && x <= z then x else if y <= z then y else z
  }

  /** The Levenshtein distance (insertions, deletions and substitutions of one character,
      each costing one), by its textbook recursion. */
  ghost function Lev(a: string, b: string): nat
    decreases |a| + |b|
  {
    if |a| == 0 then |b|
    else if |b| == 0 then |a|
    else if a[0] == b[0] then Lev(a[1..], b[1..])
    else 1 + Min3(Lev(a[1..], b), Lev(a, b[1..]), Lev(a[1..], b[1..]))
  }

  /** Whether `a` and `b` are at most one edit apart, in one pass over the common prefix. */
  function WithinOneEdit(a: string, b: string): bool
    decreases |a|
  {
    if |a| == 0 then |b| <= 1
    else if |b| == 0 then |a| <= 1
    else if a[0] == b[0] then WithinOneEdit(a[1..], b[1..])
    else a[1..] == b || a == b[1..] || a[1..] == b[1..]
  }

  lemma {:induction false} LevSelf(a: string)
    ensures Lev(a, a) == 0
  {
    if |a| > 0 {
      LevSelf(a[1..]);
    }
  }

  /** Distance zero means equal strings. */
  lemma {:induction false} LevZero(a: string, b: string)
    ensures Lev(a, b) == 0 <==> a == b
    decreases |a| + |b|
  {
    if a == b {
      LevSelf(a);
    } else if |a| > 0 && |b| > 0 && a[0] == b[0] {
      LevZero(a[1..], b[1..]);
      assert a == [a[0]] + a[1..] && b == [b[0]] + b[1..];
    }
  }

  /** The one-pass test decides exactly "Levenshtein distance at most one". */
  lemma {:induction false} WithinOneEditIsLev(a: string, b: string)
    ensures WithinOneEdit(a, b) <==> Lev(a, b) <= 1
    decreases |a|
  {
    if |a| > 0 && |b| > 0 {
      if a[0] == b[0] {
        WithinOneEditIsLev(a[1..], b[1..]);
      } else {
        LevZero(a[1..], b);
        LevZero(a, b[1..]);
        LevZero(a[1..], b[1..]);
      }
    }
  }

  /** Strings within one edit differ in length by at most one. */
  lemma {:induction false} WithinOneEditLengths(a: string, b: string)
    requires WithinOneEdit(a, b)
    ensures -1 <= |a| - |b| <= 1
    decreases |a|
  {
    if |a| > 0 && |b| > 0 && a[0] == b[0] {
      WithinOneEditLengths(a[1..], b[1..]);
    }
  }

  /** A single substitution is within one edit, whatever the words' length: the code has
      no minimum-length guard, so two-letter words such as "με" and "σε" match. */
  lemma {:induction false} SubstitutionWithinOneEdit(u: string, x: char, y: char, v: string)
    ensures WithinOneEdit(u + [x] + v, u + [y] + v)
    decreases |u|
  {
    var a := u + [x] + v;
    var b := u + [y] + v;
    if |u| > 0 {
      SubstitutionWithinOneEdit(u[1..], x, y, v);
      assert a[1..] == u[1..] + [x] + v;
      assert b[1..] == u[1..] + [y] + v;
    } else if x == y {
      LevSelf(a);
      WithinOneEditIsLev(a, a);
    } else {
      assert a[1..] == v == b[1..];
    }
  }

  // ---------------------------------------------------------------------------------------
  // freq_word_in_anki
  // ---------------------------------------------------------------------------------------

  /** The test the code applies to one token: equality, or the one-pass edit test. */
  predicate Close(token: string, target: string) {
    token == target || WithinOneEdit(token, target)
  }

  /** Some token passes the test against `target`. */
  predicate AnyClose(tokens: seq<string>, target: string) {
    exists m :: 0 <= m < |tokens| && Close(tokens[m], target)
  }

  /** Some token of `field` passes the test against `target`. */
  predicate Covers(field: string, target: string) {
    AnyClose(ExtractTokens(field), target)
  }

  /** The inner loop of `freq_word_in_anki`: stops at the first token that passes. */
  method ScanTokens(tokens: seq<string>, target: string) returns (found: bool)
    ensures found <==> AnyClose(tokens, target)
  {
    var j := 0;
    while j < |tokens|
      invariant 0 <= j <= |tokens|
      invariant forall m :: 0 <= m < j ==> !Close(tokens[m], target)
    {
      if tokens[j] == target {
        return true;
      }
      if WithinOneEdit(tokens[j], target) {
        return true;
      }
      j := j + 1;
    }
    return false;
  }

  /** The outer loop of `freq_word_in_anki`, over the token lists of the back fields in
      order: stops at the first list that has a passing token. */
  method ScanFields(fieldTokens: seq<seq<string>>, target: string) returns (found: bool)
    ensures found <==> exists i :: 0 <= i < |fieldTokens| && AnyClose(fieldTokens[i], target)
  {
    var i := 0;
    while i < |fieldTokens|
      invariant 0 <= i <= |fieldTokens|
      invariant forall k :: 0 <= k < i ==> !AnyClose(fieldTokens[k], target)
    {
      var hit := ScanTokens(fieldTokens[i], target);
      if hit {
        return true;
      }
      i := i + 1;
    }
    return false;
  }

  /** The tokens of each field, in order. */
  function TokenLists(fields: seq<string>): (r: seq<seq<string>>)
    ensures |r| == |fields|
    ensures forall i :: 0 <= i < |fields| ==> r[i] == ExtractTokens(fields[i])
  {
    seq(|fields|, i requires 0 <= i < |fields| => ExtractTokens(fields[i]))
  }

  /** `freq_word_in_anki`: the frequency word is found when some token of some back field
      equals its normal form or is one edit away from it. */
  method FreqWordInAnki(freqWord: string, backFields: seq<string>) returns (found: bool)
    ensures found <==> exists i :: 0 <= i < |backFields| && Covers(backFields[i], NormalizeGreek(freqWord))
  {
    var lists := TokenLists(backFields);
    var target := NormalizeGreek(freqWord);
    found := ScanFields(lists, target);
    assert forall i :: 0 <= i < |backFields| ==> (AnyClose(lists[i], target) <==> Covers(backFields[i], target));
  }

  /** What the test means: a token matches when it equals the target or lies at Levenshtein
      distance at most one from it. */
  ghost predicate TokenMatches(token: string, target: string) {
    token == target || Lev(token, target) <= 1
  }

  /** The code's test is exactly the edit-distance criterion, token by token. */
  lemma CloseIsLev(tokens: seq<string>, target: string)
    ensures AnyClose(tokens, target) <==> exists t :: t in tokens && TokenMatches(t, target)
  {
    forall m | 0 <= m < |tokens| ensures Close(tokens[m], target) <==> TokenMatches(tokens[m], target) {
      WithinOneEditIsLev(tokens[m], target);
    }
    if exists t :: t in tokens && TokenMatches(t, target) {
      var t :| t in tokens && TokenMatches(t, target);
      var m :| 0 <= m < |tokens| && tokens[m] == t;
    }
  }

  /** A field that has the normalised word among its tokens always counts as coverage. */
  lemma ExactTokenCovers(field: string, target: string)
    requires target in ExtractTokens(field)
    ensures Covers(field, target)
  {
    var tokens := ExtractTokens(field);
    var m :| 0 <= m < |tokens| && tokens[m] == target;
  }

  /** One dropped or added letter still counts: "σπίτι" is covered by "σπίτια". */
  lemma {:induction false} AppendedLetterMatches(w: string, c: char)
    ensures WithinOneEdit(w + [c], w) && Lev(w + [c], w) <= 1
    decreases |w|
  {
    if |w| > 0 {
      AppendedLetterMatches(w[1..], c);
      assert (w + [c])[1..] == w[1..] + [c];
    }
    WithinOneEditIsLev(w + [c], w);
  }

  /** A back field that normalises to the same separator-free word as the frequency word
      covers it: articles, markup, case and spacing differences do not matter. */
  lemma SameWordCovers(freqWord: string, back: string)
    requires NormalizeGreek(back) == NormalizeGreek(freqWord) != ""
    requires NoneIn(NormalizeGreek(freqWord), Separators)
    ensures Covers(back, NormalizeGreek(freqWord))
  {
    TokensWithoutSeparators(back);
    ExactTokenCovers(back, NormalizeGreek(freqWord));
  }
}

=== FILE: matcher_examples.dfy ===
/** Worked inputs of the normaliser and the tokeniser (matcher.py), each computed through the
    general lemmas of `Normalizer`, `Strings` and `Matcher`. */
module MatcherExamples {
  import opened Unicode
  import opened Strings
  import opened Config
  import opened Normalizer
  import opened Matcher

  /** The empty text normalises to the empty text. */
  lemma NormalizeEmpty()
    ensures NormalizeGreek("") == ""
  {
  }

  // ---------------------------------------------------------------------------------------
  // An article glued to its word is not an article
  // ---------------------------------------------------------------------------------------

  /** "ηπόλη" keeps its leading "η": the article must be followed by whitespace. */
  lemma NormalizeGluedArticle()
    ensures NormalizeGreek("ηπόλη") == "ηπόλη"
  {
    var s := "ηπόλη";
    assert forall k :: 0 <= k < |s| ==>
      !IsSpace(s[k]) && Lower(s[k]) == s[k] && s[k] !in Confusables && s[k] !in CleaningTriggers;
    assert NormalForm(s);
    forall a | a in Articles
      ensures !ArticleAt(a, s)
    {
      ArticlesClean();
    }
    NormalizeFixesClean(s);
  }

  /** "η η πόλη" loses one article per call: "η πόλη", then "πόλη". */
  lemma DoubledArticle()
    ensures NormalizeGreek("η η πόλη") == "η πόλη"
    ensures NormalizeGreek(NormalizeGreek("η η πόλη")) == "πόλη"
  {
    var w := "πόλη";
    assert forall k :: 0 <= k < |w| ==>
      !IsSpace(w[k]) && Lower(w[k]) == w[k] && w[k] !in Confusables && w[k] !in CleaningTriggers;
    assert NormalForm(w);
    assert "η η πόλη" == "η" + " " + ("η" + " " + w);
    assert "η πόλη" == "η" + " " + w;
    NormalizeNotIdempotent("η", w);
  }

  lemma CleanWord()
    ensures var w := "σπίτι"; |w| > 0 && NormalForm(w) && NoneIn(w, CleaningTriggers)
  {
    var w := "σπίτι";
    assert forall k :: 0 <= k < |w| ==>
      !IsSpace(w[k]) && Lower(w[k]) == w[k] && w[k] !in Confusables && w[k] !in CleaningTriggers;
  }

  lemma LatinSpiti()
    ensures NormalizeGreek("τo σπίτι") == "σπίτι"
  {
    CleanWord();
    assert "τo σπίτι" == "τo " + "σπίτι";
    NormalizeLatinArticle("σπίτι");
  }

  lemma GreekSpiti()
    ensures NormalizeGreek("το σπίτι") == "σπίτι"
  {
    CleanWord();
    assert "το σπίτι" == "το" + " " + "σπίτι";
    NormalizeDropsArticle("το", "σπίτι");
  }

  /** "τo σπίτι" with a Latin o normalises like "το σπίτι", to "σπίτι". */
  lemma LatinArticleExample()
    ensures NormalizeGreek("τo σπίτι") == NormalizeGreek("το σπίτι") == "σπίτι"
  {
    LatinSpiti();
    GreekSpiti();
  }

  // ---------------------------------------------------------------------------------------
  // "<div>Η Πόλη</div>" normalises to "πόλη"
  // ---------------------------------------------------------------------------------------

  lemma StripDivTags()
    ensures StripTags("<div>Η Πόλη</div>") == "Η Πόλη"
  {
    calc {
      StripTags("<div>Η Πόλη</div>");
      { assert "<div>Η Πόλη</div>" == "<" + "div" + ">" + "Η Πόλη</div>";
        StripTagsTagThen("div", "Η Πόλη</div>"); }
      StripTags("Η Πόλη</div>");
      { assert "Η Πόλη</div>" == "Η Πόλη" + "</div>";
        StripTagsPlainThen("Η Πόλη", "</div>"); }
      "Η Πόλη" + StripTags("</div>");
      { assert "</div>" == "<" + "/div" + ">" + "";
        StripTagsTagThen("/div", ""); }
      "Η Πόλη" + StripTags("");
      "Η Πόλη";
    }
  }

  lemma DivPlain()
    ensures var s := "<div>Η Πόλη</div>";
      NoneIn(s, Confusables) && forall i :: 0 <= i < |s| ==> s[i] != '\U{301}' && s[i] != '\U{308}'
  {
  }

  /** Steps 1 and 2 leave the field alone: no confusable, no combining mark. */
  lemma DivUntouched()
    ensures Nfc(ReplaceConfusables("<div>Η Πόλη</div>")) == "<div>Η Πόλη</div>"
  {
    DivPlain();
    ConfusableFree("<div>Η Πόλη</div>");
    NfcNoMarks("<div>Η Πόλη</div>");
  }

  lemma SpacedWordClean()
    ensures Trim(ReplaceNbsp("Η Πόλη")) == "Η Πόλη"
  {
    ReplaceAbsentHead("Η Πόλη", "&nbsp;", " ");
    ReplaceAbsentHead("Η Πόλη", "\U{a0}", " ");
    assert Trimmed("Η Πόλη");
  }

  lemma CleanedDiv()
    ensures Cleaned("<div>Η Πόλη</div>") == "Η Πόλη"
  {
    DivUntouched();
    StripDivTags();
    SpacedWordClean();
  }

  /** The capital "Η" matches the article "η" case-insensitively. */
  lemma StripCapitalArticle()
    ensures StripArticle("Η Πόλη") == "Πόλη"
  {
    var t := "Η Πόλη";
    assert ArticleAt("η", t);
    assert t[1..] == " " + "Πόλη";
    LStripOneSpace("Πόλη");
  }

  lemma CollapsedWord()
    ensures Collapsed("Πόλη")
  {
  }

  lemma NormalizeDivExample()
    ensures NormalizeGreek("<div>Η Πόλη</div>") == "πόλη"
  {
    var w := "Πόλη";
    calc {
      NormalizeGreek("<div>Η Πόλη</div>");
      Trim(LowerString(CollapseWhitespace(StripArticle(Cleaned("<div>Η Πόλη</div>")))));
      { CleanedDiv(); StripCapitalArticle(); }
      Trim(LowerString(CollapseWhitespace(w)));
      { CollapsedWord(); CollapseOneWord(w); }
      Trim(LowerString(w));
      { assert LowerString(w) == "πόλη"; }
      Trim("πόλη");
      { assert Trimmed("πόλη"); }
      "πόλη";
    }
  }

  // ---------------------------------------------------------------------------------------
  // "ο σκύλος, η γάτα" yields the tokens "σκύλος" and "η γάτα"
  // ---------------------------------------------------------------------------------------

  lemma PhraseCollapsed()
    ensures Collapsed("σκύλος, η γάτα")
  {
  }

  lemma PhraseLower()
    ensures LowerCased("σκύλος, η γάτα")
  {
  }

  lemma PhraseAvoids()
    ensures NoneIn("σκύλος, η γάτα", Confusables + CleaningTriggers)
  {
  }

  lemma PhraseNormal()
    ensures NormalForm("σκύλος, η γάτα") && NoneIn("σκύλος, η γάτα", CleaningTriggers)
  {
    PhraseCollapsed();
    PhraseLower();
    PhraseAvoids();
  }

  lemma PhrasePieces()
    ensures NoneIn("σκύλος", Separators) && NoneIn(" η γάτα", Separators)
    ensures Trimmed("σκύλος") && Trimmed("η γάτα")
  {
  }

  /** Only the article in front of the whole field is removed. */
  lemma PhraseNormalizes()
    ensures NormalizeGreek("ο σκύλος, η γάτα") == "σκύλος, η γάτα"
  {
    PhraseNormal();
    assert "ο σκύλος, η γάτα" == "ο" + " " + "σκύλος, η γάτα";
    NormalizeDropsArticle("ο", "σκύλος, η γάτα");
  }

  lemma PhraseSplit()
    ensures SplitAny("σκύλος, η γάτα", Separators) == ["σκύλος", " η γάτα"]
  {
    PhrasePieces();
    assert "σκύλος, η γάτα" == "σκύλος" + [','] + " η γάτα";
    SplitTwo("σκύλος", ',', " η γάτα", Separators);
  }

  lemma PhraseKeep()
    ensures KeepStripped(["σκύλος", " η γάτα"]) == ["σκύλος", "η γάτα"]
  {
    PhrasePieces();
    assert " η γάτα" == " " + "η γάτα";
    KeepTwo("σκύλος", "η γάτα");
  }

  lemma TokensExample()
    ensures ExtractTokens("ο σκύλος, η γάτα") == ["σκύλος", "η γάτα"]
  {
    PhraseNormalizes();
    PhraseSplit();
    PhraseKeep();
  }

  // ---------------------------------------------------------------------------------------
  // Sigma: final form when lower-casing, one class when matching articles
  // ---------------------------------------------------------------------------------------

  /** A capital sigma ending a word lower-cases to final sigma. */
  lemma WordEndSigma()
    ensures LowerString("ΤΟΥΣ") == "τους"
  {
    var s := "ΤΟΥΣ";
    assert FinalSigmaAt(s, 3);
  }

  /** A capital sigma followed by a letter lower-cases to the ordinary small sigma. */
  lemma WordStartSigma()
    ensures LowerString("ΣΑΣ") == "σας"
  {
    var s := "ΣΑΣ";
    assert !FinalSigmaAt(s, 0) && FinalSigmaAt(s, 2);
  }

  /** The capital article "ΤΟΥΣ" matches the article "τους". */
  lemma StripCapitalSigmaArticle()
    ensures StripArticle("ΤΟΥΣ φίλους") == "φίλους"
  {
    var t := "ΤΟΥΣ φίλους";
    assert ArticleAt("τους", t);
    assert t[4..] == " " + "φίλους";
    LStripOneSpace("φίλους");
  }

  /** "τουσ", spelled with a small non-final sigma, matches the article "τους" too. */
  lemma StripSmallSigmaArticle()
    ensures StripArticle("τουσ φίλους") == "φίλους"
  {
    var t := "τουσ φίλους";
    assert ArticleAt("τους", t);
    assert t[4..] == " " + "φίλους";
    LStripOneSpace("φίλους");
  }
}

=== FILE: normalizer.dfy ===
/** `normalize_greek` (greek_anki/matcher.py): the canonical form under which a frequency-list
    lemma and a deck field are compared, and the key of the card cache. */
module Normalizer {
  import opened Wrappers
  import opened Unicode
  import opened Strings
  import opened Config

  // ---------------------------------------------------------------------------------------
  // Step 1: confusable characters
  // ---------------------------------------------------------------------------------------

  /** Characters the frequency source uses in place of Greek letters: MICRO SIGN for mu and
      Latin o/O for omicron. */
  const Confusables: set<char> := {'\U{b5}', 'o', 'O'}

  /** The `_CONFUSABLES` table: MICRO SIGN to GREEK SMALL MU, LATIN SMALL O to GREEK SMALL
      OMICRON, LATIN CAPITAL O to GREEK CAPITAL OMICRON. */
  function Unconfuse(c: char): char
  {
    if c == '\U{b5}' then '\U{3bc}'
    else if c == 'o' then '\U{3bf}'
    else if c == 'O' then '\U{39f}'
    else c
  }

  /** The three `str.replace` calls. Each replaces one character by one character that no
      later call looks for, so together they rewrite each character independently. */
  function ReplaceConfusables(s: string): (r: string)
    ensures |r| == |s|
    ensures forall i :: 0 <= i < |s| ==> r[i] == Unconfuse(s[i])
    ensures NoneIn(r, Confusables)
  {
    if |s| == 0 then "" else [Unconfuse(s[0])] + ReplaceConfusables(s[1..])
  }

  /** Rewriting confusables twice is rewriting them once. */
  lemma ReplaceConfusablesIdempotent(s: string)
    ensures ReplaceConfusables(ReplaceConfusables(s)) == ReplaceConfusables(s)
  {
  }

  // ---------------------------------------------------------------------------------------
  // Step 3: markup tags, the regular expression `<[^>]+>`
  // ---------------------------------------------------------------------------------------

  /** A tag starts at `i`: a `<`, then at least one character other than `>`, then a `>`.
      Because `[^>]+` cannot cross a `>`, such a match exists exactly when the next character
      is not `>` and some `>` follows. */
  predicate TagAt(s: string, i: nat)
    requires i < |s|
  {
    s[i] == '<' && i + 1 < |s| && s[i + 1] != '>' && '>' in s[i + 2..]
  }

  predicate NoTag(s: string) {
    forall i :: 0 <= i < |s| ==> !TagAt(s, i)
  }

  /** Position of the first occurrence of `c`. */
  function IndexOf(s: string, c: char): (k: nat)
    requires c in s
    ensures k < |s| && s[k] == c
    ensures forall j :: 0 <= j < k ==> s[j] != c
  {
    if s[0] == c then 0 else 1 + IndexOf(s[1..], c)
  }

  /** `re.sub(r"<[^>]+>", "", s)`: scanning left to right, each tag is removed up to and
      including the first `>` after its `<`. */
  function StripTags(s: string): (r: string)
    ensures |r| <= |s|
    decreases |s|
  {
    if |s| == 0 then ""
    else if TagAt(s, 0) then StripTags(s[IndexOf(s, '>') + 1..])
    else [s[0]] + StripTags(s[1..])
  }

  /** Removing tags only deletes characters. */
  lemma {:induction false} StripTagsAvoids(s: string, bad: set<char>)
    requires NoneIn(s, bad)
    ensures NoneIn(StripTags(s), bad)
    decreases |s|
  {
    if |s| > 0 {
      if TagAt(s, 0) {
        StripTagsAvoids(s[IndexOf(s, '>') + 1..], bad);
      } else {
        StripTagsAvoids(s[1..], bad);
      }
    }
  }

  lemma TagAtShift(c: char, t: string, i: nat)
    requires i < |t|
    ensures TagAt([c] + t, i + 1) <==> TagAt(t, i)
  {
    var u := [c] + t;
    assert u[i + 1] == t[i];
    if i + 1 < |t| {
      assert u[i + 2] == t[i + 1];
      assert u[i + 3..] == t[i + 2..];
    }
  }

  /** No tag survives: every `<` left in the result is either directly followed by `>` or has
      no `>` anywhere after it. */
  lemma {:induction false} StripTagsLeavesNoTag(s: string)
    ensures NoTag(StripTags(s))
    decreases |s|
  {
    if |s| > 0 {
      if TagAt(s, 0) {
        StripTagsLeavesNoTag(s[IndexOf(s, '>') + 1..]);
      } else {
        var t := StripTags(s[1..]);
        StripTagsLeavesNoTag(s[1..]);
        var r := [s[0]] + t;
        assert StripTags(s) == r;
        forall i | 1 <= i < |r| ensures !TagAt(r, i) {
          TagAtShift(s[0], t, i - 1);
        }
        if s[0] == '<' && |t| > 0 {
          if s[1] == '>' {
            assert !TagAt(s[1..], 0);
            assert t[0] == '>';
          } else {
            assert '>' !in s[2..];
            assert NoneIn(s[1..], {'>'}) by {
              forall k | 0 <= k < |s[1..]| ensures s[1..][k] != '>' {
                if k > 0 { assert s[1..][k] == s[2..][k - 1]; }
              }
            }
            StripTagsAvoids(s[1..], {'>'});
            assert '>' !in r[2..] by {
              forall k | 0 <= k < |r[2..]| ensures r[2..][k] != '>' {
                assert r[2..][k] == t[k + 1];
              }
            }
          }
        }
      }
    }
  }

  // ---------------------------------------------------------------------------------------
  // Step 4: non-breaking spaces
  // ---------------------------------------------------------------------------------------

  /** `.replace("&nbsp;", " ").replace("\xa0", " ")`. */
  function ReplaceNbsp(s: string): (r: string)
    ensures '\U{a0}' !in r
  {
    var t := ReplaceAll(s, "&nbsp;", " ");
    ReplaceCharRemoves(t, '\U{a0}', " ");
    ReplaceAll(t, "\U{a0}", " ")
  }

  lemma ReplaceNbspAvoids(s: string, bad: set<char>)
    requires NoneIn(s, bad) && ' ' !in bad
    ensures NoneIn(ReplaceNbsp(s), bad)
  {
    ReplaceAvoids(s, "&nbsp;", " ", bad);
    ReplaceAvoids(ReplaceAll(s, "&nbsp;", " "), "\U{a0}", " ", bad);
  }

  // ---------------------------------------------------------------------------------------
  // Step 6: one leading article, the regular expression `^(alternatives)\s+` with IGNORECASE
  // ---------------------------------------------------------------------------------------

  /** The alternatives in the order the source builds them: longest first. Among articles of
      equal length the order does not matter (`ArticleUnique`). */
  const ArticleAlternation: seq<string> := ["τους", "τις", "την", "τον", "το", "οι", "τα", "ο", "η"]

  lemma ArticleAlternationIsArticles()
    ensures forall a :: a in ArticleAlternation <==> a in Articles
  {
  }

  /** `t` starts with `a`, compared as `re.IGNORECASE` compares characters. */
  predicate CiPrefix(a: string, t: string) {
    |a| <= |t| && forall k :: 0 <= k < |a| ==> Fold(t[k]) == Fold(a[k])
  }

  /** The article alternative `a` matches at the start of `t`, followed by whitespace. */
  predicate ArticleAt(a: string, t: string) {
    CiPrefix(a, t) && |a| < |t| && IsSpace(t[|a|])
  }

  /** A lower-case word without whitespace, which every article is, spelled with the
      representative of each case-insensitive class except that a sigma is written final. */
  predicate LowerWord(a: string) {
    forall k :: 0 <= k < |a| ==>
      && !IsSpace(a[k]) && Lower(a[k]) == a[k]
      && (a[k] == FinalSigma || (Fold(a[k]) == a[k] && a[k] != SmallSigma))
  }

  /** Two letters spelled as in a `LowerWord` are equal when `re.IGNORECASE` equates them. */
  lemma FoldSpellingUnique(x: char, y: char)
    requires x == FinalSigma || (Fold(x) == x && x != SmallSigma)
    requires y == FinalSigma || (Fold(y) == y && y != SmallSigma)
    requires Fold(x) == Fold(y)
    ensures x == y
  {
  }

  lemma ArticlesAreLowerWords()
    ensures forall a :: a in Articles ==> LowerWord(a)
  {
  }

  /** A lower-case word matching at the start of `t` spans exactly the first word of `t`. */
  lemma ArticleLength(a: string, t: string)
    requires LowerWord(a) && ArticleAt(a, t)
    ensures WordLength(t) == |a|
  {
    assert NoSpace(t[..|a|]) by {
      forall k | 0 <= k < |a| ensures !IsSpace(t[..|a|][k]) {
        assert Fold(t[k]) == Fold(a[k]);
      }
    }
    assert t == t[..|a|] + t[|a|..];
    WordLengthOfWord(t[..|a|], t[|a|..]);
  }

  /** At most one lower-case word can match at the start of a text: both span the first
      word of the text and agree with it letter by letter. */
  lemma ArticleUnique(a: string, b: string, t: string)
    requires LowerWord(a) && LowerWord(b)
    requires ArticleAt(a, t) && ArticleAt(b, t)
    ensures a == b
  {
    ArticleLength(a, t);
    ArticleLength(b, t);
    forall k | 0 <= k < |a| ensures a[k] == b[k] {
      FoldSpellingUnique(a[k], b[k]);
    }
  }

  /** The first alternative that matches, as the regular expression engine tries them. */
  function FindArticle(t: string, alts: seq<string>): (r: Option<string>)
    ensures r.Some? ==> r.value in alts && ArticleAt(r.value, t)
    ensures r.None? ==> forall a :: a in alts ==> !ArticleAt(a, t)
  {
    if |alts| == 0 then None
    else if ArticleAt(alts[0], t) then Some(alts[0])
    else FindArticle(t, alts[1..])
  }

  /** `_get_article_re().sub("", t)`: when some article followed by whitespace begins `t`,
      that article and the whole whitespace run after it are removed; otherwise `t` is
      returned unchanged. The anchor `^` makes this happen at most once. */
  function StripArticle(t: string): (r: string)
    ensures |r| <= |t| && r == t[|t| - |r|..]
    ensures forall a :: a in Articles && ArticleAt(a, t) ==> r == LStrip(t[|a|..])
    ensures (forall a :: a in Articles ==> !ArticleAt(a, t)) ==> r == t
  {
    match FindArticle(t, ArticleAlternation)
    case None => t
    case Some(a) =>
      ArticlesAreLowerWords();
      assert forall b :: b in Articles && ArticleAt(b, t) ==> b == a by {
        forall b | b in Articles && ArticleAt(b, t) ensures b == a {
          ArticleUnique(a, b, t);
        }
      }
      LStrip(t[|a|..])
  }

  // ---------------------------------------------------------------------------------------
  // The pipeline
  // ---------------------------------------------------------------------------------------

  /** Every character is its own lower case. */
  predicate LowerCased(s: string) {
    forall i :: 0 <= i < |s| ==> Lower(s[i]) == s[i]
  }

  /** What `normalize_greek` guarantees of its result: whitespace collapsed to single plain
      spaces and trimmed, lower-cased, and free of the confusable characters. */
  predicate NormalForm(s: string) {
    Collapsed(s) && LowerCased(s) && NoneIn(s, Confusables)
  }

  /** Steps 1 to 5: confusables, NFC, tags, non-breaking spaces, trim. */
  function Cleaned(text: string): string {
    Trim(ReplaceNbsp(StripTags(Nfc(ReplaceConfusables(text)))))
  }

  /** `normalize_greek`: the cleaned text loses one leading article, then its whitespace is
      collapsed, it is lower-cased and trimmed. */
  function NormalizeGreek(text: string): (r: string)
    ensures NormalForm(r)
  {
    var s7 := CollapseWhitespace(StripArticle(Cleaned(text)));
    var s8 := LowerString(s7);
    LowerCollapsed(s7);
    LowerStringLowerCased(s7);
    ConfusablesPreserved();
    CleanedAvoids(text, Confusables);
    StripArticleAvoids(Cleaned(text), Confusables);
    CollapseAvoids(StripArticle(Cleaned(text)), Confusables);
    LowerStringAvoids(s7, Confusables);
    Trim(s8)
  }

  lemma LowerCollapsed(s: string)
    requires Collapsed(s)
    ensures Collapsed(LowerString(s))
  {
    var l := LowerString(s);
    forall i | 0 <= i < |l| && IsSpace(l[i])
      ensures l[i] == ' ' && i + 1 < |l| && !IsSpace(l[i + 1])
    {
      assert IsSpace(s[i]);
    }
  }

  lemma LowerStringLowerCased(s: string)
    ensures LowerCased(LowerString(s))
  {
    var l := LowerString(s);
    forall i | 0 <= i < |l| ensures Lower(l[i]) == l[i] {
      LowerIdempotent(s[i]);
    }
  }

  /** The conditions under which a set of characters that is absent after step 1 stays absent
      through the rest of the pipeline: no step introduces a plain space into it, composition
      only creates precomposed Greek letters, and lower-casing cannot produce one of its
      members from a character outside it. */
  predicate PreservedAbsence(bad: set<char>) {
    && ' ' !in bad
    && (forall c :: IsPrecomposedGreek(c) ==> c !in bad)
    && (forall c :: Lower(c) in bad ==> c in bad)
    && (FinalSigma in bad ==> CapitalSigma in bad)
  }

  lemma ConfusablesPreserved()
    ensures PreservedAbsence(Confusables)
  {
  }

  lemma NfcAvoids(s: string, bad: set<char>)
    requires NoneIn(s, bad)
    requires forall c :: IsPrecomposedGreek(c) ==> c !in bad
    ensures NoneIn(Nfc(s), bad)
  {
    var r := Nfc(s);
    forall i | 0 <= i < |r| ensures r[i] !in bad {
      if r[i] in s {
        var j :| 0 <= j < |s| && s[j] == r[i];
      }
    }
  }

  lemma CleanedAvoids(text: string, bad: set<char>)
    requires PreservedAbsence(bad)
    requires NoneIn(ReplaceConfusables(text), bad)
    ensures NoneIn(Cleaned(text), bad)
  {
    var s2 := Nfc(ReplaceConfusables(text));
    NfcAvoids(ReplaceConfusables(text), bad);
    StripTagsAvoids(s2, bad);
    ReplaceNbspAvoids(StripTags(s2), bad);
    TrimAvoids(ReplaceNbsp(StripTags(s2)), bad);
  }

  lemma StripArticleAvoids(s: string, bad: set<char>)
    requires NoneIn(s, bad)
    ensures NoneIn(StripArticle(s), bad)
  {
    SuffixAvoids(s, StripArticle(s), bad);
  }

  lemma LowerStringAvoids(s: string, bad: set<char>)
    requires NoneIn(s, bad)
    requires forall c :: Lower(c) in bad ==> c in bad
    requires FinalSigma in bad ==> CapitalSigma in bad
    ensures NoneIn(LowerString(s), bad)
  {
  }

  /** The normal form keeps out every set of characters that step 1 removes or never
      produces and that the later steps cannot create. */
  lemma NormalizeAvoids(text: string, bad: set<char>)
    requires PreservedAbsence(bad)
    requires NoneIn(ReplaceConfusables(text), bad)
    ensures NoneIn(NormalizeGreek(text), bad)
  {
    var s6 := StripArticle(Cleaned(text));
    CleanedAvoids(text, bad);
    StripArticleAvoids(Cleaned(text), bad);
    CollapseAvoids(s6, bad);
    LowerStringAvoids(CollapseWhitespace(s6), bad);
    TrimAvoids(LowerString(CollapseWhitespace(s6)), bad);
  }

  /** Trimming a normal form changes nothing. */
  lemma NormalFormTrimmed(s: string)
    requires NormalForm(s)
    ensures Trim(s) == s
  {
  }

  /** Text without `<` in front of some text is copied, and tag removal goes on after it. */
  lemma {:induction false} StripTagsPlainThen(p: string, t: string)
    requires '<' !in p
    ensures StripTags(p + t) == p + StripTags(t)
  {
    if |p| == 0 {
      assert p + t == t;
    } else {
      var s := p + t;
      assert s[0] == p[0] && !TagAt(s, 0);
      assert s[1..] == p[1..] + t;
      StripTagsPlainThen(p[1..], t);
      assert [p[0]] + (p[1..] + StripTags(t)) == p + StripTags(t);
    }
  }

  /** A tag at the front is removed entirely. */
  lemma StripTagsTagThen(x: string, t: string)
    requires |x| > 0 && '>' !in x
    ensures StripTags("<" + x + ">" + t) == StripTags(t)
  {
    var s := "<" + x + ">" + t;
    var n := |x| + 1;
    assert s[n] == '>';
    assert forall j :: 0 <= j < n ==> s[j] != '>' by {
      forall j | 0 <= j < n ensures s[j] != '>' {
        if j > 0 { assert s[j] == x[j - 1]; }
      }
    }
    assert s[2..][n - 2] == '>';
    assert TagAt(s, 0);
    assert IndexOf(s, '>') == n;
    assert s[n + 1..] == t;
  }

  /** Text without `<` passes the tag stripper unchanged. */
  lemma {:induction false} StripTagsNoAngle(s: string)
    requires '<' !in s
    ensures StripTags(s) == s
    decreases |s|
  {
    if |s| > 0 {
      assert s[1..] == s[1..];
      assert '<' !in s[1..];
      StripTagsNoAngle(s[1..]);
      assert [s[0]] + s[1..] == s;
    }
  }

  /** Characters some cleaning step acts on: the tag opener, the entity opener and the two
      combining accents. */
  const CleaningTriggers: set<char> := {'<', '&', '\U{301}', '\U{308}'}

  /** Normal-form text without cleaning triggers passes steps 1 to 5 unchanged. */
  lemma CleanedFixes(s: string)
    requires NormalForm(s) && NoneIn(s, CleaningTriggers)
    ensures Cleaned(s) == s
  {
    assert ReplaceConfusables(s) == s;
    NfcNoMarks(s);
    StripTagsNoAngle(s);
    ReplaceAbsentHead(s, "&nbsp;", " ");
    assert '\U{a0}' !in s by {
      forall i | 0 <= i < |s| ensures s[i] != '\U{a0}' {
        if IsSpace(s[i]) { assert s[i] == ' '; }
      }
    }
    ReplaceAbsentHead(s, "\U{a0}", " ");
  }

  /** A word already in normal form, without an article in front and without cleaning
      triggers, is its own normalisation. */
  lemma NormalizeFixesClean(s: string)
    requires NormalForm(s) && NoneIn(s, CleaningTriggers)
    requires forall a :: a in Articles ==> !ArticleAt(a, s)
    ensures NormalizeGreek(s) == s
  {
    CleanedFixes(s);
    assert StripArticle(Cleaned(s)) == s;
    CollapseFixesCollapsed(s);
    LowerStringFixes(s);
    NormalFormTrimmed(s);
  }

  lemma ArticlesClean()
    ensures forall a :: a in Articles ==> |a| > 0 && LowerWord(a) && NoneIn(a, Confusables + CleaningTriggers)
  {
    ArticlesAreLowerWords();
  }

  /** An article, a space and a clean normal-form text make a clean normal-form text. */
  lemma ArticlePhraseClean(a: string, w: string)
    requires a in Articles
    requires |w| > 0 && NormalForm(w) && NoneIn(w, CleaningTriggers)
    ensures NormalForm(a + " " + w) && NoneIn(a + " " + w, CleaningTriggers)
  {
    ArticlesClean();
    var t := a + " " + w;
    assert forall k :: 0 <= k < |a| ==> t[k] == a[k];
    assert forall k :: |a| < k < |t| ==> t[k] == w[k - |a| - 1];
    assert t[|a|] == ' ';
    forall i | 0 <= i < |t| && IsSpace(t[i])
      ensures t[i] == ' ' && i + 1 < |t| && !IsSpace(t[i + 1])
    {
    }
    assert t[|t| - 1] == w[|w| - 1];
  }

  lemma SpacedParts(a: string, w: string)
    ensures (a + " " + w)[|a|..] == " " + w
    ensures forall k :: 0 <= k < |a| ==> (a + " " + w)[k] == a[k]
  {
  }

  lemma LowerStringFixes(s: string)
    requires LowerCased(s)
    ensures LowerString(s) == s
  {
  }

  /** One article and a space in front of a clean normal-form text are removed, and only
      that: the text after them is kept as it is, even when it starts with an article. */
  lemma NormalizeDropsArticle(a: string, w: string)
    requires a in Articles
    requires |w| > 0 && NormalForm(w) && NoneIn(w, CleaningTriggers)
    ensures NormalizeGreek(a + " " + w) == w
  {
    ArticlesClean();
    var t := a + " " + w;
    ArticlePhraseClean(a, w);
    CleanedFixes(t);
    SpacedParts(a, w);
    assert ArticleAt(a, t);
    LStripOneSpace(w);
    assert StripArticle(t) == w;
    CollapseFixesCollapsed(w);
    LowerStringFixes(w);
  }

  /** `normalize_greek` is not idempotent: a doubled article loses one layer per call, so
      normalising "η η πόλη" gives "η πόλη" and normalising that gives "πόλη". */
  lemma NormalizeNotIdempotent(a: string, w: string)
    requires a in Articles
    requires |w| > 0 && NormalForm(w) && NoneIn(w, CleaningTriggers)
    ensures NormalizeGreek(a + " " + (a + " " + w)) == a + " " + w
    ensures NormalizeGreek(NormalizeGreek(a + " " + (a + " " + w))) == w != a + " " + w
  {
    NormalizeDropsArticle(a, w);
    ArticlePhraseClean(a, w);
    NormalizeDropsArticle(a, a + " " + w);
  }

  /** A Latin `o` in the article "τo" is read as the Greek omicron, so the article is
      removed just like "το". */
  lemma NormalizeLatinArticle(w: string)
    requires |w| > 0 && NormalForm(w) && NoneIn(w, CleaningTriggers)
    ensures NormalizeGreek("τo " + w) == w
  {
    LatinArticleUnconfused(w);
    NormalizeIgnoresConfusables("τo " + w);
    NormalizeDropsArticle("το", w);
  }

  lemma LatinArticleUnconfused(w: string)
    requires NoneIn(w, Confusables)
    ensures ReplaceConfusables("τo " + w) == "το" + " " + w
  {
    ReplaceConfusablesAppend("τo ", w);
    LatinArticleRewritten();
    ConfusableFree(w);
    assert "το" + " " + w == "το " + w;
  }

  lemma LatinArticleRewritten()
    ensures ReplaceConfusables("τo ") == "το "
  {
    var r := ReplaceConfusables("τo ");
    assert r[0] == Unconfuse('τ') == 'τ';
    assert r[1] == Unconfuse('o') == 'ο';
    assert r[2] == Unconfuse(' ') == ' ';
    ThreeItems(r);
  }

  lemma ConfusableFree(w: string)
    requires NoneIn(w, Confusables)
    ensures ReplaceConfusables(w) == w
  {
  }

  lemma ReplaceConfusablesAppend(x: string, y: string)
    ensures ReplaceConfusables(x + y) == ReplaceConfusables(x) + ReplaceConfusables(y)
  {
    var l := ReplaceConfusables(x + y);
    var r := ReplaceConfusables(x) + ReplaceConfusables(y);
    assert forall i :: 0 <= i < |l| ==> l[i] == r[i];
  }

  /** Normalisation does not see the confusable characters. */
  lemma NormalizeIgnoresConfusables(s: string)
    ensures NormalizeGreek(ReplaceConfusables(s)) == NormalizeGreek(s)
  {
    ReplaceConfusablesIdempotent(s);
  }
}

=== FILE: strings.dfy ===
/** Python string primitives the program relies on: `strip`, `split`, `split(sep)`,
    `str.join`, `str.replace` and `startswith`, each with the property that makes it
    usable in proofs. */
module Strings {
  import opened Unicode

  /** No character of `s` is in `cs`. */
  predicate NoneIn(s: string, cs: set<char>) {
    forall i :: 0 <= i < |s| ==> s[i] !in cs
  }

  predicate NoSpace(s: string) {
    forall i :: 0 <= i < |s| ==> !IsSpace(s[i])
  }

  /** `s` has no leading and no trailing whitespace. */
  predicate Trimmed(s: string) {
    |s| == 0 || (!IsSpace(s[0]) && !IsSpace(s[|s| - 1]))
  }

  predicate StartsWith(s: string, prefix: string) {
    |prefix| <= |s| && s[..|prefix|] == prefix
  }

  /** `s.lstrip()`: the result is a suffix of `s`, everything dropped is whitespace. */
  function LStrip(s: string): (r: string)
    ensures |r| <= |s| && r == s[|s| - |r|..]
    ensures |r| == 0 || !IsSpace(r[0])
    ensures forall k :: 0 <= k < |s| - |r| ==> IsSpace(s[k])
  {
    if |s| == 0 || !IsSpace(s[0]) then s else LStrip(s[1..])
  }

  /** `s.rstrip()`: the result is a prefix of `s`, everything dropped is whitespace. */
  function RStrip(s: string): (r: string)
    ensures |r| <= |s| && r == s[..|r|]
    ensures |r| == 0 || !IsSpace(r[|r| - 1])
    ensures forall k :: |r| <= k < |s| ==> IsSpace(s[k])
  {
    if |s| == 0 || !IsSpace(s[|s| - 1]) then s else RStrip(s[..|s| - 1])
  }

  /** `r` is the slice of `s` that starts at `d`, and everything of `s` before and after it
      is whitespace. */
  predicate StripSlice(s: string, r: string, d: int) {
    && 0 <= d && d + |r| <= |s|
    && (forall k :: 0 <= k < |r| ==> r[k] == s[d + k])
    && (forall j :: 0 <= j < d ==> IsSpace(s[j]))
    && (forall j :: d + |r| <= j < |s| ==> IsSpace(s[j]))
  }

  /** `s.strip()`; `TrimSlice` says which slice of `s` it is. */
  function Trim(s: string): (r: string)
    ensures Trimmed(r)
    ensures |r| <= |s|
    ensures forall i :: 0 <= i < |r| ==> r[i] in s
    ensures Trimmed(s) ==> r == s
    ensures NoSpace(s) ==> r == s
  {
    TrimTrimmed(s);
    TrimContained(s);
    TrimOfTrimmed(s);
    RStrip(LStrip(s))
  }

  /** What `strip()` keeps: the slice of `s` that starts where `lstrip` stops, with only
      whitespace before and after it. With `Trimmed` this pins the result down. */
  lemma TrimSlice(s: string)
    ensures StripSlice(s, Trim(s), |s| - |LStrip(s)|)
  {
    StripBothSlice(s);
  }

  lemma StripBothSlice(s: string)
    ensures StripSlice(s, RStrip(LStrip(s)), |s| - |LStrip(s)|)
  {
    var l := LStrip(s);
    SliceOfSuffix(s, l, RStrip(l));
  }

  /** A prefix of a suffix is a slice; whitespace cut from both ends stays outside it. */
  lemma SliceOfSuffix(s: string, l: string, r: string)
    requires |l| <= |s| && l == s[|s| - |l|..]
    requires forall j :: 0 <= j < |s| - |l| ==> IsSpace(s[j])
    requires |r| <= |l| && r == l[..|r|]
    requires forall k :: |r| <= k < |l| ==> IsSpace(l[k])
    ensures StripSlice(s, r, |s| - |l|)
  {
    var d := |s| - |l|;
    forall k | 0 <= k < |r| ensures r[k] == s[d + k] {
      assert r[k] == l[k];
    }
    forall j | d + |r| <= j < |s| ensures IsSpace(s[j]) {
      assert s[j] == l[j - d];
    }
  }

  /** One space in front of text that starts with a non-space is all `lstrip` removes. */
  lemma LStripOneSpace(w: string)
    requires |w| == 0 || !IsSpace(w[0])
    ensures LStrip(" " + w) == w
  {
    assert (" " + w)[1..] == w;
  }

  /** Stripping a space put in front of trimmed text gives the text back. */
  lemma TrimSpaced(b: string)
    requires |b| > 0 && Trimmed(b)
    ensures Trim(" " + b) == b
  {
    LStripOneSpace(b);
    TrimOfTrimmed(b);
  }

  lemma TrimTrimmed(s: string)
    ensures Trimmed(RStrip(LStrip(s))) && |RStrip(LStrip(s))| <= |s|
  {
    var l := LStrip(s);
    var r := RStrip(l);
    if |r| > 0 {
      assert r[0] == l[0];
    }
  }

  /** Trimming keeps a string free of the characters it was free of. */
  lemma TrimAvoids(s: string, bad: set<char>)
    requires NoneIn(s, bad)
    ensures NoneIn(Trim(s), bad)
  {
    var t := Trim(s);
    forall k | 0 <= k < |t|
      ensures t[k] !in bad
    {
      assert t[k] in s;
      var j :| 0 <= j < |s| && s[j] == t[k];
    }
  }

  lemma TrimContained(s: string)
    ensures forall i :: 0 <= i < |RStrip(LStrip(s))| ==> RStrip(LStrip(s))[i] in s
  {
    var l := LStrip(s);
    var r := RStrip(l);
    var d := |s| - |l|;
    assert r == s[d..][..|r|];
    SliceIn(s, d, |r|);
  }

  lemma SliceIn(s: string, d: nat, n: nat)
    requires d + n <= |s|
    ensures forall i :: 0 <= i < n ==> s[d..][..n][i] in s
  {
    forall i | 0 <= i < n
      ensures s[d..][..n][i] in s
    {
      assert s[d..][..n][i] == s[d + i];
    }
  }

  lemma TrimOfTrimmed(s: string)
    ensures Trimmed(s) || NoSpace(s) ==> RStrip(LStrip(s)) == s
  {
    if |s| > 0 && (Trimmed(s) || NoSpace(s)) {
      assert !IsSpace(s[0]) && !IsSpace(s[|s| - 1]);
      assert LStrip(s) == s;
    }
  }

  /** Trimming gives the empty string exactly for blank text. */
  lemma TrimEmptyIffBlank(s: string)
    ensures Trim(s) == "" <==> forall i :: 0 <= i < |s| ==> IsSpace(s[i])
  {
    var l := LStrip(s);
    if Trim(s) == "" {
      assert |l| == 0;
    }
  }

  /** Python's `sep.join(parts)`. */
  function JoinWith<T>(sep: seq<T>, parts: seq<seq<T>>): seq<T>
  {
    if |parts| == 0 then []
    else if |parts| == 1 then parts[0]
    else parts[0] + sep + JoinWith(sep, parts[1..])
  }

  /** Concatenation of all parts, `"".join(parts)`. */
  function Concat<T>(parts: seq<seq<T>>): seq<T>
  {
    if |parts| == 0 then [] else parts[0] + Concat(parts[1..])
  }

  /** `s` with every character of `cs` deleted. */
  function Remove(s: string, cs: set<char>): (r: string)
    ensures NoneIn(r, cs)
  {
    if |s| == 0 then ""
    else if s[0] in cs then Remove(s[1..], cs)
    else [s[0]] + Remove(s[1..], cs)
  }

  /** Number of characters of `s` that are in `cs`. */
  function CountIn(s: string, cs: set<char>): nat
  {
    if |s| == 0 then 0 else (if s[0] in cs then 1 else 0) + CountIn(s[1..], cs)
  }

  /** `re.split("[...]", s)` for a character class, or `s.split(sep)` when `seps` is one
      character: the pieces between separators, empty pieces included. */
  function SplitAny(s: string, seps: set<char>): (r: seq<string>)
    ensures |r| == CountIn(s, seps) + 1
    ensures forall i :: 0 <= i < |r| ==> NoneIn(r[i], seps)
    ensures Concat(r) == Remove(s, seps)
  {
    if |s| == 0 then [""]
    else
      var rest := SplitAny(s[1..], seps);
      if s[0] in seps then [""] + rest
      else
        assert Concat(rest) == rest[0] + Concat(rest[1..]);
        [[s[0]] + rest[0]] + rest[1..]
  }

  /** Splitting on one separator and joining with it again gives back the string. */
  lemma {:induction false} SplitJoin(s: string, sep: char)
    ensures JoinWith([sep], SplitAny(s, {sep})) == s
  {
    if |s| > 0 {
      var rest := SplitAny(s[1..], {sep});
      SplitJoin(s[1..], sep);
      if s[0] == sep {
        assert SplitAny(s, {sep}) == [""] + rest;
        assert ([""] + rest)[1..] == rest;
        assert s == [sep] + s[1..];
      } else {
        var r := SplitAny(s, {sep});
        assert r == [[s[0]] + rest[0]] + rest[1..];
        if |rest| == 1 {
          assert JoinWith([sep], r) == [s[0]] + rest[0];
          assert s == [s[0]] + s[1..];
        } else {
          assert r[1..] == rest[1..];
          assert JoinWith([sep], r) == [s[0]] + rest[0] + [sep] + JoinWith([sep], rest[1..]);
          assert JoinWith([sep], rest) == rest[0] + [sep] + JoinWith([sep], rest[1..]);
          assert s == [s[0]] + s[1..];
        }
      }
    }
  }

  /** Text without separators is one piece. */
  lemma {:induction false} SplitNoSep(p: string, seps: set<char>)
    requires NoneIn(p, seps)
    ensures SplitAny(p, seps) == [p]
  {
    if |p| > 0 {
      SplitNoSep(p[1..], seps);
      assert [p[0]] + p[1..] == p;
    }
  }

  /** A separator-free piece followed by a separator is split off first. */
  lemma {:induction false} SplitPrefix(p: string, sep: char, t: string, seps: set<char>)
    requires NoneIn(p, seps) && sep in seps
    ensures SplitAny(p + [sep] + t, seps) == [p] + SplitAny(t, seps)
  {
    if |p| == 0 {
      assert p + [sep] + t == [sep] + t;
      assert ([sep] + t)[1..] == t;
    } else {
      var u := p + [sep] + t;
      assert u[0] == p[0] && u[1..] == p[1..] + [sep] + t;
      SliceAvoids(p, 1, |p|, seps);
      assert p[1..] == p[1..|p|];
      SplitPrefix(p[1..], sep, t, seps);
      var rest := SplitAny(u[1..], seps);
      assert rest == [p[1..]] + SplitAny(t, seps);
      assert p[0] !in seps;
      assert SplitAny(u, seps) == [[p[0]] + rest[0]] + rest[1..];
      assert rest[0] == p[1..] && rest[1..] == SplitAny(t, seps);
      assert [p[0]] + p[1..] == p;
    }
  }

  /** Two separator-free pieces around one separator split into those two pieces. */
  lemma SplitTwo(a: string, c: char, b: string, seps: set<char>)
    requires NoneIn(a, seps) && NoneIn(b, seps) && c in seps
    ensures SplitAny(a + [c] + b, seps) == [a, b]
  {
    SplitPrefix(a, c, b, seps);
    SplitNoSep(b, seps);
  }

  /** Joining separator-free parts and splitting again gives back the parts. */
  lemma {:induction false} JoinSplit(parts: seq<string>, sep: char)
    requires |parts| >= 1
    requires forall i :: 0 <= i < |parts| ==> NoneIn(parts[i], {sep})
    ensures SplitAny(JoinWith([sep], parts), {sep}) == parts
  {
    if |parts| == 1 {
      SplitNoSep(parts[0], {sep});
    } else {
      JoinSplit(parts[1..], sep);
      SplitPrefix(parts[0], sep, JoinWith([sep], parts[1..]), {sep});
      assert [parts[0]] + parts[1..] == parts;
    }
  }

  /** Length of the run of non-space characters that starts `t`. */
  function WordLength(t: string): (n: nat)
    ensures n <= |t|
    ensures forall k :: 0 <= k < n ==> !IsSpace(t[k])
    ensures n < |t| ==> IsSpace(t[n])
    ensures n == 0 ==> |t| == 0 || IsSpace(t[0])
  {
    if |t| == 0 || IsSpace(t[0]) then 0 else 1 + WordLength(t[1..])
  }

  /** `s.split()`: the maximal runs of non-whitespace characters, in order. What it gives
      character by character is `SplitWhitespaceSpace` and `SplitWhitespaceLetter`. */
  function SplitWhitespace(s: string): (r: seq<string>)
    ensures forall i :: 0 <= i < |r| ==> |r[i]| > 0 && NoSpace(r[i])
    ensures r == [] <==> forall i :: 0 <= i < |s| ==> IsSpace(s[i])
    decreases |s|
  {
    var t := LStrip(s);
    if |t| == 0 then []
    else
      assert t[0] == s[|s| - |t|];
      var n := WordLength(t);
      WordIsWord(t);
      var rest := SplitWhitespace(t[n..]);
      ConsWords(t[..n], rest);
      [t[..n]] + rest
  }

  lemma ConsWords(w: string, rest: seq<string>)
    requires |w| > 0 && NoSpace(w)
    requires forall i :: 0 <= i < |rest| ==> |rest[i]| > 0 && NoSpace(rest[i])
    ensures forall i :: 0 <= i < |[w] + rest| ==> |([w] + rest)[i]| > 0 && NoSpace(([w] + rest)[i])
  {
    forall i | 0 <= i < |[w] + rest|
      ensures |([w] + rest)[i]| > 0 && NoSpace(([w] + rest)[i])
    {
      if i > 0 {
        assert ([w] + rest)[i] == rest[i - 1];
      }
    }
  }

  lemma WordIsWord(t: string)
    requires |t| > 0 && !IsSpace(t[0])
    ensures 0 < WordLength(t) && NoSpace(t[..WordLength(t)])
  {
    var n := WordLength(t);
    forall i | 0 <= i < n
      ensures !IsSpace(t[..n][i])
    {
      assert t[..n][i] == t[i];
    }
  }

  /** Words of a text that avoids some characters avoid them too. */
  lemma {:induction false} SplitWhitespaceAvoids(s: string, bad: set<char>)
    requires NoneIn(s, bad)
    ensures forall i :: 0 <= i < |SplitWhitespace(s)| ==> NoneIn(SplitWhitespace(s)[i], bad)
    decreases |s|
  {
    var t := LStrip(s);
    if |t| > 0 {
      var n := WordLength(t);
      SliceAvoids(s, |s| - |t|, |s|, bad);
      assert t == s[|s| - |t|..|s|];
      SliceAvoids(t, n, |t|, bad);
      SliceAvoids(t, 0, n, bad);
      assert t[n..] == t[n..|t|] && t[..n] == t[0..n];
      SplitWhitespaceAvoids(t[n..], bad);
      ConsAvoids(t[..n], SplitWhitespace(t[n..]), bad);
    }
  }

  lemma SliceAvoids(s: string, a: nat, b: nat, bad: set<char>)
    requires a <= b <= |s| && NoneIn(s, bad)
    ensures NoneIn(s[a..b], bad)
  {
    forall i | 0 <= i < b - a
      ensures s[a..b][i] !in bad
    {
      assert s[a..b][i] == s[a + i];
    }
  }

  lemma SuffixAvoids(s: string, r: string, bad: set<char>)
    requires |r| <= |s| && r == s[|s| - |r|..] && NoneIn(s, bad)
    ensures NoneIn(r, bad)
  {
    SliceAvoids(s, |s| - |r|, |s|, bad);
    assert r == s[|s| - |r|..|s|];
  }

  lemma ConsAvoids(w: string, rest: seq<string>, bad: set<char>)
    requires NoneIn(w, bad)
    requires forall i :: 0 <= i < |rest| ==> NoneIn(rest[i], bad)
    ensures forall i :: 0 <= i < |[w] + rest| ==> NoneIn(([w] + rest)[i], bad)
  {
    forall i | 0 <= i < |[w] + rest|
      ensures NoneIn(([w] + rest)[i], bad)
    {
      if i > 0 {
        assert ([w] + rest)[i] == rest[i - 1];
      }
    }
  }

  /** The shape `" ".join(s.split())` produces: trimmed, every whitespace character is a
      plain space, and a space is always followed by a non-space. */
  predicate Collapsed(s: string) {
    && Trimmed(s)
    && forall i :: 0 <= i < |s| && IsSpace(s[i]) ==> s[i] == ' ' && i + 1 < |s| && !IsSpace(s[i + 1])
  }

  lemma {:induction false} JoinWordsCollapsed(ws: seq<string>)
    requires forall i :: 0 <= i < |ws| ==> |ws[i]| > 0 && NoSpace(ws[i])
    ensures Collapsed(JoinWith(" ", ws))
    ensures |ws| > 0 ==> |JoinWith(" ", ws)| > 0 && !IsSpace(JoinWith(" ", ws)[0])
  {
    if |ws| > 1 {
      JoinWordsCollapsed(ws[1..]);
      var tail := JoinWith(" ", ws[1..]);
      var r := ws[0] + " " + tail;
      assert JoinWith(" ", ws) == r;
      assert forall i :: 0 <= i < |ws[0]| ==> r[i] == ws[0][i] && !IsSpace(r[i]);
      forall i | |ws[0]| <= i < |r| && IsSpace(r[i])
        ensures r[i] == ' ' && i + 1 < |r| && !IsSpace(r[i + 1])
      {
        if i == |ws[0]| {
          assert r[i + 1] == tail[0];
        } else {
          assert r[i] == tail[i - |ws[0]| - 1];
          if i + 1 < |r| { assert r[i + 1] == tail[i - |ws[0]|]; }
        }
      }
      assert r[0] == ws[0][0];
      assert r[|r| - 1] == tail[|tail| - 1];
    }
  }

  /** `" ".join(s.split())`. */
  function CollapseWhitespace(s: string): (r: string)
    ensures Collapsed(r)
  {
    var ws := SplitWhitespace(s);
    JoinWordsCollapsed(ws);
    JoinWith(" ", ws)
  }

  /** Collapsing introduces no character other than the plain space. */
  lemma CollapseAvoids(s: string, bad: set<char>)
    requires NoneIn(s, bad) && ' ' !in bad
    ensures NoneIn(CollapseWhitespace(s), bad)
  {
    SplitWhitespaceAvoids(s, bad);
    JoinAvoids(SplitWhitespace(s), bad);
  }

  lemma {:induction false} JoinAvoids(ws: seq<string>, bad: set<char>)
    requires forall i :: 0 <= i < |ws| ==> NoneIn(ws[i], bad)
    requires ' ' !in bad
    ensures NoneIn(JoinWith(" ", ws), bad)
  {
    if |ws| > 1 {
      JoinAvoids(ws[1..], bad);
    }
  }

  /** Splitting the joined words gives the words back, so collapsing keeps every word. */
  lemma {:induction false} SplitJoinWords(ws: seq<string>)
    requires forall i :: 0 <= i < |ws| ==> |ws[i]| > 0 && NoSpace(ws[i])
    ensures SplitWhitespace(JoinWith(" ", ws)) == ws
  {
    if |ws| == 0 {
      SplitEmpty();
    } else if |ws| == 1 {
      SplitJoinOne(ws);
    } else {
      WordsTail(ws);
      SplitJoinWords(ws[1..]);
      SplitJoinStep(ws);
    }
  }

  lemma SplitEmpty()
    ensures SplitWhitespace("") == [] && JoinWith(" ", []) == ""
  {
    assert LStrip("") == "";
  }

  lemma SplitJoinOne(ws: seq<string>)
    requires |ws| == 1 && |ws[0]| > 0 && NoSpace(ws[0])
    ensures SplitWhitespace(JoinWith(" ", ws)) == ws
  {
    assert JoinWith(" ", ws) == ws[0] + "";
    SplitOneWord(ws[0], "");
    SplitEmpty();
    Singleton(ws);
  }

  lemma SplitJoinStep(ws: seq<string>)
    requires |ws| > 1 && |ws[0]| > 0 && NoSpace(ws[0])
    requires SplitWhitespace(JoinWith(" ", ws[1..])) == ws[1..]
    ensures SplitWhitespace(JoinWith(" ", ws)) == ws
  {
    var tail := JoinWith(" ", ws[1..]);
    JoinCons(ws);
    assert (" " + tail)[0] == ' ';
    SplitOneWord(ws[0], " " + tail);
    SplitLeadingSpace(tail);
    calc {
      SplitWhitespace(JoinWith(" ", ws));
      SplitWhitespace(ws[0] + (" " + tail));
      [ws[0]] + SplitWhitespace(" " + tail);
      [ws[0]] + SplitWhitespace(tail);
      [ws[0]] + ws[1..];
      { HeadTail(ws); }
      ws;
    }
  }

  lemma HeadTail<T>(s: seq<T>)
    requires |s| > 0
    ensures [s[0]] + s[1..] == s
  {
  }

  lemma TakeDrop<T>(s: seq<T>, n: nat)
    requires n <= |s|
    ensures s[..n] + s[n..] == s
  {
  }

  lemma SplitAt<T>(s: seq<T>, n: nat)
    requires n < |s|
    ensures s[n..] == [s[n]] + s[n + 1..]
  {
  }

  lemma ThreeItems<T>(s: seq<T>)
    requires |s| == 3
    ensures s == [s[0], s[1], s[2]]
  {
  }

  lemma SixItems<T>(s: seq<T>)
    requires |s| == 6
    ensures s == [s[0], s[1], s[2], s[3], s[4], s[5]]
  {
  }

  lemma Singleton<T>(s: seq<T>)
    requires |s| == 1
    ensures s == [s[0]] && s == [s[0]] + []
  {
  }

  lemma WordsTail(ws: seq<string>)
    requires |ws| > 0
    requires forall i :: 0 <= i < |ws| ==> |ws[i]| > 0 && NoSpace(ws[i])
    ensures forall i :: 0 <= i < |ws[1..]| ==> |ws[1..][i]| > 0 && NoSpace(ws[1..][i])
  {
    forall i | 0 <= i < |ws[1..]|
      ensures |ws[1..][i]| > 0 && NoSpace(ws[1..][i])
    {
      assert ws[1..][i] == ws[i + 1];
    }
  }

  lemma JoinCons(ws: seq<string>)
    requires |ws| > 1
    ensures JoinWith(" ", ws) == ws[0] + (" " + JoinWith(" ", ws[1..]))
  {
  }

  lemma {:induction false} SplitLeadingSpace(t: string)
    ensures SplitWhitespace(" " + t) == SplitWhitespace(t)
  {
    var u := " " + t;
    assert u[1..] == t;
    assert IsSpace(u[0]);
    assert LStrip(u) == LStrip(t);
  }

  /** A word followed by nothing or by whitespace is split off first. */
  lemma SplitOneWord(w: string, t: string)
    requires |w| > 0 && NoSpace(w)
    requires |t| == 0 || IsSpace(t[0])
    ensures SplitWhitespace(w + t) == [w] + SplitWhitespace(t)
  {
    var j := w + t;
    assert LStrip(j) == j;
    WordLengthOfWord(w, t);
    assert j[..|w|] == w;
    assert j[|w|..] == t;
  }

  lemma {:induction false} WordLengthOfWord(w: string, t: string)
    requires NoSpace(w)
    requires |t| == 0 || IsSpace(t[0])
    ensures WordLength(w + t) == |w|
  {
    if |w| > 0 {
      WordLengthOfWord(w[1..], t);
      assert (w + t)[1..] == w[1..] + t;
    }
  }

  /** Whitespace in front of the text adds no word. */
  lemma SplitWhitespaceSpace(c: char, s: string)
    requires IsSpace(c)
    ensures SplitWhitespace([c] + s) == SplitWhitespace(s)
  {
    var u := [c] + s;
    assert u[1..] == s;
    assert LStrip(u) == LStrip(s);
  }

  /** A non-space character in front starts a word of its own when the text after it is
      empty or starts with whitespace, and otherwise joins the text's first word. */
  lemma SplitWhitespaceLetter(c: char, s: string)
    requires !IsSpace(c)
    ensures |s| > 0 && !IsSpace(s[0]) ==> |SplitWhitespace(s)| > 0
    ensures SplitWhitespace([c] + s) ==
      if |s| == 0 || IsSpace(s[0]) then [[c]] + SplitWhitespace(s)
      else [[c] + SplitWhitespace(s)[0]] + SplitWhitespace(s)[1..]
  {
    if |s| == 0 || IsSpace(s[0]) {
      SplitOneWord([c], s);
    } else {
      SplitJoinsFirstWord(c, s);
    }
  }

  lemma SplitJoinsFirstWord(c: char, s: string)
    requires !IsSpace(c) && |s| > 0 && !IsSpace(s[0])
    ensures |SplitWhitespace(s)| > 0
    ensures SplitWhitespace([c] + s) == [[c] + SplitWhitespace(s)[0]] + SplitWhitespace(s)[1..]
  {
    var m := WordLength(s);
    WordIsWord(s);
    var v := s[..m];
    var rest := s[m..];
    PrefixAndRest(s, m);
    SplitOneWord(v, rest);
    var w := [c] + v;
    ConsNoSpace(c, v);
    ConsAppend(c, v, rest);
    SplitOneWord(w, rest);
    SameTail(SplitWhitespace(s), SplitWhitespace([c] + s), v, w, SplitWhitespace(rest));
  }

  lemma ConsNoSpace(c: char, v: string)
    requires !IsSpace(c) && NoSpace(v)
    ensures NoSpace([c] + v)
  {
    var w := [c] + v;
    forall i | 0 <= i < |w| ensures !IsSpace(w[i]) {
      if i > 0 { assert w[i] == v[i - 1]; }
    }
  }

  lemma ConsAppend<T>(c: T, v: seq<T>, rest: seq<T>)
    ensures [c] + (v + rest) == ([c] + v) + rest
  {
  }

  lemma SameTail<T>(a: seq<T>, b: seq<T>, x: T, y: T, tail: seq<T>)
    requires a == [x] + tail && b == [y] + tail
    ensures |a| > 0 && a[0] == x && b == [y] + a[1..]
  {
    assert a[1..] == tail;
  }

  /** Trailing whitespace adds no word. */
  lemma {:induction false} SplitTrailingSpace(s: string, w: string)
    requires forall i :: 0 <= i < |w| ==> IsSpace(w[i])
    ensures SplitWhitespace(s + w) == SplitWhitespace(s)
    decreases |s|
  {
    if |s| == 0 {
      assert s + w == w;
    } else {
      var c := s[0];
      var t := s[1..];
      assert s == [c] + t;
      assert s + w == [c] + (t + w);
      SplitTrailingSpace(t, w);
      if IsSpace(c) {
        SplitWhitespaceSpace(c, t);
        SplitWhitespaceSpace(c, t + w);
      } else {
        SplitWhitespaceLetter(c, t);
        SplitWhitespaceLetter(c, t + w);
        if |t| > 0 {
          assert (t + w)[0] == t[0];
        } else {
          assert t + w == w;
        }
      }
    }
  }

  /** `split()` ignores the whitespace `lstrip` removes. */
  lemma SplitLStrip(s: string)
    ensures SplitWhitespace(LStrip(s)) == SplitWhitespace(s)
  {
    var l := LStrip(s);
    assert LStrip(l) == l;
  }

  /** `s.strip().split() == s.split()`. */
  lemma SplitTrim(s: string)
    ensures SplitWhitespace(Trim(s)) == SplitWhitespace(s)
  {
    SplitLStrip(s);
    SplitRStrip(LStrip(s));
  }

  /** `split()` ignores the whitespace `rstrip` removes. */
  lemma SplitRStrip(l: string)
    ensures SplitWhitespace(RStrip(l)) == SplitWhitespace(l)
  {
    var r := RStrip(l);
    PrefixAndRest(l, |r|);
    var w := l[|r|..];
    forall i | 0 <= i < |w| ensures IsSpace(w[i]) {
      assert w[i] == l[|r| + i];
    }
    SplitTrailingSpace(r, w);
  }

  lemma PrefixAndRest<T>(l: seq<T>, n: nat)
    requires n <= |l|
    ensures l == l[..n] + l[n..]
  {
  }

  /** Collapsing whitespace keeps the words and their order. */
  lemma CollapseKeepsWords(s: string)
    ensures SplitWhitespace(CollapseWhitespace(s)) == SplitWhitespace(s)
  {
    SplitJoinWords(SplitWhitespace(s));
  }

  /** Text already in collapsed form is left unchanged by collapsing. */
  lemma {:induction false} CollapseFixesCollapsed(s: string)
    requires Collapsed(s)
    ensures CollapseWhitespace(s) == s
    decreases |s|
  {
    if |s| > 0 {
      var n := WordLength(s);
      if n < |s| {
        CollapsedAfterSpace(s, n);
        CollapseFixesCollapsed(s[n + 1..]);
        assert s[n] == ' ' && n > 0;
        CollapseStep(s, n);
        assert CollapseWhitespace(s) == JoinWith(" ", SplitWhitespace(s));
      } else {
        CollapseOneWord(s);
      }
    }
  }

  /** Collapsed text of one word and more: the first word, one space, collapsed text. */
  lemma CollapseStep(s: string, n: nat)
    requires 0 < n == WordLength(s) && n + 1 < |s| && s[n] == ' '
    requires JoinWith(" ", SplitWhitespace(s[n + 1..])) == s[n + 1..]
    ensures JoinWith(" ", SplitWhitespace(s)) == s
  {
    var w := s[..n];
    var u := s[n + 1..];
    var ws := SplitWhitespace(u);
    calc {
      JoinWith(" ", SplitWhitespace(s));
      { SplitAfterWord(s, n); }
      JoinWith(" ", [w] + ws);
      { JoinFront(w, ws, u); }
      w + " " + u;
      { ConcatAssoc(w, " ", u); }
      w + (" " + u);
      { SplitAt(s, n); }
      w + s[n..];
      { TakeDrop(s, n); }
      s;
    }
  }

  /** Text that starts with a word and a space splits into that word and the words of the rest. */
  lemma SplitAfterWord(s: string, n: nat)
    requires 0 < n == WordLength(s) && n + 1 < |s| && s[n] == ' '
    ensures SplitWhitespace(s) == [s[..n]] + SplitWhitespace(s[n + 1..])
  {
    var w := s[..n];
    var u := s[n + 1..];
    SplitAt(s, n);
    assert s == w + s[n..];
    WordIsWord(s);
    SplitOneWord(w, s[n..]);
    SplitLeadingSpace(u);
  }

  lemma CollapseOneWord(s: string)
    requires Collapsed(s) && |s| > 0 && WordLength(s) == |s|
    ensures CollapseWhitespace(s) == s
  {
    var n := WordLength(s);
    assert s[..n] == s && s[n..] == "";
    SplitOneWord(s, "");
    assert s + "" == s;
    SplitEmpty();
    assert SplitWhitespace(s) == [s];
  }

  lemma ConcatAssoc<T>(a: seq<T>, b: seq<T>, c: seq<T>)
    ensures a + b + c == a + (b + c)
  {
  }

  /** What follows the first space of collapsed text is collapsed text. */
  lemma CollapsedAfterSpace(s: string, n: nat)
    requires Collapsed(s) && n < |s| && IsSpace(s[n])
    ensures n + 1 < |s| && Collapsed(s[n + 1..])
    ensures s[n..] == " " + s[n + 1..]
  {
    assert s[n] == ' ';
    assert s[n..][0] == ' ' && s[n..][1..] == s[n + 1..];
    var u := s[n + 1..];
    forall i | 0 <= i < |u| && IsSpace(u[i])
      ensures u[i] == ' ' && i + 1 < |u| && !IsSpace(u[i + 1])
    {
      assert u[i] == s[n + 1 + i];
    }
  }

  lemma JoinFront(w: string, ws: seq<string>, u: string)
    requires JoinWith(" ", ws) == u && |u| > 0
    ensures JoinWith(" ", [w] + ws) == w + " " + u
  {
    assert ([w] + ws)[1..] == ws;
  }

  /** Whether `pat` occurs in `s` at position `i`. */
  predicate OccursAt(s: string, pat: string, i: nat) {
    i + |pat| <= |s| && s[i..i + |pat|] == pat
  }

  /** `s.replace(pat, rep)`: leftmost, non-overlapping occurrences, scanning forward. */
  function ReplaceAll(s: string, pat: string, rep: string): (r: string)
    requires |pat| > 0
    decreases |s|
  {
    if |s| < |pat| then s
    else if s[..|pat|] == pat then rep + ReplaceAll(s[|pat|..], pat, rep)
    else [s[0]] + ReplaceAll(s[1..], pat, rep)
  }

  /** A prefix without the pattern's first character is copied as it is. */
  lemma {:induction false} ReplacePlain(p: string, t: string, pat: string, rep: string)
    requires |pat| > 0 && pat[0] !in p
    ensures ReplaceAll(p + t, pat, rep) == p + ReplaceAll(t, pat, rep)
    decreases |p|
  {
    if |p| > 0 {
      var s := p + t;
      assert s[1..] == p[1..] + t;
      if |s| >= |pat| {
        assert s[..|pat|][0] == p[0];
      } else {
        assert |t| < |pat|;
      }
      ReplacePlain(p[1..], t, pat, rep);
      assert [p[0]] + p[1..] == p;
    } else {
      assert p + t == t;
    }
  }

  /** An occurrence at the front is replaced. */
  lemma ReplaceHit(t: string, pat: string, rep: string)
    requires |pat| > 0
    ensures ReplaceAll(pat + t, pat, rep) == rep + ReplaceAll(t, pat, rep)
  {
    assert (pat + t)[..|pat|] == pat;
    assert (pat + t)[|pat|..] == t;
  }

  /** Cutting a text in two and gluing the halves back in front of `u`. */
  lemma SplitAppend(s: string, k: nat, u: string)
    requires k <= |s|
    ensures s[..k] + (s[k..] + u) == s + u
  {
    assert s[..k] + s[k..] == s;
  }

  lemma AppendAssoc(a: string, b: string, c: string)
    ensures (a + b) + c == a + (b + c)
  {
  }

  /** A text that differs from `p` somewhere in its first `|p|` characters does not start
      with `p`. */
  lemma PrefixDiffers(s: string, p: string, k: nat)
    requires k < |p| <= |s| && s[k] != p[k]
    ensures s[..|p|] != p && !StartsWith(s, p)
  {
    assert s[..|p|][k] == s[k];
  }

  /** A front that is not an occurrence gives up one character. */
  lemma ReplaceMiss(c: char, t: string, pat: string, rep: string)
    requires |pat| > 0 && |t| + 1 >= |pat| && ([c] + t)[..|pat|] != pat
    ensures ReplaceAll([c] + t, pat, rep) == [c] + ReplaceAll(t, pat, rep)
  {
    assert ([c] + t)[1..] == t;
  }

  /** A replacement with nothing to replace is the identity. */
  lemma {:induction false} ReplaceAbsent(s: string, pat: string, rep: string)
    requires |pat| > 0
    requires forall i :: 0 <= i <= |s| - |pat| ==> !OccursAt(s, pat, i)
    ensures ReplaceAll(s, pat, rep) == s
  {
    if |s| >= |pat| {
      assert !OccursAt(s, pat, 0);
      assert s[0..|pat|] == s[..|pat|];
      forall i | 0 <= i <= |s[1..]| - |pat| ensures !OccursAt(s[1..], pat, i) {
        assert s[1..][i..i + |pat|] == s[i + 1..i + 1 + |pat|];
        assert !OccursAt(s, pat, i + 1);
      }
      ReplaceAbsent(s[1..], pat, rep);
      assert [s[0]] + s[1..] == s;
    }
  }

  /** When the pattern's first character never occurs, nothing is replaced. */
  lemma ReplaceAbsentHead(s: string, pat: string, rep: string)
    requires |pat| > 0
    requires pat[0] !in s
    ensures ReplaceAll(s, pat, rep) == s
  {
    forall i | 0 <= i <= |s| - |pat| ensures !OccursAt(s, pat, i) {
      assert s[i..i + |pat|][0] == s[i];
    }
    ReplaceAbsent(s, pat, rep);
  }

  /** Replacing a single character by a text that does not contain it removes it. */
  lemma {:induction false} ReplaceCharRemoves(s: string, c: char, rep: string)
    requires c !in rep
    ensures c !in ReplaceAll(s, [c], rep)
  {
    if |s| > 0 {
      ReplaceCharRemoves(s[1..], c, rep);
    }
  }

  /** A replacement introduces no character that is neither in the input nor in `rep`. */
  lemma {:induction false} ReplaceAvoids(s: string, pat: string, rep: string, bad: set<char>)
    requires |pat| > 0
    requires NoneIn(s, bad) && NoneIn(rep, bad)
    ensures NoneIn(ReplaceAll(s, pat, rep), bad)
    decreases |s|
  {
    if |s| < |pat| {
    } else if s[..|pat|] == pat {
      ReplaceAvoids(s[|pat|..], pat, rep, bad);
    } else {
      ReplaceAvoids(s[1..], pat, rep, bad);
    }
  }

  /** Python slicing `s[:n]`: a negative `n` counts from the end. */
  function PyTake<T>(s: seq<T>, n: int): (r: seq<T>)
    ensures n >= 0 ==> |r| == if n < |s| then n else |s|
    ensures n < 0 ==> |r| == if -n < |s| then |s| + n else 0
    ensures r == s[..|r|]
  {
    if n >= 0 then (if n < |s| then s[..n] else s)
    else if -n < |s| then s[..|s| + n] else []
  }
}

=== FILE: unicode.dfy ===
/** The few per-character Unicode services the program borrows from Python: whitespace
    classification, lower-casing and canonical composition. Only the tables the program's
    data exercises are written out (see README, "Left out"). */
module Unicode {
  import opened Wrappers

  /** Python's `str.isspace`, which is also what `str.split()`, `str.strip()` and the regular
      expression class `\s` use on `str` values. */
  predicate IsSpace(c: char) {
    || ('\t' <= c <= '\r')
    || ('\U{1c}' <= c <= '\U{1f}')
    || c == ' '
    || c == '\U{85}'
    || c == '\U{a0}'
    || c == '\U{1680}'
    || ('\U{2000}' <= c <= '\U{200a}')
    || c == '\U{2028}'
    || c == '\U{2029}'
    || c == '\U{202f}'
    || c == '\U{205f}'
    || c == '\U{3000}'
  }

  /** Per-character lower-casing for the Latin and Greek letters (`str.lower`); every other
      character is its own lower case. */
  function Lower(c: char): (r: char)
    ensures IsSpace(r) <==> IsSpace(c)
    ensures r == c || ('A' <= c <= 'Z') || ('\U{386}' <= c <= '\U{3AB}')
  {
    if 'A' <= c <= 'Z' then (c as int + 32) as char
    else if '\U{391}' <= c <= '\U{3AB}' && c != '\U{3A2}' then (c as int + 32) as char
    else if c == '\U{386}' then '\U{3AC}'
    else if '\U{388}' <= c <= '\U{38A}' then (c as int + 37) as char
    else if c == '\U{38C}' then '\U{3CC}'
    else if c == '\U{38E}' || c == '\U{38F}' then (c as int + 63) as char
    else c
  }

  /** Lower-casing twice is lower-casing once. */
  lemma LowerIdempotent(c: char)
    ensures Lower(Lower(c)) == Lower(c)
  {
  }

  /** Letters with a case distinction (the Unicode property Cased) among the Latin and Greek
      letters of the `Lower` table. */
  predicate IsCased(c: char) {
    || ('A' <= c <= 'Z') || ('a' <= c <= 'z')
    || c == '\U{386}' || ('\U{388}' <= c <= '\U{38A}') || c == '\U{38C}'
    || ('\U{38E}' <= c <= '\U{3A1}') || ('\U{3A3}' <= c <= '\U{3CE}')
  }

  /** Characters lower-casing looks through when it decides whether a sigma ends a word (the
      Unicode property Case_Ignorable): apostrophes, full stop, colon, middle dots, spacing
      accents, combining marks and the Greek tonos signs. */
  predicate CaseIgnorable(c: char) {
    || c == '\'' || c == '.' || c == ':' || c == '^' || c == '`'
    || c == '\U{A8}' || c == '\U{AD}' || c == '\U{AF}' || c == '\U{B4}' || c == '\U{B7}' || c == '\U{B8}'
    || ('\U{300}' <= c <= '\U{36F}') || c == '\U{374}' || c == '\U{375}' || c == '\U{37A}'
    || c == '\U{384}' || c == '\U{385}' || c == '\U{387}'
    || c == '\U{2018}' || c == '\U{2019}' || c == '\U{2024}' || c == '\U{2027}'
  }

  /** Walking back from position `i` over case-ignorable characters reaches a cased letter. */
  predicate CasedBefore(s: string, i: nat)
    requires i <= |s|
    decreases i
  {
    i > 0 && if CaseIgnorable(s[i - 1]) then CasedBefore(s, i - 1) else IsCased(s[i - 1])
  }

  /** Walking forward from position `i` over case-ignorable characters reaches a cased letter. */
  predicate CasedAfter(s: string, i: nat)
    requires i <= |s|
    decreases |s| - i
  {
    i < |s| && if CaseIgnorable(s[i]) then CasedAfter(s, i + 1) else IsCased(s[i])
  }

  /** The Final_Sigma condition of the Unicode special casing rules: the character at `i`
      ends a word, with a cased letter before it and none after it. */
  predicate FinalSigmaAt(s: string, i: nat)
    requires i < |s|
  {
    CasedBefore(s, i) && !CasedAfter(s, i + 1)
  }

  const CapitalSigma: char := '\U{3A3}'
  const SmallSigma: char := '\U{3C3}'
  const FinalSigma: char := '\U{3C2}'

  /** The case-insensitive classes `re.IGNORECASE` adds on top of lower-casing: each lower-case
      character is mapped to one representative of its class. */
  function Canon(c: char): char {
    if c == FinalSigma then SmallSigma
    else if c == '\U{3D0}' then '\U{3B2}'
    else if c == '\U{3F5}' then '\U{3B5}'
    else if c == '\U{3D1}' then '\U{3B8}'
    else if c == '\U{3F0}' then '\U{3BA}'
    else if c == '\U{3D6}' then '\U{3C0}'
    else if c == '\U{3F1}' then '\U{3C1}'
    else if c == '\U{3D5}' then '\U{3C6}'
    else if c == '\U{B5}' then '\U{3BC}'
    else if c == '\U{345}' || c == '\U{1FBE}' then '\U{3B9}'
    else if c == '\U{1FD3}' then '\U{390}'
    else if c == '\U{1FE3}' then '\U{3B0}'
    else if c == '\U{131}' then 'i'
    else if c == '\U{17F}' then 's'
    else if c == '\U{1E9B}' then '\U{1E61}'
    else if c == '\U{FB05}' then '\U{FB06}'
    else c
  }

  /** The key under which `re.IGNORECASE` compares two characters: they match exactly when
      their keys are equal. Capital, small and final sigma share one key. */
  function Fold(c: char): (r: char)
    ensures IsSpace(r) <==> IsSpace(c)
    ensures c == CapitalSigma || c == SmallSigma || c == FinalSigma ==> r == SmallSigma
  {
    Canon(Lower(c))
  }

  /** `str.lower`: the per-character table, except that a capital sigma ending a word becomes
      final sigma. Every character of the result is its own lower case, keeps its
      case-insensitive key and its whitespace class. */
  function LowerString(s: string): (r: string)
    ensures |r| == |s|
    ensures forall i :: 0 <= i < |s| ==>
      r[i] == if s[i] == CapitalSigma && FinalSigmaAt(s, i) then FinalSigma else Lower(s[i])
    ensures forall i :: 0 <= i < |s| ==>
      Lower(r[i]) == r[i] && Fold(r[i]) == Fold(s[i]) && (IsSpace(r[i]) <==> IsSpace(s[i]))
  {
    seq(|s|, i requires 0 <= i < |s| =>
      if s[i] == CapitalSigma && FinalSigmaAt(s, i) then FinalSigma else Lower(s[i]))
  }

  /** Canonical composition of a Greek base letter with a following combining acute accent
      (U+0301) or diaeresis (U+0308), the pairs NFC merges into precomposed tonos and
      dialytika letters. */
  function Compose(base: char, mark: char): Option<char>
  {
    if mark == '\U{301}' then
      if base == '\U{3B1}' then Some('\U{3AC}')
      else if base == '\U{3B5}' then Some('\U{3AD}')
      else if base == '\U{3B7}' then Some('\U{3AE}')
      else if base == '\U{3B9}' then Some('\U{3AF}')
      else if base == '\U{3BF}' then Some('\U{3CC}')
      else if base == '\U{3C5}' then Some('\U{3CD}')
      else if base == '\U{3C9}' then Some('\U{3CE}')
      else if base == '\U{391}' then Some('\U{386}')
      else if base == '\U{395}' then Some('\U{388}')
      else if base == '\U{397}' then Some('\U{389}')
      else if base == '\U{399}' then Some('\U{38A}')
      else if base == '\U{39F}' then Some('\U{38C}')
      else if base == '\U{3A5}' then Some('\U{38E}')
      else if base == '\U{3A9}' then Some('\U{38F}')
      else None
    else if mark == '\U{308}' then
      if base == '\U{3B9}' then Some('\U{3CA}')
      else if base == '\U{3C5}' then Some('\U{3CB}')
      else if base == '\U{399}' then Some('\U{3AA}')
      else if base == '\U{3A5}' then Some('\U{3AB}')
      else None
    else None
  }

  /** A precomposed Greek letter, the only kind of character composition introduces. */
  predicate IsPrecomposedGreek(c: char) {
    '\U{386}' <= c <= '\U{3CE}'
  }

  /** `unicodedata.normalize("NFC", s)` restricted to the `Compose` table: every character of
      the result is either taken from the input or a precomposed Greek letter. */
  function Nfc(s: string): (r: string)
    ensures |r| <= |s|
    ensures forall i :: 0 <= i < |r| ==> r[i] in s || IsPrecomposedGreek(r[i])
  {
    if |s| < 2 then s
    else match Compose(s[0], s[1])
      case Some(c) => [c] + Nfc(s[2..])
      case None => [s[0]] + Nfc(s[1..])
  }

  /** Composition leaves text without combining marks untouched. */
  lemma {:induction false} NfcNoMarks(s: string)
    requires forall i :: 0 <= i < |s| ==> s[i] != '\U{301}' && s[i] != '\U{308}'
    ensures Nfc(s) == s
  {
    if |s| >= 2 {
      assert Compose(s[0], s[1]).None?;
      NfcNoMarks(s[1..]);
      assert [s[0]] + s[1..] == s;
    }
  }
}

=== FILE: wrappers.dfy ===
/** Option and Result, the failure-carrying values used across the model in place of
    Python's `None` returns and raised exceptions. */
module Wrappers {

  datatype Option<+T> = None | Some(value: T) {

    /** The value inside `Some`, or `default` (Python's `x or default` / `dict.get(k, d)`). */
    function GetOr(default: T): T {
      match this
      case Some(v) => v
      case None => default
    }
  }

  datatype Result<+R, +E> = Success(value: R) | Failure(error: E)
}
